=== FILE: README.md ===
# feb2 map generation, modelled in Dafny

This project models the procedural map generation of the roguelike *feb2*, together with the game rules the generators depend on. There are three generators:

- **Random rooms** (`make_map_simple_fast`, the one `make_map` uses). Up to 32 random rectangles are tried. A rectangle is kept only when it neither overlaps nor touches a rectangle kept earlier.
- **Modified binary space partition** (`bsp_mod`). The map is cut into cells with a random chance of leaving a cell unsplit. One room is centred in every cell. NPCs and items are rolled at every cell of each later room's partition cell; the first room's partition cell gets none.
- **Uniform binary space partition** (`bsp`, libtcod version). This one never skips a split. Each room gets a random number of NPC and item attempts.

All three share one assembly loop:

1. Start from solid rock.
2. Carve each room in order.
3. Anchor the level on the first room. On level 0 the player is moved there; on deeper levels down-stairs are pushed.
4. Join every later room to the previous one with an L-shaped tunnel, then furnish it.
5. Put up-stairs at the centre of the last room.

The supporting rules are modelled too:

- the level-indexed step tables (`from_map_level`);
- the NPC and loot tables and the objects they build;
- tiles;
- movement and blocking;
- fighters' stats, healing, damage, death and melee;
- equipping, picking up and dropping;
- levelling up and reincarnation;
- the AI state machine;
- the grid helpers of the rltk prototype.

Every random draw is an explicit parameter, constrained by a `requires` to the range the source draws from. This covers:

- `gen_range(a, b)`, which draws from `[a, b)`;
- `rand::random()`, which is a boolean coin;
- a weighted choice, which is an index into the filtered table.

Three Rust panics of the generators are modelled as an `Option.None` result:

- the `assert!` on an empty filtered table;
- indexing the player of an empty object list;
- indexing the last room of an empty room list.

The other panics of the rule modules are excluded by a `requires` instead. "## Left out" lists them.

Two more kinds of panic are also excluded by a `requires`: the partition's `assert!`s (the `requires` of `Partition.BinarySpacePartition`) and `gen_range` on an empty range (the draws' range predicates). Neither excludes an input the source accepts. The generators call them only with their own constants, and those always meet the requirements.

Integer casts that wrap are written out (`AsU32`, `AsI32`), and so is Rust's truncating `/` (`Rects.Quot`).

The modules follow the program:

| module | models |
|---|---|
| `Transitions` | src/transition.rs |
| `Tiles` | `Tile`, `Map` of src/map.rs |
| `Rects` | the three generators' `Rect`, `center`, `intersects_with` |
| `Carving` | `create_room`/`carve_room` and the two tunnel functions, shared by the three generators |
| `Partition` | `split_single_cell` and `binary_space_partition`, both variants |
| `Objects`, `Tables`, `NpcTable`, `LootTable` | src/objects.rs, src/npc_table.rs, src/loot_table.rs |
| `Moves`, `Equipping`, `PlayerRules`, `AiAlgos` | src/moves.rs, src/equipment.rs, src/player.rs, src/ai_algos.rs |
| `Placement`, `RoomPopulation`, `CellPopulation` | the generators' `place_objects` |
| `Levels` | the assembly loop the generators share |
| `SimpleFast`, `BspMod`, `BspUniform`, `GameMap` | the generators themselves and `make_map` |
| `RltkMap` | rltk/src/map.rs |

## Model

| member | source | states |
|---|---|---|
| Transitions.FromMapLevel | src/transition.rs:14-20 | The looked-up value is 0 or the value of some entry of the table. |
| Transitions.NoApplicableEntryGivesZero | src/transition.rs:14-20 | When no entry's level is at or below the query, the result is the default 0. |
| Transitions.LastApplicableEntryWins | src/transition.rs:14-20 | The result is the value of the highest-index entry whose level is at or below the query. |
| Transitions.EmptyTableGivesZero | src/transition.rs:14-20 | An empty table gives 0 at every level. |
| Transitions.AscendingTableIsStepFunction | src/transition.rs:14-20 | On an ascending table, every query between one threshold and the next gives that threshold's value, and queries below the first threshold give 0. |
| Transitions.ItemChanceIsNotMonotone | src/map_algos/bsp_mod.rs:120-128 | The item-chance table of the modified generator is honoured as written: 32 at level 10, back to 12 at level 11. |
| Tiles.TileKinds | src/map.rs:21-35 | Empty and wall tiles are unexplored, block sight exactly when they block movement, and block exactly when they are walls. |
| Tiles.AllWalls | src/map_algos/simple_fast.rs:152 | The initial map is an 80 by 43 grid, indexed `[x][y]`, of walls only, so its border is wall. |
| Tiles.OnlyDigsTransitive | src/map_algos/simple_fast.rs:67-90 | Two changes that only turn wall into floor compose into one such change. |
| Rects.Quot | src/map_algos/simple_fast.rs:52-53 | Integer division truncates toward zero, for negative as well as non-negative dividends. |
| Rects.Sized | src/map_algos/simple_fast.rs:41-48 | `Rect::new(x, y, w, h)` has its first corner at `(x, y)` and extents `w` and `h`. |
| Rects.Center | src/map_algos/simple_fast.rs:50-55 | The centre of a rectangle with non-negative corners lies within it and is the midpoint rounded down. |
| Rects.IntersectsIsSymmetricAndInclusive | src/map_algos/simple_fast.rs:57-63 | `intersects_with` is symmetric, and it holds exactly when the two rectangles share a cell, so touching edges count. |
| Rects.DisjointIffNoCommonCell | src/map_algos/bsp_mod.rs:193-201 | Two non-empty cells are disjoint exactly when no cell lies in both. |
| Carving.DugProperties | src/map_algos/simple_fast.rs:67-90 | Digging a box only turns wall into floor, keeps the grid's shape, keeps the border when the box is off the edge, and is idempotent. |
| Carving.CarveRoom | src/map_algos/bsp_mod.rs:62-69 | The room's cells strictly inside its corners become floor, and every other cell is unchanged. |
| Carving.CreateHTunnel | src/map_algos/bsp_mod.rs:72-77 | Exactly the row cells between the two ends inclusive become floor, whichever end comes first, and nothing else changes. |
| Carving.CreateVTunnel | src/map_algos/bsp_mod.rs:80-85 | Exactly the column cells between the two ends inclusive become floor, whichever end comes first, and nothing else changes. |
| Carving.JoinedByFloorPersists | src/map_algos/bsp_mod.rs:295-306 | A floor path between two centres survives any later digging. |
| Carving.CorridorFacts | src/map_algos/bsp_mod.rs:298-306 | An L-shaped tunnel only digs, keeps the border, floors its whole path and joins the two centres. |
| Carving.Connect | src/map_algos/bsp_mod.rs:298-306 | The coin orders the two runs: horizontal then vertical, or vertical then horizontal. Exactly the L-path through both centres becomes floor. |
| Partition.SplitRange | src/map_algos/bsp_mod.rs:173-176 | The cut range of a splittable cell lies at least the minimum size from both sides of the chosen axis and is never empty. |
| Partition.SplitSingleCell | src/map_algos/bsp_mod.rs:163-202 | The cell plus the `(-1,-1,-1,-1)` dummy comes back exactly when both extents are at most twice the minimum. Otherwise the cut at `at` gives two disjoint halves, along the axis the size and aspect rules choose, that cover the cell and are still big enough. |
| Partition.StepTilesCell | src/map_algos/bsp_mod.rs:228-237 | What one cell contributes to the next round is one or two big-enough cells inside it that tile it exactly. The dummy never enters the list. |
| Partition.RoundKeepsTiling | src/map_algos/bsp_mod.rs:223-245 | One round at most doubles the list and keeps its cells disjoint, big enough, and covering the same area. |
| Partition.RoundsKeepCellsApart | src/map_algos/bsp_mod.rs:223-246 | After any number of rounds the cells are pairwise disjoint and big enough. |
| Partition.RoundsKeepArea | src/map_algos/bsp_mod.rs:223-246 | After any number of rounds the cells cover exactly the area they started with. |
| Partition.RoundsBoundLength | src/map_algos/bsp_mod.rs:223-246 | After k rounds the list is at least as long as before and at most 2^k times as long. |
| Partition.BinarySpacePartition | src/map_algos/bsp_mod.rs:213-249 | The result exactly tiles the seed `(0, 0, width, height)` with disjoint, non-empty, big-enough cells, and it has between 1 and 2^iterations of them. |
| Partition.TerminalCellsAreFixed | libtcod/src/map_algos/bsp.rs:207-218 | Without carry-over, a round over cells that are all too small to split returns the list unchanged. |
| Objects.NumInSlot | src/objects.rs:38-45 | Chest and head hold one item, hands two, rings eight. |
| Objects.AsU32 | src/objects.rs:163 | `hp as u32` keeps non-negative values and wraps negative ones into `[0, 2^32)`. |
| Objects.AsI32 | src/objects.rs:208 | `base_max_hp as i32` keeps values below 2^31 and wraps larger ones into the `i32` range. |
| Objects.CastRoundTrip | src/objects.rs:163 | Storing an `i32` as `u32` and reading it back as `i32` gives the original value. |
| Objects.NewFighter | src/objects.rs:155-172 | A new fighter has the given stats, karma -1000, an empty inventory, maximum health equal to `hp`, and the NPC death callback exactly when `is_npc`. |
| Objects.GetAllEquipped | src/objects.rs:212-218 | Only equipped items are listed, and the list is empty exactly when nothing in the inventory is equipped. |
| Objects.GetAllEquippedConcat | src/objects.rs:212-218 | The listing goes item by item: the equipment worn in two inventories laid end to end is the first's list followed by the second's. |
| Objects.GetAllEquippedPush | src/objects.rs:215-216 | One more item adds its equipment to the end of the list exactly when it is worn. Together with `GetAllEquippedConcat` this fixes the list exactly: the worn items' equipment, in inventory order. |
| Objects.EquippedBonusIsInventoryBonus | src/objects.rs:184-218 | Summing a bonus over the equipped list equals summing it over the inventory, counting only worn equipment. |
| Objects.InventoryBonusAppend | src/objects.rs:184-218 | The bonus of an inventory with one more object grows by that object's bonus. |
| Objects.CarryingAddsBonus | src/objects.rs:184-209 | Power, defense and maximum health each equal the base plus the bonuses of exactly the worn items. Adding an object changes each by that object's bonus when it is worn, and by nothing otherwise. |
| Objects.Heal | src/objects.rs:175-181 | Health becomes `hp + amount` capped at the maximum, and nothing else changes. |
| Objects.HealMonotone | src/objects.rs:175-181 | Healing by a non-negative amount never lowers health, and two heals equal one heal by their sum. |
| Objects.KillKarma | src/objects.rs:225-227 | For a non-negative level, the karma a kill costs is zero exactly for zero xp. For a non-negative level and positive xp it is at least the victim's xp. |
| Objects.KillRewards | src/objects.rs:220-223 | xp grows by the victim's xp, karma changes by `kill_karma`, and nothing else changes. |
| Objects.PlayerDeath | src/objects.rs:107-114 | The player becomes a dark-red `%` that is not alive, and is otherwise unchanged. |
| Objects.NpcDeath | src/objects.rs:118-137 | The NPC becomes a dark-red, non-blocking `%` corpse with no fighter and no AI, named "remains of" plus its old name. Position, item and equipment are kept. |
| Objects.TakeDamage | src/objects.rs:308-326 | Only positive damage lowers health. When health ends at or below 0, the death callback runs and the fighter's xp is returned; otherwise 0 is returned. An object without a fighter is untouched. |
| Objects.ISqrt | src/objects.rs:342 | The integer square root is the largest r with r*r at most n. |
| Objects.MeleeAttack | src/objects.rs:328-358 | With positive damage (power minus defense), the attacker loses the square root of the damage in karma, the target takes the damage, and a kill yielding xp is rewarded. Otherwise neither side changes. |
| Objects.AttackNeverRaisesKarma | src/objects.rs:328-358 | With non-negative levels and xp, attacking never raises the attacker's karma. |
| Objects.Equip | src/objects.rs:366-388 | An item with equipment becomes worn and nothing else about it changes. Any other object is unchanged. |
| Objects.Dequip | src/objects.rs:391-413 | An item with equipment is taken off and nothing else about it changes. Any other object is unchanged. |
| Objects.EquipDequipRoundTrip | src/objects.rs:366-413 | Taking off an item just equipped restores it, and equipping twice is equipping once. |
| Tables.FilterKeeps | src/npc_table.rs:82-88 | The filtered table holds exactly the rows that pass the filter. |
| Tables.FilterConcat | src/loot_table.rs:113-119 | Filtering keeps the table's order: filtering a concatenation concatenates the filtered parts. |
| Tables.FilterLength | src/npc_table.rs:82-88 | The filtered table has exactly as many rows as pass the filter. |
| Tables.CountKeptConcat | src/loot_table.rs:113-119 | The number of rows passing the filter in two concatenated tables is the sum of the two numbers. |
| NpcTable.Generate | src/npc_table.rs:61-70 | An NPC is built blocking and alive at `(-1, -1)` with the row's glyph, name, colour and AI. Its fighter has the row's maximum and starting health, defense, attack and xp, and the NPC death callback. |
| NpcTable.TableRows | src/npc_table.rs:74-79 | Every row has `min_level < max_level` and positive weight. The orc spans levels -99 to 99 and every other row starts at level 1 or later. |
| NpcTable.TrimByLevelKeeps | src/npc_table.rs:82-88 | Exactly the rows with `min_level <= level <= max_level` are kept. |
| NpcTable.CountIsTrimmedLength | src/npc_table.rs:74-88 | The rows' level spans (orc -99 to 99, troll 1 to 99) give the length of the trimmed table at every level. |
| NpcTable.GenerateNpc | src/npc_table.rs:92-106 | It panics exactly when no row is allowed at the level. Otherwise the NPC is built from an allowed row and blocks, lives and fights. |
| NpcTable.TrimmedTableIsNonEmpty | src/npc_table.rs:76-95 | Because of the orc row, some NPC is allowed at every level from -99 to 99. |
| NpcTable.OnlyOrcsBelowLevelOne | src/npc_table.rs:76-77 | Below level 1, whatever index is picked, the NPC is an orc. |
| LootTable.Generate | src/loot_table.rs:59-73 | A loot object is non-blocking at `(-1, -1)` and carries the row's item. It has equipment, unworn and with the row's bonuses, exactly when the bonuses sum to more than 0, and it is stackable exactly when it has none. |
| LootTable.TableRows | src/loot_table.rs:91-110 | The twelve rows have `min_level < max_level` and positive weights, and the healing potion spans levels -99 to 99. |
| LootTable.TrimByLevelKeeps | src/loot_table.rs:113-119 | Exactly the rows with `min_level <= level <= max_level` are kept. |
| LootTable.CountIsTrimmedLength | src/loot_table.rs:91-119 | The twelve rows' level spans give the length of the trimmed table at every level. |
| LootTable.TrimmedTableIsNonEmpty | src/loot_table.rs:104-126 | Because of the healing-potion row, some item is allowed at every level from -99 to 99. |
| LootTable.GenerateFloorItem | src/loot_table.rs:123-137 | It panics exactly when no row is allowed. Otherwise the item is built from a row allowed at the level, and it never panics for levels -99 to 99. |
| LootTable.FloorItemIsItem | src/loot_table.rs:59-73 | A generated floor item is a non-blocking, unworn item without fighter or AI. |
| Moves.IsBlocked | src/moves.rs:20-30 | A wall always blocks. On floor, a cell is blocked exactly when some blocking object stands on it. |
| Moves.CorpseDoesNotBlock | src/objects.rs:133 | Once the only blocker on a floor cell dies, the cell is free. |
| Moves.MoveBy | src/moves.rs:34-41 | The move succeeds exactly when the destination is not blocked. Then only the mover's position changes; otherwise nothing changes. |
| Moves.MoveBackRestores | src/moves.rs:34-41 | A successful move followed by the opposite move restores the object list. |
| Moves.FindFighterAt | src/moves.rs:66-68 | It returns the first index of an object with a fighter at the cell, or none when no such object exists. |
| Moves.PlayerAttack | src/moves.rs:72-78 | The target takes the player's blow. The player is exactly the attacker as the blow left it, including the xp a kill earned, except that it pays one more karma. The player stays where it is, and every other object is unchanged. |
| Moves.PlayerMoveOrAttack | src/moves.rs:58-87 | When a fighter stands on the target, the player attacks it without moving and takes the turn. The player is then exactly the attacker as the blow left it, except that it pays one more karma. Otherwise the turn is taken exactly when the move succeeds. |
| Equipping.CountWornUpdate | src/equipment.rs:26-43 | Replacing one inventory entry changes the worn count of a slot only by that entry's contribution. |
| Equipping.FirstWorn | src/equipment.rs:26-43 | The earliest index worn in a slot: it is worn there, no earlier index is, and there is none exactly when nothing is worn there. |
| Equipping.GetEquippedInSlot | src/equipment.rs:26-43 | None exactly when nothing worn is in the slot. Otherwise it returns the ascending indices of exactly the worn items in that slot, as many as `CountWorn`. |
| Equipping.FirstOfWornIndices | src/equipment.rs:26-43 | The first of such indices is `FirstWorn`: `filled[0]` in `toggle_equipment` is the slot's earliest worn item. |
| Equipping.ToggleEquipment | src/equipment.rs:46-66 | An object without equipment gives `Cancelled` and no change. Otherwise the result is `UsedAndKept` and the inventory is given exactly: a worn item is taken off and nothing else changes. An unworn item is put on; when something is worn in its slot and the slot holds one item or is full (`MakesRoom`), the slot's earliest worn item (`FirstWorn`) is taken off first, and no other item changes. Only wear flags change, the fighter's other fields are kept, and so is the per-slot limit. |
| Equipping.SwapRemove | src/equipment.rs:84 | `swap_remove` returns the element, moves the last element into its place and keeps the rest, so the multiset is preserved. |
| Equipping.PickItemUp | src/equipment.rs:72-89 | A full player inventory leaves everything unchanged. Otherwise the object leaves the level's list by `swap_remove` and joins the end of the picker's inventory. |
| Equipping.DropItem | src/equipment.rs:92-101 | The entry leaves the inventory, is placed at the dropper's position and is appended to the level's objects. It is taken off as `Objects.Dequip` does: the slot and the bonuses are kept, and only `equipped` is cleared. Nothing is lost. |
| Equipping.DropThenPickUp | src/equipment.rs:72-101 | Dropping an item and picking it straight back up restores the level's other objects and keeps the same multiset of inventory entries. |
| PlayerRules.XpToLevelUp | src/player.rs:19-21 | The threshold is at least the base from level -1 on, and one factor more from level 0 on. |
| PlayerRules.ThresholdGrows | src/player.rs:19-21 | Each level raises the threshold by exactly `LEVEL_UP_FACTOR`, so higher levels need strictly more xp. |
| PlayerRules.LevelUp | src/player.rs:24-69 | Below the threshold nothing changes. Otherwise level rises by one and xp drops by the threshold. Choice 0 adds 20 to base and current health, 1 adds 1 to power, 2 adds 1 to defense, and nothing else changes. |
| PlayerRules.ConstitutionAddsTwenty | src/player.rs:55-59 | Choosing constitution raises maximum health by exactly 20. |
| PlayerRules.ReincarnateReset | src/player.rs:106-121 | The player is alive, a white `@` at level 0 at `(0, 0)`, with health 100, defense 2, power 3, no xp and no inventory. Karma, name and every other field are kept. |
| PlayerRules.ReincarnateResetIdempotent | src/player.rs:106-121 | Resetting twice is resetting once. |
| AiAlgos.AiBasic | src/ai_algos.rs:37-52 | The basic AI always stays basic. |
| AiAlgos.AiConfused | src/ai_algos.rs:55-85 | With turns left (`num_turns >= 0`), the NPC staggers and stays confused with one turn fewer. Otherwise the previous AI comes back and nothing moves. |
| AiAlgos.AiTakeTurn | src/ai_algos.rs:22-34 | An object without AI is untouched. Otherwise its AI becomes the handler's result, and no other object changes. |
| AiAlgos.ConfusionWearsOff | src/ai_algos.rs:63-84 | After k turns the countdown has dropped by k. A confusion of n turns gives back the previous AI after exactly n + 2 turns. |
| AiAlgos.ConfusionWearsOffAtEnd | src/ai_algos.rs:63-84 | A confusion of n turns gives back the previous AI after exactly n + 2 turns. |
| RltkMap.XyIdx | rltk/src/map.rs:14-16 | On the 80 by 50 grid the index is in range and gives back x as its remainder and y as its quotient by 80. |
| RltkMap.XyIdxInjective | rltk/src/map.rs:14-16 | Two grid cells with the same index are the same cell. |
| RltkMap.Bordered | rltk/src/map.rs:22-32 | After the border loops, a cell is wall exactly when it lies on the map's border. |
| RltkMap.NewMapTest | rltk/src/map.rs:21-48 | A cell is wall exactly when it is on the border or was splatted and is not the middle cell (40, 25). |
| RltkMap.ApplyRoomToMap | rltk/src/map.rs:52-58 | Exactly the cells `x1+1 ..= x2` by `y1+1 ..= y2` become floor, with inclusive upper bounds, and nothing else changes. |
| RltkMap.Tunneled | rltk/src/map.rs:62-78 | A tunnel floors exactly its run's indices strictly between 0 and 80*50 and leaves every other index unchanged. |
| RltkMap.ApplyHorizontalTunnel | rltk/src/map.rs:62-69 | The row cells between the two ends inclusive whose index lies in `(0, 4000)` become floor, and nothing else changes. |
| RltkMap.ApplyVerticalTunnel | rltk/src/map.rs:71-78 | The column cells between the two ends inclusive whose index lies in `(0, 4000)` become floor, and nothing else changes. |
| RltkMap.TunnelFacts | rltk/src/map.rs:62-78 | A tunnel digs the same cells whichever end it starts from, never walls a floor, and digging it twice is digging it once. |
| RltkMap.NewMapRoomsAndCorridors | rltk/src/map.rs:81-92 | The floor is exactly the two rooms and row 23 from x = 25 to 40, so the corridor is floor. |
| Placement.TablesAreNonEmpty | src/npc_table.rs:76-95 | Both tables offer some entry at every level from -99 to 99. |
| Placement.MakeNpc | src/map_algos/bsp_mod.rs:136-139 | It panics exactly when no NPC is allowed. Otherwise the NPC stands at the cell and blocks, lives and fights. |
| Placement.MakeItem | src/map_algos/bsp_mod.rs:144-147 | It panics exactly when no item is allowed. Otherwise the item stands at the cell and neither blocks nor fights. |
| Placement.FreePlacementKeepsUnstacked | src/map_algos/simple_fast.rs:113-119 | Pushing objects only where `is_blocked` was false never puts two blockers on one cell. |
| Placement.PlacementsCompose | src/map_algos/simple_fast.rs:99-146 | Two runs of placements at free cells form one run. |
| RoomPopulation.Attempts | src/map_algos/simple_fast.rs:108-120 | Each attempt pushes at most one object of its kind, and only at a cell strictly inside the room that was free at that moment. It panics only on an empty table. |
| RoomPopulation.Taken | src/map_algos/simple_fast.rs:108-120 | The reference for one attempt loop, judged only from the objects before the loop. Attempt `k` pushes when its cell is not blocked by a wall or an earlier object and, for NPCs, which block, no earlier attempt chose the same cell. At most one object per attempt, each of the loop's kind. |
| RoomPopulation.AttemptsPushExactly | src/map_algos/simple_fast.rs:108-120 | While the table has entries, the loop pushes exactly `Taken`, in attempt order: no attempt on a free cell is lost and nothing else is pushed. |
| RoomPopulation.AttemptsSucceed | src/map_algos/simple_fast.rs:115 | Attempts never panic while the table has entries. |
| RoomPopulation.FreeFirstSpotIsTaken | src/map_algos/simple_fast.rs:113-119 | An attempt at a free floor cell pushes its object there. |
| RoomPopulation.WalledSpotsPlaceNothing | src/map_algos/simple_fast.rs:113-119 | Attempts at blocked cells push nothing. |
| RoomPopulation.PlaceObjects | src/map_algos/simple_fast.rs:93-147 | At most `max_npcs` NPCs and then at most `max_items` items are pushed, each strictly inside the room on a cell free at that moment. Nothing already listed changes, blockers never stack, and nothing panics up to level 99. |
| RoomPopulation.PlaceObjectsExactly | src/map_algos/simple_fast.rs:93-147 | The pushed objects are exactly the NPC loop's `Taken`, at most `max_npcs` NPCs, followed by the item loop's `Taken`, at most `max_items` items, judged from the objects after the NPCs. |
| CellPopulation.Roll | src/map_algos/bsp_mod.rs:133-148 | A roll below the chance pushes exactly one object of its kind at the cell; otherwise nothing is pushed. |
| CellPopulation.VisitCell | src/map_algos/bsp_mod.rs:133-149 | A blocked cell gets nothing. A free cell gets an NPC exactly when its NPC roll is below `npc_chance`, then an item exactly when its item roll is below `item_chance`. |
| CellPopulation.ScanColumn | src/map_algos/bsp_mod.rs:132-150 | Scanning one column of the partition gives every cell its outcome and pushes only in that column. |
| CellPopulation.ScanColumns | src/map_algos/bsp_mod.rs:131-151 | Scanning the remaining columns gives every cell of them its outcome. |
| CellPopulation.PlaceObjects | src/map_algos/bsp_mod.rs:109-152 | Every cell of the partition, edges included, gets an NPC exactly when it was free and its roll was below `npc_chance`, and likewise for items. Objects are pushed only inside the partition, on floor, without stacking blockers, and nothing panics up to level 99. |
| Levels.Stairs | src/map_algos/simple_fast.rs:189-190 | Stairs are non-blocking and always visible at the given cell. |
| Levels.Anchor | src/map_algos/simple_fast.rs:182-192 | On level 0 only the player moves, to the first centre, and a missing player panics. On deeper levels down-stairs are pushed at the first centre. |
| Levels.Populate | src/map_algos/simple_fast.rs:211-212 | Furnishing a room pushes objects only on floor inside its own area, keeps blockers unstacked, and does not panic up to level 99. |
| Levels.RoomIsPlanned | src/map_algos/simple_fast.rs:177 | Every room carved so far stays floor in the plan of the whole level. |
| Levels.Dig | src/map_algos/simple_fast.rs:177-209 | Carving a room and its tunnel from the previous centre turns exactly the room's inside and the L-path into floor. |
| Levels.AddRoom | src/map_algos/simple_fast.rs:177-212 | A later room is carved and tunnelled to the previous centre. Then it is furnished by `Populate` on the map as dug so far, this room and its tunnel included. The map only digs, and objects land on floor. |
| Levels.DugStep | src/map_algos/simple_fast.rs:177-209 | Digging room `n` and its tunnel into the reference map of the first `n` rooms gives the reference map of the first `n + 1`. That map is floor on the planned cells and wall everywhere else. |
| Levels.FurnishedStaysNone | src/map_algos/simple_fast.rs:159-212 | Once furnishing a room has failed, the reference furnishing of every longer prefix of rooms has failed too. |
| Levels.FirstRoom | src/map_algos/simple_fast.rs:152-177 | The first room carved into solid rock is exactly the reference map of one room: its inside is floor, and the rest is wall. |
| Levels.LaterRooms | src/map_algos/simple_fast.rs:159-217 | The objects returned are exactly the reference furnishing `Furnished`: every later room is furnished in order on the map of the rooms up to it, and the result is `None` as soon as one furnishing fails. After every room the map is the reference map of the rooms so far, consecutive centres are joined, and pushed objects stand on floor. |
| Levels.Finish | src/map_algos/simple_fast.rs:220-226 | The up-stairs go at the last centre, after the reference furnishing. The finished level's down and up positions are the first and last centres, both on floor. |
| Levels.LevelOkUnique | src/map_algos/simple_fast.rs:150-227 | At most one level satisfies `LevelOk` for given rooms, anchored objects and depth. The map, the objects and both positions are all fixed. |
| Levels.Build | src/map_algos/simple_fast.rs:150-227 | The level fails exactly when there is no room, when there is no player on level 0, or when a room's furnishing fails (`Fails`). The map is the reference map of all rooms: the 80 by 43 grid, wall on the border, and its floor is exactly the rooms and the tunnels between consecutive centres. The objects are the anchored list, then every later room's furnishing in order (`Furnished`), then the up-stairs. Down is the first centre and up the last. The up-stairs are the last object, and everything pushed stands on floor with blockers unstacked. |
| BspMod.PartRoom | src/map_algos/bsp_mod.rs:88-99 | The room has the drawn size, stays within one cell past the partition's far edges, and is centred in it, rounding down. |
| BspMod.PartRoomFits | src/map_algos/bsp_mod.rs:88-102 | The cells a partition room digs lie inside its partition cell and off the map's edge, and they include the room's centre. |
| BspMod.Parts | src/map_algos/bsp_mod.rs:267 | The partition tiles `(0, 0, 78, 41)` with 1 to 32 big-enough cells. |
| BspMod.PlanOk | src/map_algos/bsp_mod.rs:272-274 | Every room meets the assembly loop's needs and digs only inside its own partition cell. |
| BspMod.RoomsApart | src/map_algos/bsp_mod.rs:272-274 | No cell is dug by the rooms of two different partition cells. |
| BspMod.MakeMap | src/map_algos/bsp_mod.rs:260-325 | Everything `Levels.Build` promises (exact failure condition, reference map and reference furnishing), for one centred room per partition cell, each later room furnished cell by cell over its partition. |
| BspUniform.CellRoom | libtcod/src/map_algos/bsp.rs:252-262 | The room built from `Rect::new` is the same room the modified generator builds from corners. |
| BspUniform.Parts | libtcod/src/map_algos/bsp.rs:246 | The partition, without carry-over, tiles `(0, 0, 78, 41)` with 1 to 64 big-enough cells. |
| BspUniform.PlanOk | libtcod/src/map_algos/bsp.rs:251-265 | Every room meets the assembly loop's needs and digs only inside its own partition cell. |
| BspUniform.MakeMap | libtcod/src/map_algos/bsp.rs:239-314 | Everything `Levels.Build` promises (exact failure condition, reference map and reference furnishing), for one centred room per partition cell, each later room furnished by random attempts inside it. |
| SimpleFast.Accept | src/map_algos/simple_fast.rs:159-175 | There are at most as many kept rooms as candidates, pairwise neither overlapping nor touching, and the first candidate is always kept. |
| SimpleFast.AcceptCovers | src/map_algos/simple_fast.rs:169-175 | Every kept room is a candidate, and every rejected candidate clashes with a kept room. |
| SimpleFast.AcceptPrefix | src/map_algos/simple_fast.rs:159-175 | Later candidates never displace a kept room: the rooms kept from the first `i` candidates begin the rooms kept from all of them. |
| SimpleFast.AcceptIsGreedy | src/map_algos/simple_fast.rs:169-175 | Candidate `i` is kept, right after the rooms kept from the candidates before it, exactly when it clashes with none of those kept rooms. Rejected candidates do not count. Together with `AcceptPrefix`, which puts this step's result at the head of `Accept(cands)`, it fixes the kept rooms as the in-order greedy selection. |
| SimpleFast.Plan | src/map_algos/simple_fast.rs:167-216 | One planned room per kept candidate, in order, with the candidate's rectangle. |
| SimpleFast.CandidateRoomOk | src/map_algos/simple_fast.rs:161-167 | A candidate's dug cells lie off the map's edge and include its centre. |
| SimpleFast.PlanOk | src/map_algos/simple_fast.rs:159-221 | Between 1 and 32 rooms are kept, so indexing the last room is safe. They do not intersect and meet the assembly loop's needs. |
| SimpleFast.MakeMap | src/map_algos/simple_fast.rs:150-227 | Everything `Levels.Build` promises (exact failure condition, reference map and reference furnishing), for the kept candidates. |
| GameMap.MakeMap | src/map.rs:55-57 | From the same draws, `make_map` fails exactly when the random-rooms generator fails. Otherwise it satisfies `LevelOk` for the same kept rooms, and by `Levels.LevelOkUnique` that is the generator's level. |

## Left out

- Out-of-bounds map indexing panics in the source; here it is excluded by a `requires` on `Moves.IsBlocked`, `Moves.MoveBy`, `Moves.PlayerMoveOrAttack` and `AiAlgos.AiConfused`.
- `mut_two` on two equal indices panics in the source; here it is excluded by `t != PLAYER` on `Moves.PlayerAttack` and by a non-zero step on `Moves.PlayerMoveOrAttack`.
- The `unwrap` of a missing fighter panics in the source; here it is excluded by a `requires` on `Objects.MeleeAttack`, `PlayerRules.LevelUp`, `Moves.PlayerAttack`, `Moves.PlayerMoveOrAttack`, `Equipping.PickItemUp` and `Equipping.DropItem`.
- Inventory indexing out of range panics in the source; here it is excluded by the `invId` bound on `Equipping.ToggleEquipment` and `Equipping.DropItem`.
- `pick_item_up` indexes the picker after `swap_remove`, which panics when the picker was the last object; `Equipping.PickItemUp` requires the picker not to be last.
- The game loop and interface are left out: src/main.rs, the menus, the user interface, rendering, field of view, save and load, and message text and colours. They are I/O. The copy of the map generator inside src/main.rs is stale and is not modelled.
- Floating-point code is left out: `distance`, `distance_to`, `move_towards` and `get_color`. The `h / w > 3.0` ratio tests are modelled as `h > 3 * w`, which is exact for the positive widths reached. The square-root karma penalty is the integer square root.
- `ai_basic`'s movement and attack are left out, because they depend on field of view and the float-based `move_towards`. Only the AI it returns is modelled.
- The `rand` crate and `WeightedChoice` are not modelled. Draws are range-constrained parameters, and a weighted choice is an index below the filtered table's length.
- `Game` and `make_maps` (the list of levels) are left out, and so is `NUM_LVLS`. `Game` in src/objects.rs does not match its uses in src/moves.rs.
- `INVENTORY_MAX`, `LEVEL_UP_BASE` and `LEVEL_UP_FACTOR` are used but not defined. They are abstract positive constants.
- The extra corridor between non-adjacent partitions is not modelled. src/map_algos/bsp_mod.rs:316 has only a TODO for it.
- 32-bit overflow is not modelled, except for the explicit `as u32`/`as i32` casts. Coordinates, xp, karma and health are unbounded integers.
- Duplicated code is modelled once. `create_room`, the tunnel functions and `Rect` are the same in all three generators, and the room-based `place_objects` of src/map_algos/simple_fast.rs and libtcod/src/map_algos/bsp.rs is identical.
- The comment at src/map_algos/bsp_mod.rs:229 says 1-in-20, but the code draws `gen_range(0, 21)`. The model follows the code: 0 out of 21 values.
- A rejected random-rooms candidate still carries the fill draws it would have used. The source never draws them, so they are ignored.
- The per-cell rolls of the modified generator are a total function from cell to roll, constrained only inside the partition.
- RltkMap.ApplyRoomToMap: requires that a non-empty room lie on the 80 by 50 grid. The source would index out of range, or wrap the index, otherwise.
- RltkMap.NewMapTest: requires the 400 splat draws to be within `roll_dice(1, 79)` by `roll_dice(1, 49)`. The distribution is not modelled.
- PlayerRules.ConstitutionAddsTwenty: holds only while the stored base health plus 20 stays below 2^31, because of the `as i32` read-back.
- Levels.Build and the generators' MakeMap: promise success only up to level 99, where both tables still have rows. At deeper levels the empty-table panic is the `None` result.
- `player_use_item` is left out: it dispatches to spells in src/magic.rs, which is not part of this model. Its equipment branch is `Equipping.ToggleEquipment`.
- rltk/src/rect.rs is not part of this model. Its `Rect::new(x, y, w, h)` is taken to store `x2 = x + w` and `y2 = y + h`, like the other generators.

=== FILE: ai_algos.dfy ===
/** NPC behaviour (src/ai_algos.rs) as a transition of the AI state. A
    confused NPC staggers by a random step each turn; the basic AI's chase
    and attack (field of view, float distances) are outside this model. */
module AiAlgos {
  import opened Options
  import opened Tiles
  import opened Objects
  import opened Moves

  /** `ai_basic`: whatever happens, the NPC stays basic. */
  function AiBasic(): (r: Ai)
    ensures r == Basic && !r.Confused?
  {
    Basic
  }

  /** The step a confused NPC tries: each coordinate drawn from
      `gen_range(-1, 2)`. */
  predicate StaggerOk(dx: int, dy: int) {
    -1 <= dx < 2 && -1 <= dy < 2
  }

  /** `ai_confused`: while `numTurns` is not negative the NPC tries the random
      step and stays confused for one turn fewer; after that it gets its
      previous AI back and does not move. */
  function AiConfused(npcId: nat, m: Map, objects: seq<Object>, previousAi: Ai, numTurns: int,
                      dx: int, dy: int): (r: (Ai, seq<Object>))
    requires npcId < |objects|
    requires numTurns >= 0 ==> StaggerOk(dx, dy) && InMap(m, objects[npcId].x + dx, objects[npcId].y + dy)
    ensures numTurns >= 0 ==> r.0 == Confused(previousAi, numTurns - 1)
                              && r.1 == MoveBy(npcId, dx, dy, m, objects).1
    ensures numTurns < 0 ==> r == (previousAi, objects)
  {
    if numTurns >= 0 then
      (Confused(previousAi, numTurns - 1), MoveBy(npcId, dx, dy, m, objects).1)
    else (previousAi, objects)
  }

  /** The AI an NPC has after one turn. */
  function NextAi(ai: Ai): Ai {
    match ai
    case Basic => Basic
    case Confused(previous, n) => if n >= 0 then Confused(previous, n - 1) else previous
  }

  /** The random step is only needed by a confused NPC that still staggers. */
  predicate TurnDrawOk(npcId: nat, m: Map, objects: seq<Object>, dx: int, dy: int)
    requires npcId < |objects|
  {
    var ai := objects[npcId].ai;
    ai.Some? && ai.value.Confused? && ai.value.numTurns >= 0 ==>
      StaggerOk(dx, dy) && InMap(m, objects[npcId].x + dx, objects[npcId].y + dy)
  }

  /** `ai_take_turn`: an object without AI is left alone; otherwise its
      handler runs and the AI it returns replaces the old one. */
  function AiTakeTurn(npcId: nat, m: Map, objects: seq<Object>, dx: int, dy: int): (r: seq<Object>)
    requires npcId < |objects| && TurnDrawOk(npcId, m, objects, dx, dy)
    ensures objects[npcId].ai.None? ==> r == objects
    ensures |r| == |objects|
    ensures objects[npcId].ai.Some? ==> r[npcId].ai == Some(NextAi(objects[npcId].ai.value))
    ensures forall j :: 0 <= j < |objects| && j != npcId ==> r[j] == objects[j]
    ensures objects[npcId].ai == Some(Basic) ==> r == objects[npcId := objects[npcId].(ai := Some(Basic))]
  {
    match objects[npcId].ai
    case None => objects
    case Some(ai) =>
      var (next, after) := match ai
        case Basic => (AiBasic(), objects)
        case Confused(previous, n) => AiConfused(npcId, m, objects, previous, n, dx, dy);
      after[npcId := after[npcId].(ai := Some(next))]
  }

  /** The AI after `k` turns. */
  function AiAfter(ai: Ai, k: nat): Ai
    decreases k
  {
    if k == 0 then ai else AiAfter(NextAi(ai), k - 1)
  }

  /** A confusion that has `n` turns left counts down through `n - 1, ..., -1`
      and gives the previous AI back on exactly turn `n + 2`. */
  lemma {:induction false} ConfusionWearsOff(previous: Ai, n: int, k: nat)
    requires n >= -1 && k <= n + 1
    ensures AiAfter(Confused(previous, n), k) == Confused(previous, n - k)
    ensures AiAfter(Confused(previous, n), n + 2) == previous
    decreases k
  {
    if k > 0 {
      ConfusionWearsOff(previous, n - 1, k - 1);
    } else {
      ConfusionWearsOffAtEnd(previous, n);
    }
  }

  lemma {:induction false} ConfusionWearsOffAtEnd(previous: Ai, n: int)
    requires n >= -1
    ensures AiAfter(Confused(previous, n), n + 2) == previous
    decreases n + 1
  {
    if n >= 0 {
      ConfusionWearsOffAtEnd(previous, n - 1);
    }
  }
}

=== FILE: bsp_mod.dfy ===
/** The modified BSP generator, `bsp_mod` of src/map_algos/bsp_mod.rs: the
    map is partitioned with random carry-over, one room is centred in every
    partition cell, consecutive rooms are joined by tunnels, and every cell
    of a later room's partition cell gets its own NPC and item rolls. */
module BspMod {
  import opened Options
  import opened Constants
  import opened Rects
  import opened Objects
  import opened Partition
  import opened Levels
  import CellPopulation

  const ROOM_MIN_SIZE: int := 5
  const ITERATIONS: int := 5

  /** The area the partition tiles: `(0, 0, MAP_WIDTH - 2, MAP_HEIGHT - 2)`. */
  function Seed(): Rect {
    Rect(0, 0, MAP_WIDTH - 2, MAP_HEIGHT - 2)
  }

  /** The size draws `gen_range((min + extent) / 2, extent + 1)` of a room in
      a cell whose inclusive extent is `extent`. */
  predicate SizeOk(min: int, extent: int, size: int) {
    Quot(min + extent, 2) <= size <= extent
  }

  /** `create_room(part, ..)`: a room of `w` by `h` centred in the partition
      cell, rounding its offset down. The room's corners stay within one
      cell past the partition cell's far edge, so the cells it digs lie in
      the partition cell, and its left and top margins are at most its right
      and bottom ones, by at most one. (libtcod/src/map_algos/bsp.rs builds
      the same room with `Rect::new(x, y, w, h)`.) */
  function PartRoom(min: int, part: Rect, w: int, h: int): (r: Rect)
    requires SizeOk(min, part.x2 - part.x1 + 1, w) && SizeOk(min, part.y2 - part.y1 + 1, h)
    ensures r.x2 - r.x1 == w && r.y2 - r.y1 == h
    ensures part.x1 <= r.x1 && r.x2 <= part.x2 + 1 && part.y1 <= r.y1 && r.y2 <= part.y2 + 1
    ensures var left, right := r.x1 - part.x1, part.x2 + 1 - r.x2; left <= right <= left + 1
    ensures var top, bottom := r.y1 - part.y1, part.y2 + 1 - r.y2; top <= bottom <= top + 1
  {
    var pw := part.x2 - part.x1 + 1;
    var ph := part.y2 - part.y1 + 1;
    var x := part.x1 + Quot(pw - w, 2);
    var y := part.y1 + Quot(ph - h, 2);
    Corners(x, y, x + w, y + h)
  }

  /** Every partition cell of at least `min - 1` extent, with `min >= 4` and
      inside the seed, yields a room whose dug cells lie off the map's edge
      and inside the cell, and which holds its centre. */
  lemma PartRoomFits(min: int, part: Rect, w: int, h: int)
    requires min >= 4 && Fits(min, part) && Within(part, Seed())
    requires SizeOk(min, part.x2 - part.x1 + 1, w) && SizeOk(min, part.y2 - part.y1 + 1, h)
    ensures RoomOk(PartRoom(min, part, w, h))
    ensures forall x, y :: InRoom(PartRoom(min, part, w, h), x, y) ==> Inside(part, x, y)
  {
    var r := PartRoom(min, part, w, h);
    assert w >= 4 && h >= 4;
    var c := Center(r);
    assert 2 * c.0 <= r.x1 + r.x2 <= 2 * c.0 + 1;
    assert 2 * c.1 <= r.y1 + r.y2 <= 2 * c.1 + 1;
  }

  /** The draws made for one partition cell: the room's size, the tunnel
      coin `rand::random()` and the rolls of every cell. */
  datatype PartDraw = PartDraw(w: int, h: int, hFirst: bool, rolls: (int, int) -> CellPopulation.CellRoll)

  ghost predicate PartDrawOk(part: Rect, d: PartDraw, level: nat) {
    && SizeOk(ROOM_MIN_SIZE, part.x2 - part.x1 + 1, d.w) && SizeOk(ROOM_MIN_SIZE, part.y2 - part.y1 + 1, d.h)
    && forall x, y :: Inside(part, x, y) ==> CellPopulation.RollOk(level, d.rolls(x, y))
  }

  /** `binary_space_partition(MAP_WIDTH - 2, MAP_HEIGHT - 2, ITERATIONS)` with
      the carry-over draws. */
  function Parts(splits: seq<seq<CellDraw>>): (r: seq<Rect>)
    requires |splits| == ITERATIONS && ValidDraws(ROOM_MIN_SIZE, true, [Seed()], 0, splits)
    ensures Partition.Tiles(r, Seed()) && AllFit(ROOM_MIN_SIZE, r) && 1 <= |r| <= Pow2(ITERATIONS)
  {
    BinarySpacePartition(ROOM_MIN_SIZE, true, MAP_WIDTH - 2, MAP_HEIGHT - 2, ITERATIONS, splits)
  }

  /** The rooms of the level, one per partition cell, each furnished by the
      per-cell rolls of its partition cell. */
  function Plan(parts: seq<Rect>, draws: seq<PartDraw>, level: nat): (slots: seq<PlannedRoom>)
    requires |draws| == |parts|
    requires forall i :: 0 <= i < |parts| ==> PartDrawOk(parts[i], draws[i], level)
    ensures |slots| == |parts|
  {
    seq(|parts|, i requires 0 <= i < |parts| => PlanPart(parts[i], draws[i], level))
  }

  /** The room of one partition cell. */
  function PlanPart(part: Rect, d: PartDraw, level: nat): PlannedRoom
    requires PartDrawOk(part, d, level)
  {
    PlannedRoom(PartRoom(ROOM_MIN_SIZE, part, d.w, d.h), d.hFirst, ByCell(part, d.rolls))
  }

  /** The plan meets the shared loop's needs, and every room lies in its own
      partition cell, so no two rooms share a cell. */
  lemma PlanOk(parts: seq<Rect>, draws: seq<PartDraw>, level: nat)
    requires |draws| == |parts| && Partition.Tiles(parts, Seed()) && AllFit(ROOM_MIN_SIZE, parts)
    requires forall i :: 0 <= i < |parts| ==> PartDrawOk(parts[i], draws[i], level)
    ensures SlotsOk(Plan(parts, draws, level), level)
    ensures forall i, x, y :: 0 <= i < |parts| && InRoom(Plan(parts, draws, level)[i].room, x, y) ==> Inside(parts[i], x, y)
  {
    var slots := Plan(parts, draws, level);
    forall i | 0 <= i < |parts|
      ensures RoomOk(slots[i].room) && FillOk(slots[i].fill, slots[i].room, level)
      ensures forall x, y :: InRoom(slots[i].room, x, y) ==> Inside(parts[i], x, y)
    {
      PartRoomFits(ROOM_MIN_SIZE, parts[i], draws[i].w, draws[i].h);
    }
  }

  /** No cell lies in the rooms of two different partition cells. */
  lemma RoomsApart(parts: seq<Rect>, draws: seq<PartDraw>, level: nat, i: int, j: int, x: int, y: int)
    requires |draws| == |parts| && Partition.Tiles(parts, Seed()) && AllFit(ROOM_MIN_SIZE, parts)
    requires forall k :: 0 <= k < |parts| ==> PartDrawOk(parts[k], draws[k], level)
    requires 0 <= i < j < |parts|
    ensures !(InRoom(Plan(parts, draws, level)[i].room, x, y) && InRoom(Plan(parts, draws, level)[j].room, x, y))
  {
    PlanOk(parts, draws, level);
    assert Disjoint(parts[i], parts[j]);
  }

  /** `bsp_mod(all_objects, level)`. It fails only when level 0 has no player
      to move or a table is empty at `level`. On success the map's floor is
      exactly the rooms (one per partition cell) and the tunnels between
      consecutive rooms, every pair of consecutive centres is joined by
      floor, the down position is the first room's centre and the up
      position the last room's, and everything pushed after the anchor
      stands on floor with blockers unstacked. */
  method MakeMap(objs: seq<Object>, level: nat, splits: seq<seq<CellDraw>>, draws: seq<PartDraw>)
    returns (r: Option<Built>)
    requires |splits| == ITERATIONS && ValidDraws(ROOM_MIN_SIZE, true, [Seed()], 0, splits)
    requires |draws| == |Parts(splits)|
    requires forall i :: 0 <= i < |draws| ==> PartDrawOk(Parts(splits)[i], draws[i], level)
    ensures level <= 99 && (level > 0 || |objs| > PLAYER) ==> r.Some?
    ensures r.None? <==> Fails(Plan(Parts(splits), draws, level), objs, level)
    ensures r.Some? ==> var slots := Plan(Parts(splits), draws, level);
      && Anchor(objs, level, Center(slots[0].room)).Some?
      && LevelOk(slots, Anchor(objs, level, Center(slots[0].room)).value, level, r.value)
  {
    var parts := Parts(splits);
    PlanOk(parts, draws, level);
    r := Build(Plan(parts, draws, level), objs, level);
  }
}

=== FILE: bsp_uniform.dfy ===
/** The uniform BSP generator, `bsp` of libtcod/src/map_algos/bsp.rs: the
    map is partitioned without carry-over, one room is centred in every
    partition cell, consecutive rooms are joined by tunnels, and every
    later room gets a few random NPC and item attempts inside it. */
module BspUniform {
  import opened Options
  import opened Constants
  import opened Rects
  import opened Objects
  import opened Partition
  import opened Levels
  import RoomPopulation
  import BspMod

  const ROOM_MIN_SIZE: int := 4
  const ITERATIONS: int := 6

  /** The room of a partition cell, `Rect::new(x, y, w, h)` with
      `x = x0 + (part_width - w) / 2`: the same room the modified generator
      builds from corners. */
  function CellRoom(part: Rect, w: int, h: int): (r: Rect)
    requires BspMod.SizeOk(ROOM_MIN_SIZE, part.x2 - part.x1 + 1, w)
    requires BspMod.SizeOk(ROOM_MIN_SIZE, part.y2 - part.y1 + 1, h)
    ensures r == BspMod.PartRoom(ROOM_MIN_SIZE, part, w, h)
  {
    var pw := part.x2 - part.x1 + 1;
    var ph := part.y2 - part.y1 + 1;
    Sized(part.x1 + Quot(pw - w, 2), part.y1 + Quot(ph - h, 2), w, h)
  }

  /** The draws made for one partition cell: the room's size, the tunnel
      coin and the room's NPC and item attempts. */
  datatype CellDraws = CellDraws(w: int, h: int, hFirst: bool, fill: RoomPopulation.RoomDraws)

  ghost predicate CellDrawsOk(part: Rect, d: CellDraws, level: nat) {
    && BspMod.SizeOk(ROOM_MIN_SIZE, part.x2 - part.x1 + 1, d.w)
    && BspMod.SizeOk(ROOM_MIN_SIZE, part.y2 - part.y1 + 1, d.h)
    && FillOk(ByRoom(d.fill), CellRoom(part, d.w, d.h), level)
  }

  /** `binary_space_partition(MAP_WIDTH - 2, MAP_HEIGHT - 2, ITERATIONS)`. */
  function Parts(splits: seq<seq<CellDraw>>): (r: seq<Rect>)
    requires |splits| == ITERATIONS && ValidDraws(ROOM_MIN_SIZE, false, [BspMod.Seed()], 0, splits)
    ensures Partition.Tiles(r, BspMod.Seed()) && AllFit(ROOM_MIN_SIZE, r) && 1 <= |r| <= Pow2(ITERATIONS)
  {
    BinarySpacePartition(ROOM_MIN_SIZE, false, MAP_WIDTH - 2, MAP_HEIGHT - 2, ITERATIONS, splits)
  }

  /** The room of one partition cell, furnished by attempts inside it. */
  function PlanCell(part: Rect, d: CellDraws, level: nat): PlannedRoom
    requires CellDrawsOk(part, d, level)
  {
    PlannedRoom(CellRoom(part, d.w, d.h), d.hFirst, ByRoom(d.fill))
  }

  function Plan(parts: seq<Rect>, draws: seq<CellDraws>, level: nat): (rooms: seq<PlannedRoom>)
    requires |draws| == |parts|
    requires forall i :: 0 <= i < |parts| ==> CellDrawsOk(parts[i], draws[i], level)
    ensures |rooms| == |parts|
  {
    seq(|parts|, i requires 0 <= i < |parts| => PlanCell(parts[i], draws[i], level))
  }

  /** The plan meets the shared loop's needs, and every room's dug cells lie
      in its own partition cell. */
  lemma PlanOk(parts: seq<Rect>, draws: seq<CellDraws>, level: nat)
    requires |draws| == |parts| && Partition.Tiles(parts, BspMod.Seed()) && AllFit(ROOM_MIN_SIZE, parts)
    requires forall i :: 0 <= i < |parts| ==> CellDrawsOk(parts[i], draws[i], level)
    ensures SlotsOk(Plan(parts, draws, level), level)
    ensures forall i, x, y :: 0 <= i < |parts| && InRoom(Plan(parts, draws, level)[i].room, x, y) ==> Inside(parts[i], x, y)
  {
    var rooms := Plan(parts, draws, level);
    forall i | 0 <= i < |parts|
      ensures RoomOk(rooms[i].room) && FillOk(rooms[i].fill, rooms[i].room, level)
      ensures forall x, y :: InRoom(rooms[i].room, x, y) ==> Inside(parts[i], x, y)
    {
      BspMod.PartRoomFits(ROOM_MIN_SIZE, parts[i], draws[i].w, draws[i].h);
    }
  }

  /** `bsp(all_objects, level)`. It fails only when level 0 has no player to
      move or a table is empty at `level`. On success the map's floor is
      exactly the rooms (one per partition cell) and the tunnels between
      consecutive rooms, consecutive centres are joined by floor, the down
      and up positions are the first and last rooms' centres, and everything
      pushed after the anchor stands on floor with blockers unstacked. */
  method MakeMap(objs: seq<Object>, level: nat, splits: seq<seq<CellDraw>>, draws: seq<CellDraws>)
    returns (r: Option<Built>)
    requires |splits| == ITERATIONS && ValidDraws(ROOM_MIN_SIZE, false, [BspMod.Seed()], 0, splits)
    requires |draws| == |Parts(splits)|
    requires forall i :: 0 <= i < |draws| ==> CellDrawsOk(Parts(splits)[i], draws[i], level)
    ensures level <= 99 && (level > 0 || |objs| > PLAYER) ==> r.Some?
    ensures r.None? <==> Fails(Plan(Parts(splits), draws, level), objs, level)
    ensures r.Some? ==> var rooms := Plan(Parts(splits), draws, level);
      && Anchor(objs, level, Center(rooms[0].room)).Some?
      && LevelOk(rooms, Anchor(objs, level, Center(rooms[0].room)).value, level, r.value)
  {
    var parts := Parts(splits);
    PlanOk(parts, draws, level);
    r := Build(Plan(parts, draws, level), objs, level);
  }
}

=== FILE: carving.dfy ===
/** Turning walls into floor: rooms and the L-shaped tunnels between room
    centres. `carve_room`/`create_room`, `create_h_tunnel` and `create_v_tunnel`
    are the same code in src/map_algos/bsp_mod.rs, libtcod/src/map_algos/bsp.rs
    and src/map_algos/simple_fast.rs, so they are modelled once here. */
module Carving {
  import opened Constants
  import opened Tiles
  import opened Rects

  /** `v` lies between `p` and `q` inclusive, whichever of the two is larger. */
  predicate Between(v: int, p: int, q: int) {
    p <= v <= q || q <= v <= p
  }

  /** Reference definition: `m` with every cell of `[x0, xf] x [y0, yf]` set to
      floor and every other cell kept. */
  function Dug(m: Map, x0: int, xf: int, y0: int, yf: int): Map {
    seq(|m|, x requires 0 <= x < |m| =>
      seq(|m[x]|, y requires 0 <= y < |m[x]| =>
        if x0 <= x <= xf && y0 <= y <= yf then Empty() else m[x][y]))
  }

  /** Every cell of `[x0, xf] x [y0, yf]` can be indexed (an empty range
      indexes nothing). Indexing outside the map panics in the source. */
  ghost predicate Writable(m: Map, x0: int, xf: int, y0: int, yf: int) {
    x0 > xf || y0 > yf ||
    (0 <= x0 && xf < |m| && 0 <= y0 && forall x :: x0 <= x <= xf ==> yf < |m[x]|)
  }

  /** The range lies off the map's edge cells. */
  predicate InInterior(x0: int, xf: int, y0: int, yf: int) {
    x0 > xf || y0 > yf || (Interior(x0, y0) && Interior(xf, yf))
  }

  /** Two maps of the same shape that agree on every cell are equal. */
  lemma SameMap(a: Map, b: Map)
    requires |a| == |b| && forall x :: 0 <= x < |a| ==> |a[x]| == |b[x]|
    requires forall x, y :: InMap(a, x, y) ==> a[x][y] == b[x][y]
    ensures a == b
  {
    forall x | 0 <= x < |a| ensures a[x] == b[x] {
      assert forall y :: 0 <= y < |a[x]| ==> a[x][y] == b[x][y] by {
        forall y | 0 <= y < |a[x]| ensures a[x][y] == b[x][y] {
          assert InMap(a, x, y);
        }
      }
    }
  }

  /** Digging only turns cells into floor, keeps the map's shape, keeps the
      border when the range avoids it, and digging the same range twice is
      the same as digging it once. */
  lemma DugProperties(m: Map, x0: int, xf: int, y0: int, yf: int)
    ensures OnlyDigs(m, Dug(m, x0, xf, y0, yf))
    ensures IsGrid(m) ==> IsGrid(Dug(m, x0, xf, y0, yf))
    ensures BorderIsWall(m) && InInterior(x0, xf, y0, yf) ==> BorderIsWall(Dug(m, x0, xf, y0, yf))
    ensures Dug(Dug(m, x0, xf, y0, yf), x0, xf, y0, yf) == Dug(m, x0, xf, y0, yf)
  {
    var d := Dug(m, x0, xf, y0, yf);
    forall x, y | IsFloor(m, x, y) ensures IsFloor(d, x, y) {
      assert d[x][y] == if x0 <= x <= xf && y0 <= y <= yf then Empty() else m[x][y];
    }
    SameMap(Dug(d, x0, xf, y0, yf), d);
  }

  /** `carve_room`: floors the cells strictly inside the room's corners. */
  method CarveRoom(room: Rect, m: Map) returns (r: Map)
    requires Writable(m, room.x1 + 1, room.x2 - 1, room.y1 + 1, room.y2 - 1)
    ensures r == Dug(m, room.x1 + 1, room.x2 - 1, room.y1 + 1, room.y2 - 1)
    ensures forall x, y :: InMap(m, x, y) ==>
              r[x][y] == if room.x1 < x < room.x2 && room.y1 < y < room.y2 then Empty() else m[x][y]
  {
    r := m;
    var x := room.x1 + 1;
    while x < room.x2
      invariant room.x1 + 1 <= x && (x <= room.x2 || x == room.x1 + 1)
      invariant |r| == |m| && forall i :: 0 <= i < |m| ==> |r[i]| == |m[i]|
      invariant forall i, j :: InMap(m, i, j) ==>
                  r[i][j] == if room.x1 < i < x && room.y1 < j < room.y2 then Empty() else m[i][j]
    {
      var y := room.y1 + 1;
      while y < room.y2
        invariant room.y1 + 1 <= y && (y <= room.y2 || y == room.y1 + 1)
        invariant |r| == |m| && forall i :: 0 <= i < |m| ==> |r[i]| == |m[i]|
        invariant forall i, j :: InMap(m, i, j) ==>
                    r[i][j] == if (room.x1 < i < x && room.y1 < j < room.y2) || (i == x && room.y1 < j < y)
                               then Empty() else m[i][j]
      {
        r := r[x := r[x][y := Empty()]];
        y := y + 1;
      }
      x := x + 1;
    }
    SameMap(r, Dug(m, room.x1 + 1, room.x2 - 1, room.y1 + 1, room.y2 - 1));
  }

  /** `create_h_tunnel`: floors row `y` between `x1` and `x2` inclusive, in
      whichever order they are given. */
  method CreateHTunnel(x1: int, x2: int, y: int, m: Map) returns (r: Map)
    requires Writable(m, Min(x1, x2), Max(x1, x2), y, y)
    ensures r == Dug(m, Min(x1, x2), Max(x1, x2), y, y)
    ensures forall i, j :: InMap(m, i, j) ==>
              r[i][j] == if j == y && Between(i, x1, x2) then Empty() else m[i][j]
  {
    r := m;
    var x := Min(x1, x2);
    while x < Max(x1, x2) + 1
      invariant Min(x1, x2) <= x <= Max(x1, x2) + 1
      invariant |r| == |m| && forall i :: 0 <= i < |m| ==> |r[i]| == |m[i]|
      invariant forall i, j :: InMap(m, i, j) ==>
                  r[i][j] == if j == y && Min(x1, x2) <= i < x then Empty() else m[i][j]
    {
      r := r[x := r[x][y := Empty()]];
      x := x + 1;
    }
    SameMap(r, Dug(m, Min(x1, x2), Max(x1, x2), y, y));
  }

  /** `create_v_tunnel`: floors column `x` between `y1` and `y2` inclusive, in
      whichever order they are given. */
  method CreateVTunnel(y1: int, y2: int, x: int, m: Map) returns (r: Map)
    requires Writable(m, x, x, Min(y1, y2), Max(y1, y2))
    ensures r == Dug(m, x, x, Min(y1, y2), Max(y1, y2))
    ensures forall i, j :: InMap(m, i, j) ==>
              r[i][j] == if i == x && Between(j, y1, y2) then Empty() else m[i][j]
  {
    r := m;
    var y := Min(y1, y2);
    while y < Max(y1, y2) + 1
      invariant Min(y1, y2) <= y <= Max(y1, y2) + 1
      invariant |r| == |m| && forall i :: 0 <= i < |m| ==> |r[i]| == |m[i]|
      invariant forall i, j :: InMap(m, i, j) ==>
                  r[i][j] == if i == x && Min(y1, y2) <= j < y then Empty() else m[i][j]
    {
      r := r[x := r[x][y := Empty()]];
      y := y + 1;
    }
    SameMap(r, Dug(m, x, x, Min(y1, y2), Max(y1, y2)));
  }

  /** The first straight run of the corridor from `a` to `b`: along `a`'s row
      when `hFirst`, along `a`'s column otherwise. */
  predicate FirstRun(a: (int, int), b: (int, int), hFirst: bool, x: int, y: int) {
    if hFirst then y == a.1 && Between(x, a.0, b.0) else x == a.0 && Between(y, a.1, b.1)
  }

  /** The second run, which ends at `b`: along `b`'s column when `hFirst`,
      along `b`'s row otherwise. */
  predicate SecondRun(a: (int, int), b: (int, int), hFirst: bool, x: int, y: int) {
    if hFirst then x == b.0 && Between(y, a.1, b.1) else y == b.1 && Between(x, a.0, b.0)
  }

  /** The cell `(x, y)` lies on the L-shaped corridor from `a` to `b`. */
  predicate OnLPath(a: (int, int), b: (int, int), hFirst: bool, x: int, y: int) {
    FirstRun(a, b, hFirst, x, y) || SecondRun(a, b, hFirst, x, y)
  }

  /** Some L-shaped corridor from `a` to `b` is entirely floor. */
  ghost predicate JoinedByFloor(m: Map, a: (int, int), b: (int, int)) {
    (forall x, y :: OnLPath(a, b, true, x, y) ==> IsFloor(m, x, y)) ||
    (forall x, y :: OnLPath(a, b, false, x, y) ==> IsFloor(m, x, y))
  }

  /** A floor corridor stays floor while the map is only dug further, and it
      passes through both of its ends. */
  lemma JoinedByFloorPersists(m: Map, m2: Map, a: (int, int), b: (int, int))
    requires JoinedByFloor(m, a, b) && OnlyDigs(m, m2)
    ensures JoinedByFloor(m2, a, b)
    ensures IsFloor(m2, a.0, a.1) && IsFloor(m2, b.0, b.1)
  {
    assert OnLPath(a, b, true, a.0, a.1) && OnLPath(a, b, true, b.0, b.1);
    assert OnLPath(a, b, false, a.0, a.1) && OnLPath(a, b, false, b.0, b.1);
  }

  /** Digging the two runs one after the other digs exactly the corridor. */
  lemma TwoRunsMakeCorridor(m: Map, m1: Map, r: Map, a: (int, int), b: (int, int), hFirst: bool)
    requires |m1| == |m| && (forall x :: 0 <= x < |m| ==> |m1[x]| == |m[x]|)
    requires |r| == |m| && (forall x :: 0 <= x < |m| ==> |r[x]| == |m[x]|)
    requires forall x, y :: InMap(m, x, y) ==>
               m1[x][y] == if FirstRun(a, b, hFirst, x, y) then Empty() else m[x][y]
    requires forall x, y :: InMap(m1, x, y) ==>
               r[x][y] == if SecondRun(a, b, hFirst, x, y) then Empty() else m1[x][y]
    ensures forall x, y :: InMap(m, x, y) ==>
              r[x][y] == if OnLPath(a, b, hFirst, x, y) then Empty() else m[x][y]
  {
    forall x, y | InMap(m, x, y)
      ensures r[x][y] == if OnLPath(a, b, hFirst, x, y) then Empty() else m[x][y]
    {
      assert InMap(m1, x, y);
    }
  }

  /** What digging a corridor between two off-edge cells does to the map. */
  lemma CorridorFacts(m: Map, r: Map, a: (int, int), b: (int, int), hFirst: bool)
    requires IsGrid(m) && Interior(a.0, a.1) && Interior(b.0, b.1)
    requires |r| == |m| && (forall x :: 0 <= x < |m| ==> |r[x]| == |m[x]|)
    requires forall x, y :: InMap(m, x, y) ==>
               r[x][y] == if OnLPath(a, b, hFirst, x, y) then Empty() else m[x][y]
    ensures IsGrid(r) && OnlyDigs(m, r)
    ensures BorderIsWall(m) ==> BorderIsWall(r)
    ensures forall x, y :: OnLPath(a, b, hFirst, x, y) ==> IsFloor(r, x, y)
    ensures JoinedByFloor(r, a, b)
  {
    forall x, y | OnLPath(a, b, hFirst, x, y) ensures IsFloor(r, x, y) {
      assert InMap(m, x, y);
    }
    forall x, y | IsFloor(m, x, y) ensures IsFloor(r, x, y) {
      assert InMap(m, x, y);
    }
    if BorderIsWall(m) {
      forall x, y | InMap(r, x, y) && !Interior(x, y) ensures r[x][y] == Wall() {
        assert InMap(m, x, y);
      }
    }
  }

  /** The tunnel pair that joins the previous room's centre `prev` to the new
      room's centre `cur`, horizontal run first when the coin `hFirst` says so.
      Both centres lying off the map's edge keeps the border intact. */
  method Connect(prev: (int, int), cur: (int, int), hFirst: bool, m: Map) returns (r: Map)
    requires IsGrid(m)
    requires Interior(prev.0, prev.1) && Interior(cur.0, cur.1)
    ensures IsGrid(r)
    ensures forall x, y :: InMap(m, x, y) ==>
              r[x][y] == if OnLPath(prev, cur, hFirst, x, y) then Empty() else m[x][y]
    ensures OnlyDigs(m, r)
    ensures BorderIsWall(m) ==> BorderIsWall(r)
    ensures forall x, y :: OnLPath(prev, cur, hFirst, x, y) ==> IsFloor(r, x, y)
    ensures JoinedByFloor(r, prev, cur)
  {
    var m1;
    if hFirst {
      m1 := CreateHTunnel(prev.0, cur.0, prev.1, m);
      r := CreateVTunnel(prev.1, cur.1, cur.0, m1);
    } else {
      m1 := CreateVTunnel(prev.1, cur.1, prev.0, m);
      r := CreateHTunnel(prev.0, cur.0, cur.1, m1);
    }
    TwoRunsMakeCorridor(m, m1, r, prev, cur, hFirst);
    CorridorFacts(m, r, prev, cur, hFirst);
  }
}

=== FILE: cell_population.dfy ===
/** `place_objects` of src/map_algos/bsp_mod.rs: every cell of the partition,
    column by column, is visited once; at a cell that `is_blocked` reports
    free, one per-mille roll decides whether an NPC is pushed there and a
    second roll whether an item is pushed there. */
module CellPopulation {
  import opened Options
  import opened Tiles
  import opened Rects
  import opened Objects
  import opened Moves
  import opened Transitions
  import opened Placement

  /** Chance in 1000 that a free cell receives an NPC, by level. */
  const NPC_CHANCE: seq<Transition> := [Transition(0, 12), Transition(20, 100)]

  /** Chance in 1000 that a free cell receives an item, by level. */
  const ITEM_CHANCE: seq<Transition> := [Transition(0, 12), Transition(10, 32), Transition(11, 12), Transition(20, 64)]

  /** The draws made at one free cell: the NPC roll `gen_range(0, 1000)`, the
      NPC table pick, the item roll and the item table pick. */
  datatype CellRoll = CellRoll(npcRoll: int, npcPick: nat, itemRoll: int, itemPick: nat)

  predicate RollOk(level: int, c: CellRoll) {
    && 0 <= c.npcRoll < 1000 && 0 <= c.itemRoll < 1000
    && PickOk(NpcKind, level, c.npcPick) && PickOk(ItemKind, level, c.itemPick)
  }

  /** Every cell of `area` lies on the map. */
  ghost predicate OnMap(m: Map, area: Rect) {
    forall x, y :: Inside(area, x, y) ==> InMap(m, x, y)
  }

  /** Every cell of the partition lies on the map, and the draws made at each
      cell, `rolls(x, y)`, are in range. */
  ghost predicate ScanOk(part: Rect, m: Map, level: int, rolls: (int, int) -> CellRoll) {
    OnMap(m, part) && forall x, y :: Inside(part, x, y) ==> RollOk(level, rolls(x, y))
  }

  lemma OnMapWithin(m: Map, inner: Rect, outer: Rect)
    requires OnMap(m, outer) && Within(inner, outer)
    ensures OnMap(m, inner)
  {
  }

  /** A cell of the partition can be visited. */
  lemma CellReady(part: Rect, m: Map, level: int, rolls: (int, int) -> CellRoll, x: int, y: int)
    requires ScanOk(part, m, level, rolls) && Inside(part, x, y)
    ensures InMap(m, x, y) && RollOk(level, rolls(x, y))
  {
  }

  /** Some object of the kind was pushed onto `(x, y)` from index `from` on. */
  ghost predicate PushedAt(kind: Kind, objs: seq<Object>, from: nat, x: int, y: int) {
    exists i :: from <= i < |objs| && OfKind(kind, objs[i]) && objs[i].x == x && objs[i].y == y
  }

  /** Every object from index `from` on is an NPC or an item. */
  ghost predicate NpcsAndItems(objs: seq<Object>, from: nat) {
    forall i :: from <= i < |objs| ==> OfKind(NpcKind, objs[i]) || OfKind(ItemKind, objs[i])
  }

  /** Every object from index `from` on lies in `area`. */
  ghost predicate PushedIn(area: Rect, objs: seq<Object>, from: nat) {
    forall i :: from <= i < |objs| ==> Inside(area, objs[i].x, objs[i].y)
  }

  /** Both tables allow something at `level`. */
  predicate TablesOk(level: int) {
    Choices(NpcKind, level) > 0 && Choices(ItemKind, level) > 0
  }

  /** One roll: when it hits, the kind's object is made at `(x, y)`. */
  function Roll(kind: Kind, hit: bool, level: int, pick: nat, x: int, y: int): (r: Option<seq<Object>>)
    requires PickOk(kind, level, pick)
    ensures r.None? <==> hit && Choices(kind, level) == 0
    ensures r.Some? ==> |r.value| == (if hit then 1 else 0)
    ensures r.Some? ==> forall i :: 0 <= i < |r.value| ==>
              OfKind(kind, r.value[i]) && r.value[i].x == x && r.value[i].y == y
  {
    if !hit then Some([])
    else
      var o :- Make(kind, level, pick, x, y);
      Some([o])
  }

  /** What visiting `(x, y)` promises: pushes only onto `(x, y)`, at most an
      NPC and an item, an NPC exactly when the cell was free and the NPC
      roll hits, an item exactly when the cell was free and the item roll
      hits, on floor, and a blocking one only where nothing blocked. */
  ghost predicate VisitPromise(x: int, y: int, c: CellRoll, m: Map, objs: seq<Object>, level: nat, r: seq<Object>)
    requires InMap(m, x, y)
  {
    && Extends(r, objs) && |r| <= |objs| + 2
    && (forall i :: |objs| <= i < |r| ==> r[i].x == x && r[i].y == y)
    && NpcsAndItems(r, |objs|)
    && (PushedAt(NpcKind, r, |objs|, x, y) <==>
          !IsBlocked(x, y, m, objs) && c.npcRoll < FromMapLevel(NPC_CHANCE, level))
    && (PushedAt(ItemKind, r, |objs|, x, y) <==>
          !IsBlocked(x, y, m, objs) && c.itemRoll < FromMapLevel(ITEM_CHANCE, level))
    && PlacedOnFloor(m, r, |objs|) && BlockersWhereFree(r, |objs|)
  }

  /** Visiting one cell. Nothing is pushed at a blocked cell; at a free cell
      an NPC is pushed exactly when the NPC roll is under `npc_chance`, then
      an item exactly when the item roll is under `item_chance`. */
  function VisitCell(x: int, y: int, c: CellRoll, m: Map, objs: seq<Object>, level: nat): (r: Option<seq<Object>>)
    requires InMap(m, x, y) && RollOk(level, c)
    ensures TablesOk(level) ==> r.Some?
    ensures r.Some? ==> VisitPromise(x, y, c, m, objs, level, r.value)
  {
    if IsBlocked(x, y, m, objs) then
      BlockedVisit(x, y, c, m, objs, level);
      Some(objs)
    else
      var npcs := Roll(NpcKind, c.npcRoll < FromMapLevel(NPC_CHANCE, level), level, c.npcPick, x, y);
      if npcs.None? then None
      else
        var items := Roll(ItemKind, c.itemRoll < FromMapLevel(ITEM_CHANCE, level), level, c.itemPick, x, y);
        if items.None? then None
        else
          FreeVisit(x, y, c, m, objs, level, npcs.value, items.value);
          Some(objs + npcs.value + items.value)
  }

  lemma BlockedVisit(x: int, y: int, c: CellRoll, m: Map, objs: seq<Object>, level: nat)
    requires InMap(m, x, y) && IsBlocked(x, y, m, objs)
    ensures VisitPromise(x, y, c, m, objs, level, objs)
  {
    assert objs[..|objs|] == objs;
  }

  lemma FreeVisit(x: int, y: int, c: CellRoll, m: Map, objs: seq<Object>, level: nat, npcs: seq<Object>, items: seq<Object>)
    requires InMap(m, x, y) && !IsBlocked(x, y, m, objs)
    requires |npcs| == (if c.npcRoll < FromMapLevel(NPC_CHANCE, level) then 1 else 0)
    requires |items| == (if c.itemRoll < FromMapLevel(ITEM_CHANCE, level) then 1 else 0)
    requires forall i :: 0 <= i < |npcs| ==> OfKind(NpcKind, npcs[i]) && npcs[i].x == x && npcs[i].y == y
    requires forall i :: 0 <= i < |items| ==> OfKind(ItemKind, items[i]) && items[i].x == x && items[i].y == y
    ensures VisitPromise(x, y, c, m, objs, level, objs + npcs + items)
  {
    assert (objs + npcs + items)[..|objs|] == objs;
    VisitFacts(x, y, m, objs, npcs, items);
  }

  /** The pushes of one free cell, spelled out. */
  lemma VisitFacts(x: int, y: int, m: Map, objs: seq<Object>, npcs: seq<Object>, items: seq<Object>)
    requires InMap(m, x, y) && !IsBlocked(x, y, m, objs)
    requires |npcs| <= 1 && forall i :: 0 <= i < |npcs| ==> OfKind(NpcKind, npcs[i]) && npcs[i].x == x && npcs[i].y == y
    requires forall i :: 0 <= i < |items| ==> OfKind(ItemKind, items[i]) && items[i].x == x && items[i].y == y
    ensures var r := objs + npcs + items;
      && NpcsAndItems(r, |objs|)
      && (forall i :: |objs| <= i < |r| ==> r[i].x == x && r[i].y == y)
      && (PushedAt(NpcKind, r, |objs|, x, y) <==> |npcs| == 1)
      && (PushedAt(ItemKind, r, |objs|, x, y) <==> |items| > 0)
      && PlacedOnFloor(m, r, |objs|) && BlockersWhereFree(r, |objs|)
  {
    var r := objs + npcs + items;
    assert forall i :: |objs| <= i < |objs| + |npcs| ==> r[i] == npcs[i - |objs|];
    assert forall i :: |objs| + |npcs| <= i < |r| ==> r[i] == items[i - |objs| - |npcs|];
    if |npcs| == 1 {
      assert OfKind(NpcKind, r[|objs|]);
    }
    if |items| > 0 {
      assert OfKind(ItemKind, r[|objs| + |npcs|]);
    }
    forall i | |objs| <= i < |r| && r[i].blocks ensures !AnyBlocksAt(r[..i], x, y) {
      assert i == |objs| && r[..i] == objs;
    }
  }

  /** Pushes made elsewhere do not change what blocks a cell. */
  lemma OtherCellUnaffected(m: Map, objs: seq<Object>, next: seq<Object>, x: int, y: int)
    requires Extends(next, objs) && InMap(m, x, y)
    requires forall i :: |objs| <= i < |next| ==> next[i].x != x || next[i].y != y
    ensures IsBlocked(x, y, m, next) == IsBlocked(x, y, m, objs)
  {
    if AnyBlocksAt(next, x, y) {
      var i :| 0 <= i < |next| && BlocksAt(next[i], x, y);
      assert i < |objs| && next[i] == objs[i];
    }
    if AnyBlocksAt(objs, x, y) {
      var i :| 0 <= i < |objs| && BlocksAt(objs[i], x, y);
      assert next[i] == objs[i];
    }
  }

  /** Whether something of a kind was pushed onto a cell, counted from
      `from`, splits at any later index of the list. */
  lemma PushedAtSplit(kind: Kind, r: seq<Object>, from: nat, mid: nat, x: int, y: int)
    requires from <= mid <= |r|
    ensures PushedAt(kind, r, from, x, y) <==> PushedAt(kind, r[..mid], from, x, y) || PushedAt(kind, r, mid, x, y)
  {
    if PushedAt(kind, r, from, x, y) {
      var i :| from <= i < |r| && OfKind(kind, r[i]) && r[i].x == x && r[i].y == y;
      if i < mid { assert r[..mid][i] == r[i]; }
    }
    if PushedAt(kind, r[..mid], from, x, y) {
      var i :| from <= i < mid && OfKind(kind, r[..mid][i]) && r[..mid][i].x == x && r[..mid][i].y == y;
      assert r[i] == r[..mid][i];
    }
  }

  /** The promises about pushed objects hold across two consecutive stretches
      of pushes. */
  lemma StretchesCompose(m: Map, a: seq<Object>, b: seq<Object>, c: seq<Object>)
    requires Extends(b, a) && Extends(c, b)
    requires NpcsAndItems(b, |a|) && NpcsAndItems(c, |b|)
    requires PlacedOnFloor(m, b, |a|) && PlacedOnFloor(m, c, |b|)
    requires BlockersWhereFree(b, |a|) && BlockersWhereFree(c, |b|)
    ensures Extends(c, a) && NpcsAndItems(c, |a|) && PlacedOnFloor(m, c, |a|) && BlockersWhereFree(c, |a|)
  {
    forall i | |a| <= i < |b| ensures c[..i] == b[..i] && c[i] == b[i] {
      assert c[..|b|] == b;
    }
    assert c[..|a|] == a by { assert c[..|b|] == b; }
  }

  /** What happened at cell `(x, y)`, judged against the list `objs` as it
      was before: an NPC was pushed there exactly when the cell was free and
      its NPC roll hit, and likewise an item. */
  ghost predicate CellOutcome(rolls: (int, int) -> CellRoll, m: Map, objs: seq<Object>, level: nat,
                              r: seq<Object>, x: int, y: int)
    requires InMap(m, x, y)
  {
    && (PushedAt(NpcKind, r, |objs|, x, y) <==>
          !IsBlocked(x, y, m, objs) && rolls(x, y).npcRoll < FromMapLevel(NPC_CHANCE, level))
    && (PushedAt(ItemKind, r, |objs|, x, y) <==>
          !IsBlocked(x, y, m, objs) && rolls(x, y).itemRoll < FromMapLevel(ITEM_CHANCE, level))
  }

  /** What scanning the cells of `area` did to the list, compared with the
      list before: objects only inside the area, and the outcome of every
      cell of the area, each judged against the list as it was before the
      area was scanned. */
  ghost predicate ScanPromise(area: Rect, rolls: (int, int) -> CellRoll, m: Map,
                              objs: seq<Object>, level: nat, r: seq<Object>)
    requires OnMap(m, area)
  {
    && Extends(r, objs) && NpcsAndItems(r, |objs|)
    && PushedIn(area, r, |objs|)
    && PlacedOnFloor(m, r, |objs|) && BlockersWhereFree(r, |objs|)
    && forall x, y :: Inside(area, x, y) ==> CellOutcome(rolls, m, objs, level, r, x, y)
  }

  /** A visit is the scan of a one-cell area. */
  lemma VisitIsScan(x: int, y: int, rolls: (int, int) -> CellRoll, m: Map, objs: seq<Object>, level: nat, r: seq<Object>)
    requires InMap(m, x, y)
    requires VisitPromise(x, y, rolls(x, y), m, objs, level, r)
    ensures OnMap(m, Rect(x, y, x, y))
    ensures ScanPromise(Rect(x, y, x, y), rolls, m, objs, level, r)
  {
    assert CellOutcome(rolls, m, objs, level, r, x, y);
    assert PushedIn(Rect(x, y, x, y), r, |objs|);
  }

  /** Scanning nothing pushes nothing. */
  lemma EmptyScan(area: Rect, rolls: (int, int) -> CellRoll, m: Map, objs: seq<Object>, level: nat)
    requires !NonEmpty(area)
    ensures OnMap(m, area) && ScanPromise(area, rolls, m, objs, level, objs)
  {
    assert objs[..|objs|] == objs;
  }

  /** Scanning `area` as `first` and then `rest`, two areas that split it,
      is scanning `area`: a cell of `first` gets nothing from the second
      stretch, and a cell of `rest` gets nothing from the first stretch and
      is blocked after it exactly as before it. */
  lemma ScanSplits(first: Rect, rest: Rect, area: Rect, rolls: (int, int) -> CellRoll, m: Map,
                   objs: seq<Object>, next: seq<Object>, r: seq<Object>, level: nat)
    requires OnMap(m, first) && OnMap(m, rest) && OnMap(m, area)
    requires forall x, y :: !(Inside(first, x, y) && Inside(rest, x, y))
    requires forall x, y :: Inside(area, x, y) <==> Inside(first, x, y) || Inside(rest, x, y)
    requires ScanPromise(first, rolls, m, objs, level, next)
    requires ScanPromise(rest, rolls, m, next, level, r)
    ensures ScanPromise(area, rolls, m, objs, level, r)
  {
    StretchesCompose(m, objs, next, r);
    assert r[..|next|] == next;
    forall i | |objs| <= i < |r| ensures Inside(area, r[i].x, r[i].y) {
      if i < |next| { assert r[i] == next[i]; }
    }
    forall kind: Kind, x, y | Inside(area, x, y)
      ensures PushedAt(kind, r, |objs|, x, y) <==> PushedAt(kind, next, |objs|, x, y) || PushedAt(kind, r, |next|, x, y)
    {
      PushedAtSplit(kind, r, |objs|, |next|, x, y);
    }
    forall kind: Kind, x, y | Inside(first, x, y) ensures !PushedAt(kind, r, |next|, x, y) {
      assert forall i :: |next| <= i < |r| ==> Inside(rest, r[i].x, r[i].y);
    }
    forall kind: Kind, x, y | Inside(rest, x, y)
      ensures !PushedAt(kind, next, |objs|, x, y) && IsBlocked(x, y, m, next) == IsBlocked(x, y, m, objs)
    {
      assert forall i :: |objs| <= i < |next| ==> Inside(first, next[i].x, next[i].y);
      OtherCellUnaffected(m, objs, next, x, y);
    }
  }

  /** The cells `y .. part.y2` of column `x`. */
  function ColumnFrom(part: Rect, x: int, y: int): Rect {
    Rect(x, y, x, part.y2)
  }

  /** The columns `x .. part.x2` of the partition. */
  function ColumnsFrom(part: Rect, x: int): Rect {
    Rect(x, part.y1, part.x2, part.y2)
  }

  /** A column splits into its first cell and the cells below it. */
  lemma ColumnSplits(part: Rect, x: int, y: int)
    requires y <= part.y2
    ensures forall x', y' :: !(Inside(Rect(x, y, x, y), x', y') && Inside(ColumnFrom(part, x, y + 1), x', y'))
    ensures forall x', y' :: Inside(ColumnFrom(part, x, y), x', y') <==>
              Inside(Rect(x, y, x, y), x', y') || Inside(ColumnFrom(part, x, y + 1), x', y')
  {
  }

  /** The columns from `x` on split into column `x` and the columns after it. */
  lemma ColumnsSplit(part: Rect, x: int)
    requires x <= part.x2 && part.y1 <= part.y2
    ensures forall x', y' :: !(Inside(ColumnFrom(part, x, part.y1), x', y') && Inside(ColumnsFrom(part, x + 1), x', y'))
    ensures forall x', y' :: Inside(ColumnsFrom(part, x), x', y') <==>
              Inside(ColumnFrom(part, x, part.y1), x', y') || Inside(ColumnsFrom(part, x + 1), x', y')
  {
  }

  /** The inner loop: cells `y .. part.y2` of column `x`. */
  function ScanColumn(part: Rect, x: int, y: int, rolls: (int, int) -> CellRoll, m: Map, objs: seq<Object>, level: nat): (r: Option<seq<Object>>)
    requires ScanOk(part, m, level, rolls)
    requires part.x1 <= x <= part.x2 && part.y1 <= y
    ensures OnMap(m, ColumnFrom(part, x, y))
    ensures TablesOk(level) ==> r.Some?
    ensures r.Some? ==> ScanPromise(ColumnFrom(part, x, y), rolls, m, objs, level, r.value)
    decreases part.y2 - y
  {
    OnMapWithin(m, ColumnFrom(part, x, y), part);
    if y > part.y2 then
      EmptyScan(ColumnFrom(part, x, y), rolls, m, objs, level);
      Some(objs)
    else
      CellReady(part, m, level, rolls, x, y);
      var next := VisitCell(x, y, rolls(x, y), m, objs, level);
      if next.None? then None
      else
        VisitIsScan(x, y, rolls, m, objs, level, next.value);
        var r := ScanColumn(part, x, y + 1, rolls, m, next.value, level);
        if r.None? then None
        else
          ColumnSplits(part, x, y);
          ScanSplits(Rect(x, y, x, y), ColumnFrom(part, x, y + 1), ColumnFrom(part, x, y),
                     rolls, m, objs, next.value, r.value, level);
          r
  }

  /** The outer loop: columns `x .. part.x2`. */
  function ScanColumns(part: Rect, x: int, rolls: (int, int) -> CellRoll, m: Map, objs: seq<Object>, level: nat): (r: Option<seq<Object>>)
    requires ScanOk(part, m, level, rolls)
    requires part.x1 <= x
    ensures OnMap(m, ColumnsFrom(part, x))
    ensures TablesOk(level) ==> r.Some?
    ensures r.Some? ==> ScanPromise(ColumnsFrom(part, x), rolls, m, objs, level, r.value)
    decreases part.x2 - x
  {
    OnMapWithin(m, ColumnsFrom(part, x), part);
    if x > part.x2 || part.y1 > part.y2 then
      EmptyScan(ColumnsFrom(part, x), rolls, m, objs, level);
      Some(objs)
    else
      var next := ScanColumn(part, x, part.y1, rolls, m, objs, level);
      if next.None? then None
      else
        var r := ScanColumns(part, x + 1, rolls, m, next.value, level);
        if r.None? then None
        else
          ColumnsSplit(part, x);
          ScanSplits(ColumnFrom(part, x, part.y1), ColumnsFrom(part, x + 1), ColumnsFrom(part, x),
                     rolls, m, objs, next.value, r.value, level);
          r
  }

  /** `place_objects(part, map, objects, level)`: scans every cell of the
      partition. Objects are pushed only inside the partition and on floor.
      A cell receives an NPC exactly when it was free before the scan and its
      NPC roll is under `npc_chance`, and an item exactly when it was free
      and its item roll is under `item_chance`. No two blocking objects end
      up stacked, and the scan fails only when a table is empty at `level`,
      which never happens for levels up to 99. */
  function PlaceObjects(part: Rect, m: Map, objs: seq<Object>, level: nat, rolls: (int, int) -> CellRoll): (r: Option<seq<Object>>)
    requires ScanOk(part, m, level, rolls)
    ensures level <= 99 ==> r.Some?
    ensures r.Some? ==> Extends(r.value, objs) && NpcsAndItems(r.value, |objs|)
    ensures r.Some? ==> PushedIn(part, r.value, |objs|) && PlacedOnFloor(m, r.value, |objs|)
    ensures r.Some? && Unstacked(objs) ==> Unstacked(r.value)
    ensures r.Some? ==> forall x, y :: Inside(part, x, y) ==>
              (PushedAt(NpcKind, r.value, |objs|, x, y) <==>
                 !IsBlocked(x, y, m, objs) && rolls(x, y).npcRoll < FromMapLevel(NPC_CHANCE, level))
    ensures r.Some? ==> forall x, y :: Inside(part, x, y) ==>
              (PushedAt(ItemKind, r.value, |objs|, x, y) <==>
                 !IsBlocked(x, y, m, objs) && rolls(x, y).itemRoll < FromMapLevel(ITEM_CHANCE, level))
  {
    assert level <= 99 ==> TablesOk(level) by {
      if level <= 99 { TablesAreNonEmpty(level); }
    }
    var r := ScanColumns(part, part.x1, rolls, m, objs, level);
    if r.None? then None
    else
      assert ColumnsFrom(part, part.x1) == part;
      assert Unstacked(objs) ==> Unstacked(r.value) by {
        if Unstacked(objs) {
          assert r.value[..|objs|] == objs;
          FreePlacementKeepsUnstacked(r.value, |objs|);
        }
      }
      r
  }
}

=== FILE: constants.dfy ===
/** Game-wide constants (src/constants.rs). */
module Constants {

  type Positive = n: int | n > 0 witness 1

  /** Size of the map, in cells. */
  const MAP_WIDTH: int := 80
  const MAP_HEIGHT: int := 43

  /** The player is always the first object of a level's object list. */
  const PLAYER: nat := 0

  /** These three are used by the game but not defined in src/constants.rs:
      they are left abstract, known only to be positive. */
  const INVENTORY_MAX: Positive
  const LEVEL_UP_BASE: Positive
  const LEVEL_UP_FACTOR: Positive
}

=== FILE: equipment.dfy ===
/** Wearing, taking off, picking up and dropping items (src/equipment.rs). */
module Equipping {
  import opened Options
  import opened Constants
  import opened Objects

  /** The item is worn in `slot`. */
  predicate WornIn(o: Object, slot: Slot) {
    o.equipment.Some? && o.equipment.value.equipped && o.equipment.value.slot == slot
  }

  /** The earliest inventory index worn in `slot`, if any. */
  function FirstWorn(inventory: seq<Object>, slot: Slot): (r: Option<nat>)
    ensures r.None? <==> forall i :: 0 <= i < |inventory| ==> !WornIn(inventory[i], slot)
    ensures r.Some? ==> r.value < |inventory| && WornIn(inventory[r.value], slot)
    ensures r.Some? ==> forall i :: 0 <= i < r.value ==> !WornIn(inventory[i], slot)
  {
    if |inventory| == 0 then None
    else if WornIn(inventory[0], slot) then Some(0)
    else
      var rest := FirstWorn(inventory[1..], slot);
      assert forall i :: 1 <= i < |inventory| ==> inventory[i] == inventory[1..][i - 1];
      if rest.None? then None else Some(rest.value + 1)
  }

  /** Ascending indices that are all worn in `slot` and include every index
      worn there begin with `FirstWorn`. */
  lemma FirstOfWornIndices(inventory: seq<Object>, slot: Slot, ids: seq<nat>)
    requires |ids| > 0
    requires forall k :: 0 <= k < |ids| ==> ids[k] < |inventory| && WornIn(inventory[ids[k]], slot)
    requires forall k, l :: 0 <= k < l < |ids| ==> ids[k] < ids[l]
    requires forall i :: 0 <= i < |inventory| && WornIn(inventory[i], slot) ==> i in ids
    ensures FirstWorn(inventory, slot) == Some(ids[0])
  {
  }

  /** How many items of the inventory are worn in `slot`. */
  function CountWorn(inventory: seq<Object>, slot: Slot): nat {
    if |inventory| == 0 then 0
    else CountWorn(inventory[..|inventory| - 1], slot) + (if WornIn(inventory[|inventory| - 1], slot) then 1 else 0)
  }

  lemma {:induction false} CountWornUpdate(inventory: seq<Object>, i: nat, o: Object, slot: Slot)
    requires i < |inventory|
    ensures CountWorn(inventory[i := o], slot)
         == CountWorn(inventory, slot) - (if WornIn(inventory[i], slot) then 1 else 0) + (if WornIn(o, slot) then 1 else 0)
    decreases |inventory|
  {
    var n := |inventory| - 1;
    var updated := inventory[i := o];
    if i < n {
      assert updated[..n] == inventory[..n][i := o];
      CountWornUpdate(inventory[..n], i, o, slot);
    } else {
      assert updated[..n] == inventory[..n];
    }
  }

  lemma {:induction false} CountWornNone(inventory: seq<Object>, slot: Slot)
    requires forall i :: 0 <= i < |inventory| ==> !WornIn(inventory[i], slot)
    ensures CountWorn(inventory, slot) == 0
    decreases |inventory|
  {
    if |inventory| > 0 {
      CountWornNone(inventory[..|inventory| - 1], slot);
    }
  }

  lemma CountWornStep(inventory: seq<Object>, k: nat, slot: Slot)
    requires k < |inventory|
    ensures CountWorn(inventory[..k + 1], slot) == CountWorn(inventory[..k], slot) + (if WornIn(inventory[k], slot) then 1 else 0)
  {
    assert inventory[..k + 1][..k] == inventory[..k];
  }

  /** Taking item `i` off never raises a slot's count, and lowers the count
      of the slot it was worn in when it is an item. */
  lemma DequipCounts(inventory: seq<Object>, i: nat)
    requires i < |inventory|
    ensures forall slot: Slot :: CountWorn(inventory[i := Dequip(inventory[i])], slot) <= CountWorn(inventory, slot)
    ensures forall slot: Slot :: inventory[i].item.Some? && WornIn(inventory[i], slot) ==>
              CountWorn(inventory[i := Dequip(inventory[i])], slot) == CountWorn(inventory, slot) - 1
  {
    forall slot: Slot ensures CountWorn(inventory[i := Dequip(inventory[i])], slot)
        == CountWorn(inventory, slot) - (if WornIn(inventory[i], slot) then 1 else 0) + (if WornIn(Dequip(inventory[i]), slot) then 1 else 0) {
      CountWornUpdate(inventory, i, Dequip(inventory[i]), slot);
    }
  }

  /** No slot holds more worn items than it has room for. */
  predicate WithinCapacity(inventory: seq<Object>) {
    forall slot: Slot :: CountWorn(inventory, slot) <= NumInSlot(slot).value
  }

  /** `b` is `a` with at most the wear flags of its equipment changed. */
  predicate OnlyWearChanged(a: seq<Object>, b: seq<Object>) {
    |a| == |b| &&
    forall i :: 0 <= i < |a| ==>
      b[i].(equipment := a[i].equipment) == a[i] && (b[i].equipment.Some? <==> a[i].equipment.Some?)
  }

  /** Putting item `i` on or taking it off changes only its wear flag. */
  lemma WearAt(inv: seq<Object>, i: nat, o: Object)
    requires i < |inv| && (o == Equip(inv[i]) || o == Dequip(inv[i]))
    ensures OnlyWearChanged(inv, inv[i := o])
  {
  }

  lemma OnlyWearChangedTrans(a: seq<Object>, b: seq<Object>, c: seq<Object>)
    requires OnlyWearChanged(a, b) && OnlyWearChanged(b, c)
    ensures OnlyWearChanged(a, c)
  {
    forall i | 0 <= i < |a| ensures c[i].(equipment := a[i].equipment) == a[i] {
      assert c[i].(equipment := b[i].equipment) == b[i];
    }
  }

  /** Changing wear flags keeps equipment on items only. */
  lemma OnlyWearChangedKeepsItems(a: seq<Object>, b: seq<Object>)
    requires OnlyWearChanged(a, b) && EquipmentIsItem(a)
    ensures EquipmentIsItem(b)
  {
    forall i | 0 <= i < |b| && b[i].equipment.Some? ensures b[i].item.Some? {
      assert b[i].item == b[i].(equipment := a[i].equipment).item;
    }
  }

  /** Putting on an unworn item whose slot has room, in an inventory whose
      counts are no higher than those of one within capacity, keeps every
      slot within capacity. */
  lemma PutOnKeepsCapacity(inv: seq<Object>, cleared: seq<Object>, invId: nat)
    requires invId < |inv| == |cleared| && cleared[invId] == inv[invId]
    requires inv[invId].item.Some? && inv[invId].equipment.Some? && !inv[invId].equipment.value.equipped
    requires forall slot: Slot :: CountWorn(cleared, slot) <= CountWorn(inv, slot)
    requires WithinCapacity(inv)
    requires var s := inv[invId].equipment.value.slot; CountWorn(cleared, s) < NumInSlot(s).value
    ensures WithinCapacity(cleared[invId := Equip(inv[invId])])
  {
    forall slot: Slot ensures CountWorn(cleared[invId := Equip(inv[invId])], slot) <= NumInSlot(slot).value {
      CountWornUpdate(cleared, invId, Equip(inv[invId]), slot);
    }
  }

  /** Only items carry equipment (what the loot table produces). */
  predicate EquipmentIsItem(inventory: seq<Object>) {
    forall i :: 0 <= i < |inventory| ==> inventory[i].equipment.Some? ==> inventory[i].item.Some?
  }

  /** `get_equipped_in_slot`: `None` when nothing is worn in `slot`, otherwise
      the ascending list of exactly the positions of the items worn there. */
  method GetEquippedInSlot(slot: Slot, inventory: seq<Object>) returns (r: Option<seq<nat>>)
    ensures r.None? <==> forall i :: 0 <= i < |inventory| ==> !WornIn(inventory[i], slot)
    ensures r.Some? ==> |r.value| == CountWorn(inventory, slot) > 0
    ensures r.Some? ==> forall k :: 0 <= k < |r.value| ==> r.value[k] < |inventory| && WornIn(inventory[r.value[k]], slot)
    ensures r.Some? ==> forall k, l :: 0 <= k < l < |r.value| ==> r.value[k] < r.value[l]
    ensures r.Some? ==> forall i :: 0 <= i < |inventory| && WornIn(inventory[i], slot) ==> i in r.value
  {
    var ids: seq<nat> := [];
    var k := 0;
    while k < |inventory|
      invariant 0 <= k <= |inventory|
      invariant |ids| == CountWorn(inventory[..k], slot)
      invariant forall j :: 0 <= j < |ids| ==> ids[j] < k && WornIn(inventory[ids[j]], slot)
      invariant forall j, l :: 0 <= j < l < |ids| ==> ids[j] < ids[l]
      invariant forall i :: 0 <= i < k && WornIn(inventory[i], slot) ==> i in ids
    {
      CountWornStep(inventory, k, slot);
      if WornIn(inventory[k], slot) {
        ids := ids + [k];
        assert k in ids;
      }
      k := k + 1;
    }
    assert inventory[..k] == inventory;
    if |ids| > 0 {
      assert WornIn(inventory[ids[0]], slot);
      r := Some(ids);
    } else {
      assert forall i :: 0 <= i < |inventory| ==> !WornIn(inventory[i], slot) by {
        forall i | 0 <= i < |inventory| ensures !WornIn(inventory[i], slot) {
          assert i !in ids;
        }
      }
      r := None;
    }
  }

  /** Putting on an item of `slot` first takes off the slot's earliest worn
      item, when some item is worn there and the slot holds one item at most
      or is full. */
  predicate MakesRoom(inventory: seq<Object>, slot: Slot) {
    && FirstWorn(inventory, slot).Some?
    && (NumInSlot(slot).value == 1 || CountWorn(inventory, slot) == NumInSlot(slot).value)
  }

  /** `toggle_equipment`, on the player's fighter: an item without equipment
      is refused; a worn item is taken off; otherwise, when the slot holds
      one item at most or is full, its earliest worn item is taken off first,
      and then the item is put on. Toggling keeps every slot within its
      capacity. */
  method ToggleEquipment(invId: nat, f: Fighter) returns (res: UseResult, g: Fighter)
    requires invId < |f.inventory|
    ensures g.(inventory := f.inventory) == f && |g.inventory| == |f.inventory|
    ensures f.inventory[invId].equipment.None? ==> res == Cancelled && g == f
    ensures f.inventory[invId].equipment.Some? ==> res == UsedAndKept
    ensures IsEquipped(f.inventory[invId]) ==>
              g.inventory == f.inventory[invId := Dequip(f.inventory[invId])]
    ensures !IsEquipped(f.inventory[invId]) && f.inventory[invId].item.Some? && f.inventory[invId].equipment.Some? ==>
              IsEquipped(g.inventory[invId])
    ensures !IsEquipped(f.inventory[invId]) && f.inventory[invId].equipment.Some? ==>
              var slot := f.inventory[invId].equipment.value.slot;
              var cleared := if MakesRoom(f.inventory, slot)
                then var k := FirstWorn(f.inventory, slot).value; f.inventory[k := Dequip(f.inventory[k])]
                else f.inventory;
              g.inventory == cleared[invId := Equip(f.inventory[invId])]
    ensures OnlyWearChanged(f.inventory, g.inventory)
    ensures EquipmentIsItem(f.inventory) ==> EquipmentIsItem(g.inventory)
    ensures EquipmentIsItem(f.inventory) && WithinCapacity(f.inventory) ==> WithinCapacity(g.inventory)
  {
    var inv := f.inventory;
    var item := inv[invId];
    if item.equipment.None? {
      return Cancelled, f;
    }
    var e := item.equipment.value;
    if e.equipped {
      DequipCounts(inv, invId);
      WearAt(inv, invId, Dequip(item));
      if EquipmentIsItem(inv) {
        OnlyWearChangedKeepsItems(inv, inv[invId := Dequip(item)]);
      }
      return UsedAndKept, f.(inventory := inv[invId := Dequip(item)]);
    }
    var cleared := inv;
    var filled := GetEquippedInSlot(e.slot, inv);
    var cap := NumInSlot(e.slot).value;
    if filled.Some? {
      FirstOfWornIndices(inv, e.slot, filled.value);
    }
    if filled.Some? && (cap == 1 || cap == |filled.value|) {
      var first := filled.value[0];
      cleared := inv[first := Dequip(inv[first])];
      DequipCounts(inv, first);
      WearAt(inv, first, Dequip(inv[first]));
    }
    if filled.None? {
      CountWornNone(inv, e.slot);
    }
    assert cleared[invId] == item;
    WearAt(cleared, invId, Equip(item));
    OnlyWearChangedTrans(inv, cleared, cleared[invId := Equip(item)]);
    if EquipmentIsItem(inv) {
      OnlyWearChangedKeepsItems(inv, cleared[invId := Equip(item)]);
    }
    if EquipmentIsItem(inv) && WithinCapacity(inv) {
      PutOnKeepsCapacity(inv, cleared, invId);
    }
    return UsedAndKept, f.(inventory := cleared[invId := Equip(item)]);
  }

  /** `Vec::swap_remove`: take out element `i` and move the last element into
      its place. */
  function SwapRemove<T>(s: seq<T>, i: nat): (r: (T, seq<T>))
    requires i < |s|
    ensures r.0 == s[i] && |r.1| == |s| - 1
    ensures multiset(r.1) + multiset{r.0} == multiset(s)
    ensures forall j :: 0 <= j < |r.1| && j != i ==> r.1[j] == s[j]
    ensures i < |r.1| ==> r.1[i] == s[|s| - 1]
  {
    var last := |s| - 1;
    if i == last then
      assert s == s[..last] + [s[last]];
      (s[i], s[..last])
    else
      var rest := s[..last][i := s[last]];
      assert s == s[..last] + [s[last]];
      assert multiset(s[..last][i := s[last]]) == multiset(s[..last]) - multiset{s[i]} + multiset{s[last]};
      (s[i], rest)
  }

  /** The inventory is full for the player only: other pickers carry any
      number of items. */
  predicate InventoryFull(pickerId: nat, objects: seq<Object>)
    requires pickerId < |objects| && objects[pickerId].fighter.Some?
  {
    pickerId == PLAYER && |objects[pickerId].fighter.value.inventory| >= INVENTORY_MAX
  }

  /** `pick_item_up`: if the player's inventory is full nothing changes.
      Otherwise the object leaves the level's list (by `swap_remove`) and
      joins the end of the picker's inventory. The picker must keep its index
      and its fighter once the object is gone. */
  function PickItemUp(objId: nat, pickerId: nat, objects: seq<Object>): (r: seq<Object>)
    requires objId < |objects| && pickerId < |objects| && objects[pickerId].fighter.Some?
    requires !InventoryFull(pickerId, objects) ==>
               pickerId < |objects| - 1 && SwapRemove(objects, objId).1[pickerId].fighter.Some?
    ensures InventoryFull(pickerId, objects) ==> r == objects
    ensures !InventoryFull(pickerId, objects) ==>
      var remaining := SwapRemove(objects, objId).1;
      var picker := remaining[pickerId];
      && |r| == |objects| - 1
      && r == remaining[pickerId := picker.(fighter := Some(picker.fighter.value.(
                inventory := picker.fighter.value.inventory + [objects[objId]])))]
      && (objId != pickerId ==> r[pickerId].fighter.value.inventory
                                  == objects[pickerId].fighter.value.inventory + [objects[objId]])
  {
    if InventoryFull(pickerId, objects) then objects
    else
      var (item, remaining) := SwapRemove(objects, objId);
      var picker := remaining[pickerId];
      var f := picker.fighter.value;
      remaining[pickerId := picker.(fighter := Some(f.(inventory := f.inventory + [item])))]
  }

  /** `drop_item`: inventory entry `invId` is removed, taken off if it is
      equipment, placed at the dropper's position and appended to the level's
      objects. */
  function DropItem(invId: nat, dropperId: nat, objects: seq<Object>): (r: seq<Object>)
    requires dropperId < |objects| && objects[dropperId].fighter.Some?
    requires invId < |objects[dropperId].fighter.value.inventory|
    ensures var dropper := objects[dropperId];
      var inv := dropper.fighter.value.inventory;
      var item := inv[invId];
      && |r| == |objects| + 1
      && r[..|objects|] == objects[dropperId := dropper.(fighter := Some(dropper.fighter.value.(
              inventory := inv[..invId] + inv[invId + 1..])))]
      && r[|objects|].x == dropper.x && r[|objects|].y == dropper.y
      && (item.item.Some? ==> !IsEquipped(r[|objects|]))
      && r[|objects|].(x := item.x, y := item.y, equipment := item.equipment) == item
      && r[|objects|].equipment == Dequip(item).equipment
      && multiset(inv[..invId] + inv[invId + 1..]) + multiset{item} == multiset(inv)
  {
    var dropper := objects[dropperId];
    var f := dropper.fighter.value;
    var item := f.inventory[invId];
    var rest := f.inventory[..invId] + f.inventory[invId + 1..];
    assert f.inventory == f.inventory[..invId] + [item] + f.inventory[invId + 1..];
    var dropped := SetPos(if item.equipment.Some? then Dequip(item) else item, dropper.x, dropper.y);
    var r := objects[dropperId := dropper.(fighter := Some(f.(inventory := rest)))] + [dropped];
    assert r[..|objects|] == objects[dropperId := dropper.(fighter := Some(f.(inventory := rest)))];
    r
  }

  /** Dropping an item and picking it straight back up leaves the level's
      objects as they were, with the item moved to the end of the inventory,
      taken off and carrying the dropper's position. */
  lemma DropThenPickUp(invId: nat, dropperId: nat, objects: seq<Object>)
    requires dropperId < |objects| && objects[dropperId].fighter.Some?
    requires invId < |objects[dropperId].fighter.value.inventory|
    requires dropperId == PLAYER ==> |objects[dropperId].fighter.value.inventory| - 1 < INVENTORY_MAX
    ensures var dropped := DropItem(invId, dropperId, objects);
      var dropper := objects[dropperId];
      var inv := dropper.fighter.value.inventory;
      && !InventoryFull(dropperId, dropped)
      && var back := PickItemUp(|objects|, dropperId, dropped);
      && |back| == |objects|
      && (forall j :: 0 <= j < |objects| && j != dropperId ==> back[j] == objects[j])
      && back[dropperId].(fighter := dropper.fighter) == dropper
      && back[dropperId].fighter.Some?
      && multiset(back[dropperId].fighter.value.inventory) == multiset(inv[..invId] + inv[invId + 1..]) + multiset{dropped[|objects|]}
      && back[dropperId].fighter.value.inventory[|inv| - 1] == dropped[|objects|]
  {
    var dropped := DropItem(invId, dropperId, objects);
    assert dropped[dropperId] == dropped[..|objects|][dropperId];
    var back := PickItemUp(|objects|, dropperId, dropped);
    assert SwapRemove(dropped, |objects|).1 == dropped[..|objects|];
  }
}

=== FILE: game_map.dfy ===
/** `make_map` of src/map.rs: the game builds every level with the
    random-rooms generator. */
module GameMap {
  import opened Options
  import opened Constants
  import opened Rects
  import opened Objects
  import opened Levels
  import SimpleFast

  /** `make_map(all_objects, level)`: the level the random-rooms generator
      builds from the same draws, with the same guarantees. */
  method MakeMap(objs: seq<Object>, level: nat, cands: seq<SimpleFast.Candidate>) returns (r: Option<Built>)
    requires |cands| == SimpleFast.MAX_ROOMS
    requires forall i :: 0 <= i < |cands| ==> SimpleFast.CandidateOk(cands[i], level)
    ensures level <= 99 && (level > 0 || |objs| > PLAYER) ==> r.Some?
    ensures r.None? <==> Fails(SimpleFast.Plan(SimpleFast.Accept(cands)), objs, level)
    ensures r.Some? ==> var rooms := SimpleFast.Plan(SimpleFast.Accept(cands));
      && Anchor(objs, level, Center(rooms[0].room)).Some?
      && LevelOk(rooms, Anchor(objs, level, Center(rooms[0].room)).value, level, r.value)
  {
    r := SimpleFast.MakeMap(objs, level, cands);
  }
}

=== FILE: levels.dfy ===
/** The loop every map generator shares (`make_map_simple_fast` in
    src/map_algos/simple_fast.rs, `bsp_mod` in src/map_algos/bsp_mod.rs and
    `bsp` in libtcod/src/map_algos/bsp.rs): start from solid rock, and for
    each room in turn carve it, then either anchor the level on it (the
    first room) or join it to the previous room by an L-shaped tunnel and
    furnish it; finally put the up-stairs at the centre of the last room.
    The generators differ only in how the rooms are chosen and furnished. */
module Levels {
  import opened Options
  import opened Constants
  import opened Tiles
  import opened Rects
  import opened Objects
  import opened Transitions
  import opened Carving
  import opened Placement
  import RoomPopulation
  import CellPopulation

  /** How a room after the first is furnished: by random attempts inside the
      room (`place_objects(new_room, ..)` of the random-rooms generator and
      the uniform BSP), or by a roll at every cell of its partition
      (`place_objects(*part, ..)` of the modified BSP). */
  datatype Fill =
    | ByRoom(draws: RoomPopulation.RoomDraws)
    | ByCell(part: Rect, rolls: (int, int) -> CellPopulation.CellRoll)

  /** One room of the level, with the coin that orders the tunnel joining it
      to the previous room (horizontal run first when true) and its fill. */
  datatype PlannedRoom = PlannedRoom(room: Rect, hFirst: bool, fill: Fill)

  /** What a generator returns: the map, the level's objects, the up-stairs
      position (centre of the last room) and the down position (centre of
      the first room). */
  datatype Built = Built(tiles: Map, objs: seq<Object>, up: (int, int), down: (int, int))

  /** A cell strictly inside the room's corners: the cells `carve_room` digs. */
  predicate InRoom(room: Rect, x: int, y: int) {
    room.x1 < x < room.x2 && room.y1 < y < room.y2
  }

  /** The dug part of the room lies off the map's edge and holds the room's
      centre. */
  predicate RoomOk(room: Rect) {
    && Interior(room.x1 + 1, room.y1 + 1) && Interior(room.x2 - 1, room.y2 - 1)
    && InRoom(room, Center(room).0, Center(room).1)
  }

  /** The room's attempts stay strictly inside it and their picks are in range. */
  predicate SpotsFit(room: Rect, kind: Kind, level: int, spots: seq<RoomPopulation.Spot>) {
    forall k :: 0 <= k < |spots| ==>
      InRoom(room, spots[k].x, spots[k].y) && PickOk(kind, level, spots[k].pick)
  }

  /** The fill's draws are in range: at most the level's counts of attempts,
      each inside the room; or a partition on the map with a valid roll at
      every cell. */
  ghost predicate FillOk(f: Fill, room: Rect, level: nat) {
    match f
    case ByRoom(d) =>
      && |d.npcs| <= FromMapLevel(RoomPopulation.MAX_NPCS, level)
      && |d.items| <= FromMapLevel(RoomPopulation.MAX_ITEMS, level)
      && SpotsFit(room, NpcKind, level, d.npcs) && SpotsFit(room, ItemKind, level, d.items)
    case ByCell(part, rolls) =>
      && 0 <= part.x1 && part.x2 < MAP_WIDTH && 0 <= part.y1 && part.y2 < MAP_HEIGHT
      && forall x, y :: Inside(part, x, y) ==> CellPopulation.RollOk(level, rolls(x, y))
  }

  ghost predicate SlotsOk(slots: seq<PlannedRoom>, level: nat) {
    forall k :: 0 <= k < |slots| ==> RoomOk(slots[k].room) && FillOk(slots[k].fill, slots[k].room, level)
  }

  /** Where a fill may put objects. */
  function FillArea(f: Fill, room: Rect): Rect {
    match f
    case ByRoom(_) => Rect(room.x1 + 1, room.y1 + 1, room.x2 - 1, room.y2 - 1)
    case ByCell(part, _) => part
  }

  /** Furnishing a room: pushes only inside the fill's area and onto floor,
      never stacks two blockers, and fails only when a table is empty at
      `level` (never up to 99). */
  function Populate(f: Fill, room: Rect, m: Map, objs: seq<Object>, level: nat): (r: Option<seq<Object>>)
    requires IsGrid(m) && RoomOk(room) && FillOk(f, room, level)
    ensures level <= 99 ==> r.Some?
    ensures r.Some? ==> Extends(r.value, objs) && PlacedOnFloor(m, r.value, |objs|)
    ensures r.Some? ==> CellPopulation.PushedIn(FillArea(f, room), r.value, |objs|)
    ensures r.Some? && Unstacked(objs) ==> Unstacked(r.value)
  {
    match f
    case ByRoom(d) =>
      RoomDrawsOnMap(room, m, level, d);
      var r := RoomPopulation.PlaceObjects(room, m, objs, level, d);
      assert r.Some? ==> CellPopulation.PushedIn(FillArea(f, room), r.value, |objs|);
      r
    case ByCell(part, rolls) =>
      CellDrawsOnMap(part, m, level, rolls);
      CellPopulation.PlaceObjects(part, m, objs, level, rolls)
  }

  lemma SpotsOnMap(room: Rect, m: Map, kind: Kind, level: nat, spots: seq<RoomPopulation.Spot>)
    requires IsGrid(m) && RoomOk(room) && SpotsFit(room, kind, level, spots)
    ensures RoomPopulation.SpotsOk(room, m, kind, level, spots)
  {
    forall k | 0 <= k < |spots| ensures RoomPopulation.SpotOk(room, m, kind, level, spots[k]) {
      assert InRoom(room, spots[k].x, spots[k].y);
    }
  }

  /** On a map of the game's size, attempts inside a room that lies off the
      map's edge are attempts on the map. */
  lemma RoomDrawsOnMap(room: Rect, m: Map, level: nat, d: RoomPopulation.RoomDraws)
    requires IsGrid(m) && RoomOk(room) && FillOk(ByRoom(d), room, level)
    ensures RoomPopulation.DrawsOk(room, m, level, d)
  {
    SpotsOnMap(room, m, NpcKind, level, d.npcs);
    SpotsOnMap(room, m, ItemKind, level, d.items);
  }

  /** On a map of the game's size, a partition within its bounds lies on the map. */
  lemma CellDrawsOnMap(part: Rect, m: Map, level: nat, rolls: (int, int) -> CellPopulation.CellRoll)
    requires IsGrid(m) && FillOk(ByCell(part, rolls), part, level)
    ensures CellPopulation.ScanOk(part, m, level, rolls)
  {
    forall x, y | Inside(part, x, y) ensures InMap(m, x, y) {
      assert |m[x]| == MAP_HEIGHT;
    }
    assert CellPopulation.OnMap(m, part);
  }

  /** The stairs `Object::new(x, y, chr, name, WHITE, false)`, always visible. */
  function Stairs(x: int, y: int, chr: char, name: string): (o: Object)
    ensures o.x == x && o.y == y && !o.blocks && o.alwaysVisible
  {
    NewObject(x, y, chr, name, White, false).(alwaysVisible := true)
  }

  function DownStairs(c: (int, int)): Object { Stairs(c.0, c.1, '<', "down-stairs") }

  function UpStairs(c: (int, int)): Object { Stairs(c.0, c.1, '>', "up-stairs") }

  /** The objects once the first room is anchored: on level 0 the player is
      moved to the room's centre, on deeper levels down-stairs are pushed
      there. Indexing the player of an empty list panics. */
  function Anchor(objs: seq<Object>, level: nat, c: (int, int)): (r: Option<seq<Object>>)
    ensures r.None? <==> level == 0 && |objs| <= PLAYER
    ensures r.Some? && level == 0 ==>
              |r.value| == |objs| && r.value[PLAYER].x == c.0 && r.value[PLAYER].y == c.1
              && forall i :: 0 <= i < |objs| && i != PLAYER ==> r.value[i] == objs[i]
    ensures r.Some? && level > 0 ==>
              Extends(r.value, objs) && |r.value| == |objs| + 1 && r.value[|objs|] == DownStairs(c)
  {
    if level == 0 then
      if |objs| <= PLAYER then None
      else Some(objs[PLAYER := SetPos(objs[PLAYER], c.0, c.1)])
    else
      assert (objs + [DownStairs(c)])[..|objs|] == objs;
      Some(objs + [DownStairs(c)])
  }

  /** What room `k` adds to the floor: its inside, and for every room after
      the first, the tunnel from the previous room's centre. */
  predicate Adds(slots: seq<PlannedRoom>, k: nat, x: int, y: int)
    requires k < |slots|
  {
    || InRoom(slots[k].room, x, y)
    || (k > 0 && OnLPath(Center(slots[k - 1].room), Center(slots[k].room), slots[k].hFirst, x, y))
  }

  /** Reference definition of the floor once the first `n` rooms are done. */
  predicate Planned(slots: seq<PlannedRoom>, n: nat, x: int, y: int)
    requires n <= |slots|
  {
    n > 0 && (Planned(slots, n - 1, x, y) || Adds(slots, n - 1, x, y))
  }

  /** The inside of every room done so far is planned floor. */
  lemma {:induction false} RoomIsPlanned(slots: seq<PlannedRoom>, n: nat, k: nat, x: int, y: int)
    requires k < n <= |slots| && InRoom(slots[k].room, x, y)
    ensures Planned(slots, n, x, y)
    decreases n
  {
    if k < n - 1 {
      RoomIsPlanned(slots, n - 1, k, x, y);
    }
  }

  /** Reference definition of the map once the first `n` rooms are dug:
      floor on the planned cells, solid rock everywhere else. */
  function MapAfter(slots: seq<PlannedRoom>, n: nat): (m: Map)
    requires n <= |slots|
    ensures IsGrid(m)
    ensures forall x, y :: InMap(m, x, y) ==> m[x][y] == if Planned(slots, n, x, y) then Empty() else Wall()
  {
    seq(MAP_WIDTH, x => seq(MAP_HEIGHT, y => if Planned(slots, n, x, y) then Empty() else Wall()))
  }

  /** Reference definition of the objects once the first `n` rooms are done:
      `start`, then every later room `k` furnished in turn on the map as it
      is once room `k` and its tunnel are dug; `None` from the first
      furnishing that fails on. */
  function Furnished(slots: seq<PlannedRoom>, n: nat, start: seq<Object>, level: nat): Option<seq<Object>>
    requires 0 < n <= |slots| && SlotsOk(slots, level)
  {
    if n == 1 then Some(start)
    else FurnishRoom(slots, n - 1, Furnished(slots, n - 1, start, level), level)
  }

  /** Furnishing room `k` on the map of the first `k + 1` rooms, unless an
      earlier furnishing already failed. */
  function FurnishRoom(slots: seq<PlannedRoom>, k: nat, prev: Option<seq<Object>>, level: nat): Option<seq<Object>>
    requires 0 < k < |slots| && RoomOk(slots[k].room) && FillOk(slots[k].fill, slots[k].room, level)
  {
    match prev
    case None => None
    case Some(objs) => Populate(slots[k].fill, slots[k].room, MapAfter(slots, k + 1), objs, level)
  }

  /** A furnishing that failed stays failed. */
  lemma {:induction false} FurnishedStaysNone(slots: seq<PlannedRoom>, n: nat, n2: nat, start: seq<Object>, level: nat)
    requires 0 < n <= n2 <= |slots| && SlotsOk(slots, level)
    requires Furnished(slots, n, start, level) == None
    ensures Furnished(slots, n2, start, level) == None
    decreases n2
  {
    if n < n2 {
      FurnishedStaysNone(slots, n, n2 - 1, start, level);
      FailedBefore(slots, n2, start, level);
    }
  }

  lemma FailedBefore(slots: seq<PlannedRoom>, n: nat, start: seq<Object>, level: nat)
    requires 1 < n <= |slots| && SlotsOk(slots, level)
    requires Furnished(slots, n - 1, start, level) == None
    ensures Furnished(slots, n, start, level) == None
  {
    assert Furnished(slots, n, start, level) == FurnishRoom(slots, n - 1, None, level);
  }

  /** Digging room `n` and its tunnel into the map of the first `n` rooms
      gives the map of the first `n + 1`. */
  lemma DugStep(slots: seq<PlannedRoom>, n: nat, m: Map, m2: Map)
    requires n < |slots| && m == MapAfter(slots, n) && IsGrid(m2)
    requires forall x, y :: InMap(m, x, y) ==>
               m2[x][y] == if Adds(slots, n, x, y) then Empty() else m[x][y]
    ensures m2 == MapAfter(slots, n + 1)
  {
    var a := MapAfter(slots, n + 1);
    forall x, y | InMap(m2, x, y) ensures m2[x][y] == a[x][y] {
      assert InMap(m, x, y);
    }
    SameMap(m2, a);
  }

  /** The state of the loop after `n` rooms, counted from the objects `start`
      the first room left: the map has the game's size and a solid border,
      it is the reference map of the first `n` rooms, so its floor is
      exactly the planned floor, consecutive centres are joined by floor,
      and every object pushed since `start` is on floor. */
  ghost predicate Progress(slots: seq<PlannedRoom>, n: nat, start: seq<Object>, m: Map, objs: seq<Object>)
    requires n <= |slots|
  {
    && IsGrid(m) && BorderIsWall(m) && m == MapAfter(slots, n)
    && (forall x, y :: InMap(m, x, y) ==> (IsFloor(m, x, y) <==> Planned(slots, n, x, y)))
    && (forall k :: 0 < k < n ==> JoinedByFloor(m, Center(slots[k - 1].room), Center(slots[k].room)))
    && Extends(objs, start) && PlacedOnFloor(m, objs, |start|)
    && (Unstacked(start) ==> Unstacked(objs))
  }

  /** Carving a room and then a tunnel floors exactly the room's inside and
      the tunnel. */
  lemma RoomThenTunnel(m: Map, m1: Map, m2: Map, room: Rect, prev: (int, int), hFirst: bool)
    requires OnlyDigs(m, m1) && OnlyDigs(m1, m2)
    requires forall x, y :: InMap(m, x, y) ==> m1[x][y] == if InRoom(room, x, y) then Empty() else m[x][y]
    requires forall x, y :: InMap(m1, x, y) ==>
               m2[x][y] == if OnLPath(prev, Center(room), hFirst, x, y) then Empty() else m1[x][y]
    ensures OnlyDigs(m, m2)
    ensures forall x, y :: InMap(m, x, y) ==>
              m2[x][y] == if InRoom(room, x, y) || OnLPath(prev, Center(room), hFirst, x, y)
                          then Empty() else m[x][y]
  {
    OnlyDigsTransitive(m, m1, m2);
    forall x, y | InMap(m, x, y)
      ensures m2[x][y] == if InRoom(room, x, y) || OnLPath(prev, Center(room), hFirst, x, y)
                          then Empty() else m[x][y]
    {
      assert InMap(m1, x, y);
    }
  }

  /** A room that passes `RoomOk` can be carved into a full-size map, and
      carving it floors exactly its inside and keeps the map's shape and
      border. */
  lemma CarvedRoom(m: Map, room: Rect)
    requires IsGrid(m) && RoomOk(room)
    ensures Writable(m, room.x1 + 1, room.x2 - 1, room.y1 + 1, room.y2 - 1)
    ensures var d := Dug(m, room.x1 + 1, room.x2 - 1, room.y1 + 1, room.y2 - 1);
      && IsGrid(d) && OnlyDigs(m, d) && (BorderIsWall(m) ==> BorderIsWall(d))
  {
    DugProperties(m, room.x1 + 1, room.x2 - 1, room.y1 + 1, room.y2 - 1);
  }

  /** The digging for one later room: carve it, then tunnel to it from the
      previous room's centre in the coin's order. */
  method Dig(prev: Rect, room: Rect, hFirst: bool, m: Map) returns (m2: Map)
    requires IsGrid(m) && RoomOk(prev) && RoomOk(room)
    ensures IsGrid(m2) && OnlyDigs(m, m2) && (BorderIsWall(m) ==> BorderIsWall(m2))
    ensures forall x, y :: InMap(m, x, y) ==>
              m2[x][y] == if InRoom(room, x, y) || OnLPath(Center(prev), Center(room), hFirst, x, y)
                          then Empty() else m[x][y]
    ensures JoinedByFloor(m2, Center(prev), Center(room))
  {
    CarvedRoom(m, room);
    var m1 := CarveRoom(room, m);
    m2 := Connect(Center(prev), Center(room), hFirst, m1);
    RoomThenTunnel(m, m1, m2, room, Center(prev), hFirst);
  }

  /** One later room: dig it, then furnish it on the map as it now is. */
  method AddRoom(prev: Rect, s: PlannedRoom, m: Map, objs: seq<Object>, level: nat) returns (m2: Map, r: Option<seq<Object>>)
    requires IsGrid(m) && RoomOk(prev) && RoomOk(s.room) && FillOk(s.fill, s.room, level)
    ensures IsGrid(m2) && OnlyDigs(m, m2) && (BorderIsWall(m) ==> BorderIsWall(m2))
    ensures forall x, y :: InMap(m, x, y) ==>
              m2[x][y] == if InRoom(s.room, x, y) || OnLPath(Center(prev), Center(s.room), s.hFirst, x, y)
                          then Empty() else m[x][y]
    ensures JoinedByFloor(m2, Center(prev), Center(s.room))
    ensures r == Populate(s.fill, s.room, m2, objs, level)
    ensures level <= 99 ==> r.Some?
    ensures r.Some? ==> Extends(r.value, objs) && PlacedOnFloor(m2, r.value, |objs|)
    ensures r.Some? ==> CellPopulation.PushedIn(FillArea(s.fill, s.room), r.value, |objs|)
    ensures r.Some? && Unstacked(objs) ==> Unstacked(r.value)
  {
    m2 := Dig(prev, s.room, s.hFirst, m);
    r := Populate(s.fill, s.room, m2, objs, level);
  }

  /** The loop's state after the first room. */
  lemma FirstRoomProgress(slots: seq<PlannedRoom>, m: Map, start: seq<Object>)
    requires |slots| > 0 && IsGrid(m) && BorderIsWall(m)
    requires forall x, y :: InMap(m, x, y) ==> m[x][y] == if InRoom(slots[0].room, x, y) then Empty() else Wall()
    ensures Progress(slots, 1, start, m, start)
  {
    var a := MapAfter(slots, 1);
    forall x, y | InMap(m, x, y) ensures m[x][y] == a[x][y] {
      assert Planned(slots, 1, x, y) == InRoom(slots[0].room, x, y);
    }
    SameMap(m, a);
    assert start[..|start|] == start;
  }

  /** One more room keeps the loop's state. */
  lemma ProgressStep(slots: seq<PlannedRoom>, n: nat, start: seq<Object>, m: Map, objs: seq<Object>,
                     m2: Map, objs2: seq<Object>)
    requires 0 < n < |slots| && Progress(slots, n, start, m, objs)
    requires IsGrid(m2) && OnlyDigs(m, m2) && BorderIsWall(m2) && m2 == MapAfter(slots, n + 1)
    requires forall x, y :: InMap(m, x, y) ==>
               m2[x][y] == if Adds(slots, n, x, y) then Empty() else m[x][y]
    requires JoinedByFloor(m2, Center(slots[n - 1].room), Center(slots[n].room))
    requires Extends(objs2, objs) && PlacedOnFloor(m2, objs2, |objs|)
    requires Unstacked(objs) ==> Unstacked(objs2)
    ensures Progress(slots, n + 1, start, m2, objs2)
  {
    forall x, y | InMap(m2, x, y) ensures IsFloor(m2, x, y) <==> Planned(slots, n + 1, x, y) {
      assert InMap(m, x, y);
    }
    forall k | 0 < k < n + 1 ensures JoinedByFloor(m2, Center(slots[k - 1].room), Center(slots[k].room)) {
      if k < n {
        JoinedByFloorPersists(m, m2, Center(slots[k - 1].room), Center(slots[k].room));
      }
    }
    PlacedOnFloorPersists(m, m2, objs, |start|);
    assert objs2[..|objs|] == objs;
    forall i | |start| <= i < |objs2| ensures IsFloor(m2, objs2[i].x, objs2[i].y) {
      if i < |objs| {
        assert objs2[i] == objs[i];
      }
    }
    assert objs2[..|start|] == objs[..|start|] == start;
  }

  /** Pushing an object that does not block keeps blockers unstacked. */
  lemma PushNonBlocking(objs: seq<Object>, o: Object)
    requires !o.blocks && Unstacked(objs)
    ensures Unstacked(objs + [o])
  {
    var r := objs + [o];
    forall i, j | 0 <= i < j < |r| && r[i].blocks && r[j].blocks
      ensures r[i].x != r[j].x || r[i].y != r[j].y
    {
      assert j < |objs| && r[i] == objs[i] && r[j] == objs[j];
    }
  }

  /** What a finished level satisfies. With `start` the objects the first
      room left: the map has the game's size and a solid border; its floor
      is exactly the rooms' insides and the tunnels between consecutive
      centres; every tunnel is floor end to end; the down position is the
      first room's centre and the up position the last room's, both on
      floor; the objects are `start` followed by what the rooms received and
      then the up-stairs at the up position; everything pushed after
      `start` stands on floor; and blockers stay unstacked. The map is the
      reference map of all the rooms and the objects before the up-stairs
      are the reference furnishing, so at most one level passes. */
  ghost predicate LevelOk(slots: seq<PlannedRoom>, start: seq<Object>, level: nat, b: Built)
  {
    && |slots| > 0 && SlotsOk(slots, level)
    && b.tiles == MapAfter(slots, |slots|)
    && Furnished(slots, |slots|, start, level).Some?
    && b.objs == Furnished(slots, |slots|, start, level).value + [UpStairs(b.up)]
    && IsGrid(b.tiles) && BorderIsWall(b.tiles)
    && (forall x, y :: InMap(b.tiles, x, y) ==> (IsFloor(b.tiles, x, y) <==> Planned(slots, |slots|, x, y)))
    && (forall k :: 0 < k < |slots| ==> JoinedByFloor(b.tiles, Center(slots[k - 1].room), Center(slots[k].room)))
    && b.down == Center(slots[0].room) && b.up == Center(slots[|slots| - 1].room)
    && IsFloor(b.tiles, b.down.0, b.down.1) && IsFloor(b.tiles, b.up.0, b.up.1)
    && Extends(b.objs, start) && |b.objs| > |start| && b.objs[|b.objs| - 1] == UpStairs(b.up)
    && PlacedOnFloor(b.tiles, b.objs, |start|)
    && (Unstacked(start) ==> Unstacked(b.objs))
  }

  /** Two levels that pass `LevelOk` for the same rooms, anchor and depth
      are the same level. */
  lemma LevelOkUnique(slots: seq<PlannedRoom>, start: seq<Object>, level: nat, b1: Built, b2: Built)
    requires LevelOk(slots, start, level, b1) && LevelOk(slots, start, level, b2)
    ensures b1 == b2
  {
  }

  /** The first room, carved into solid rock. */
  method FirstRoom(slots: seq<PlannedRoom>, start: seq<Object>) returns (m: Map)
    requires |slots| > 0 && RoomOk(slots[0].room)
    ensures Progress(slots, 1, start, m, start)
  {
    var room := slots[0].room;
    m := CarveRoom(room, AllWalls());
    DugProperties(AllWalls(), room.x1 + 1, room.x2 - 1, room.y1 + 1, room.y2 - 1);
    FirstRoomProgress(slots, m, start);
  }

  /** The rooms after the first, in order. */
  method LaterRooms(slots: seq<PlannedRoom>, start: seq<Object>, m0: Map, level: nat) returns (m: Map, r: Option<seq<Object>>)
    requires |slots| > 0 && SlotsOk(slots, level) && Progress(slots, 1, start, m0, start)
    ensures r == Furnished(slots, |slots|, start, level)
    ensures level <= 99 ==> r.Some?
    ensures r.Some? ==> Progress(slots, |slots|, start, m, r.value)
  {
    m := m0;
    var objs := start;
    var n := 1;
    while n < |slots|
      invariant 1 <= n <= |slots| && Progress(slots, n, start, m, objs)
      invariant Furnished(slots, n, start, level) == Some(objs)
    {
      var m2, next := AddRoom(slots[n - 1].room, slots[n], m, objs, level);
      DugStep(slots, n, m, m2);
      assert Furnished(slots, n + 1, start, level) == next;
      if next.None? {
        FurnishedStaysNone(slots, n + 1, |slots|, start, level);
        return m, None;
      }
      ProgressStep(slots, n, start, m, objs, m2, next.value);
      m, objs, n := m2, next.value, n + 1;
    }
    r := Some(objs);
  }

  /** Pushing the up-stairs at the last room's centre finishes the level. */
  lemma Finish(slots: seq<PlannedRoom>, start: seq<Object>, level: nat, m: Map, objs: seq<Object>)
    requires |slots| > 0 && Progress(slots, |slots|, start, m, objs)
    requires SlotsOk(slots, level) && Furnished(slots, |slots|, start, level) == Some(objs)
    ensures var up := Center(slots[|slots| - 1].room);
      LevelOk(slots, start, level, Built(m, objs + [UpStairs(up)], up, Center(slots[0].room)))
  {
    var up := Center(slots[|slots| - 1].room);
    var down := Center(slots[0].room);
    RoomIsPlanned(slots, |slots|, 0, down.0, down.1);
    RoomIsPlanned(slots, |slots|, |slots| - 1, up.0, up.1);
    var all := objs + [UpStairs(up)];
    assert all[..|start|] == objs[..|start|] == start;
    if Unstacked(start) {
      PushNonBlocking(objs, UpStairs(up));
    }
  }

  /** When the shared loop fails: without rooms, without a player to move on
      level 0, or when a later room's furnishing fails. */
  ghost predicate Fails(slots: seq<PlannedRoom>, objs0: seq<Object>, level: nat) {
    || |slots| == 0
    || Anchor(objs0, level, Center(slots[0].room)).None?
    || (SlotsOk(slots, level)
        && Furnished(slots, |slots|, Anchor(objs0, level, Center(slots[0].room)).value, level).None?)
  }

  /** The shared loop. It fails when there is no room (indexing the last
      room panics), when level 0 has no player to move, and when a table is
      empty at `level`; it succeeds otherwise. */
  method Build(slots: seq<PlannedRoom>, objs0: seq<Object>, level: nat) returns (r: Option<Built>)
    requires SlotsOk(slots, level)
    ensures |slots| > 0 && level <= 99 && (level > 0 || |objs0| > PLAYER) ==> r.Some?
    ensures r.None? <==> Fails(slots, objs0, level)
    ensures r.Some? ==> |slots| > 0 && Anchor(objs0, level, Center(slots[0].room)).Some?
    ensures r.Some? ==> LevelOk(slots, Anchor(objs0, level, Center(slots[0].room)).value, level, r.value)
  {
    if |slots| == 0 {
      return None;
    }
    var down := Center(slots[0].room);
    var anchored := Anchor(objs0, level, down);
    if anchored.None? {
      return None;
    }
    var start := anchored.value;
    var m := FirstRoom(slots, start);
    var m2, objs := LaterRooms(slots, start, m, level);
    if objs.None? {
      return None;
    }
    Finish(slots, start, level, m2, objs.value);
    var up := Center(slots[|slots| - 1].room);
    r := Some(Built(m2, objs.value + [UpStairs(up)], up, down));
  }
}

=== FILE: loot_table.dfy ===
/** Floor loot (src/loot_table.rs): a table of item templates with the
    dungeon levels they appear on, and a level-filtered weighted draw. */
module LootTable {
  import opened Options
  import opened Objects
  import opened Tables

  /** One row of the table. */
  datatype Loot = Loot(
    symbol: char, name: string, color: Color, itemType: Item, slot: Slot,
    hpBonus: int, defenseBonus: int, attackBonus: int,
    minLevel: int, maxLevel: int, weight: nat)

  /** `Loot::new`, which asserts `min_level < max_level`. */
  function NewLoot(symbol: char, name: string, color: Color, itemType: Item, slot: Slot,
                   hpBonus: int, defenseBonus: int, attackBonus: int,
                   minLevel: int, maxLevel: int, weight: nat): Loot
    requires minLevel < maxLevel
  {
    Loot(symbol, name, color, itemType, slot, hpBonus, defenseBonus, attackBonus, minLevel, maxLevel, weight)
  }

  /** An item worth equipping: its bonuses add up to something positive. */
  predicate GivesEquipment(l: Loot) {
    l.hpBonus + l.defenseBonus + l.attackBonus > 0
  }

  /** `Loot::generate`: a non-blocking item at the off-map position (-1, -1),
      carrying unworn equipment with the row's bonuses exactly when they sum
      to something positive. */
  function Generate(l: Loot): (o: Object)
    ensures o.x == -1 && o.y == -1 && !o.blocks && !o.alive
    ensures o.chr == l.symbol && o.name == l.name && o.color == l.color
    ensures o.item == Some(l.itemType) && o.fighter.None? && o.ai.None?
    ensures o.equipment.Some? <==> GivesEquipment(l)
    ensures o.equipment.Some? ==>
      o.equipment.value == Equipment(l.slot, false, l.hpBonus, l.defenseBonus, l.attackBonus)
    ensures !IsEquipped(o)
    ensures IsStackable(o) <==> !GivesEquipment(l)
  {
    var o := NewObject(-1, -1, l.symbol, l.name, l.color, false).(item := Some(l.itemType));
    if GivesEquipment(l) then
      o.(equipment := Some(Equipment(l.slot, false, l.hpBonus, l.defenseBonus, l.attackBonus)))
    else o
  }

  // The rows of `loot_table`, in order.

  // weapons
  function SwordBreaker(): Loot {
    NewLoot('/', "sword breaker", DarkBlue, Sword, Hand, 0, 2, 4, 18, 99, 10)
  }

  function LongSword(): Loot {
    NewLoot('/', "long sword", Blue, Sword, Hand, 0, 0, 5, 14, 99, 10)
  }

  function BasicSword(): Loot {
    NewLoot('/', "sword", Sky, Sword, Hand, 0, 0, 4, 7, 99, 15)
  }

  function ShortSword(): Loot {
    NewLoot('/', "short sword", LightBlue, Sword, Hand, 0, 0, 3, 4, 14, 15)
  }

  function Dagger(): Loot {
    NewLoot('-', "dagger", Sky, Sword, Hand, 0, 0, 2, -99, 4, 15)
  }

  // shields
  function Shieldwall(): Loot {
    NewLoot('[', "shieldwall", DarkerOrange, Shield, Hand, 0, 5, 0, 15, 99, 10)
  }

  function BasicShield(): Loot {
    NewLoot('[', "shield", Orange, Shield, Hand, 0, 3, 0, 11, 20, 15)
  }

  function Buckler(): Loot {
    NewLoot('[', "buckler", LightOrange, Shield, Hand, 0, 2, 0, 8, 17, 25)
  }

  // potions
  function HealingPotion(): Loot {
    NewLoot('!', "healing potion", Violet, HealPot, Head, 0, 0, 0, -99, 99, 35)
  }

  // scrolls
  function ScrollOfLightningBolt(): Loot {
    NewLoot('~', "scroll of lightning bolt", LightBlue, LightningScroll, Head, 0, 0, 0, 4, 99, 25)
  }

  function ScrollOfFireball(): Loot {
    NewLoot('~', "scroll of fireball", Red, FireballScroll, Head, 0, 0, 0, 2, 99, 25)
  }

  function ScrollOfConfusion(): Loot {
    NewLoot('~', "scroll of confusion", LightGreen, ConfuseScroll, Head, 0, 0, 0, 1, 99, 10)
  }

  function Weapons(): seq<Loot> {
    [SwordBreaker(), LongSword(), BasicSword(), ShortSword(), Dagger()]
  }

  function Shields(): seq<Loot> {
    [Shieldwall(), BasicShield(), Buckler()]
  }

  function Scrolls(): seq<Loot> {
    [ScrollOfLightningBolt(), ScrollOfFireball(), ScrollOfConfusion()]
  }

  /** `loot_table`: weapons, shields, the healing potion and scrolls. */
  function Table(): seq<Loot> {
    Weapons() + Shields() + [HealingPotion()] + Scrolls()
  }

  /** The table has twelve rows, each with a non-empty level span and a
      positive weight; the healing potion spans every level from -99 to 99. */
  lemma TableRows()
    ensures |Table()| == 12
    ensures forall i :: 0 <= i < |Table()| ==> Table()[i].minLevel < Table()[i].maxLevel && Table()[i].weight > 0
    ensures Table()[8] == HealingPotion() && HealingPotion().itemType == HealPot
    ensures HealingPotion().minLevel == -99 && HealingPotion().maxLevel == 99
  {
  }

  /** The filter of `trim_loot_by_level`. */
  function Allowed(level: int): Loot -> bool {
    (l: Loot) => InLevelRange(l.minLevel, l.maxLevel, level)
  }

  /** `trim_loot_by_level`: the rows valid at `level`, in table order. */
  function TrimByLevel(level: int): seq<Loot> {
    Filter(Table(), Allowed(level))
  }

  /** Exactly the rows valid at `level` are kept. */
  lemma TrimByLevelKeeps(level: int)
    ensures forall l :: l in TrimByLevel(level) <==> l in Table() && InLevelRange(l.minLevel, l.maxLevel, level)
  {
    FilterKeeps(Table(), Allowed(level));
  }

  /** The number of rows valid at `level`, read off the rows' level spans
      in table order. */
  function Count(level: int): nat {
    InSpan(18, 99, level) + InSpan(14, 99, level) + InSpan(7, 99, level) + InSpan(4, 14, level)
    + InSpan(-99, 4, level) + InSpan(15, 99, level) + InSpan(11, 20, level) + InSpan(8, 17, level)
    + InSpan(-99, 99, level) + InSpan(4, 99, level) + InSpan(2, 99, level) + InSpan(1, 99, level)
  }

  lemma WeaponsCount(level: int)
    ensures CountKept(Weapons(), Allowed(level))
         == InSpan(18, 99, level) + InSpan(14, 99, level) + InSpan(7, 99, level) + InSpan(4, 14, level) + InSpan(-99, 4, level)
  {
    var t := Weapons();
    var keep := Allowed(level);
    CountKeptAt(t, keep, 0); CountKeptAt(t, keep, 1); CountKeptAt(t, keep, 2); CountKeptAt(t, keep, 3); CountKeptAt(t, keep, 4);
    assert t[0..] == t && t[5..] == [];
  }

  lemma ShieldsCount(level: int)
    ensures CountKept(Shields(), Allowed(level)) == InSpan(15, 99, level) + InSpan(11, 20, level) + InSpan(8, 17, level)
  {
    var t := Shields();
    var keep := Allowed(level);
    CountKeptAt(t, keep, 0); CountKeptAt(t, keep, 1); CountKeptAt(t, keep, 2);
    assert t[0..] == t && t[3..] == [];
  }

  lemma ScrollsCount(level: int)
    ensures CountKept(Scrolls(), Allowed(level)) == InSpan(4, 99, level) + InSpan(2, 99, level) + InSpan(1, 99, level)
  {
    var t := Scrolls();
    var keep := Allowed(level);
    CountKeptAt(t, keep, 0); CountKeptAt(t, keep, 1); CountKeptAt(t, keep, 2);
    assert t[0..] == t && t[3..] == [];
  }

  /** The count is the length of the trimmed table. */
  lemma CountIsTrimmedLength(level: int)
    ensures |TrimByLevel(level)| == Count(level)
  {
    var keep := Allowed(level);
    FilterLength(Table(), keep);
    CountKeptConcat(Weapons() + Shields() + [HealingPotion()], Scrolls(), keep);
    CountKeptConcat(Weapons() + Shields(), [HealingPotion()], keep);
    CountKeptConcat(Weapons(), Shields(), keep);
    WeaponsCount(level);
    ShieldsCount(level);
    ScrollsCount(level);
    CountKeptAt([HealingPotion()], keep, 0);
    assert [HealingPotion()][1..] == [];
  }

  /** The healing potion is valid on every level from -99 to 99. */
  lemma TrimmedTableIsNonEmpty(level: int)
    requires -99 <= level <= 99
    ensures |TrimByLevel(level)| > 0
  {
    CountIsTrimmedLength(level);
  }

  /** `generate_floor_item`: a draw over the rows valid at `level`. `pick` is
      the index the weighted choice returns. The source asserts the trimmed
      table is non-empty; that failure is `None`. */
  function GenerateFloorItem(level: int, pick: nat): (r: Option<Object>)
    requires Count(level) > 0 ==> pick < Count(level)
    ensures r.None? <==> Count(level) == 0
    ensures r.Some? ==> exists l :: l in Table() && InLevelRange(l.minLevel, l.maxLevel, level) && r.value == Generate(l)
    ensures -99 <= level <= 99 ==> r.Some?
  {
    CountIsTrimmedLength(level);
    var table := TrimByLevel(level);
    if |table| == 0 then None
    else
      TrimByLevelKeeps(level);
      assert table[pick] in table;
      Some(Generate(table[pick]))
  }

  /** A generated floor item is an item that does not block and cannot fight. */
  lemma FloorItemIsItem(level: int, pick: nat)
    requires Count(level) > 0 ==> pick < Count(level)
    ensures var r := GenerateFloorItem(level, pick);
      r.Some? ==> !r.value.blocks && r.value.item.Some? && r.value.fighter.None?
  {
    var r := GenerateFloorItem(level, pick);
    if r.Some? {
      TrimByLevelKeeps(level);
      var l :| l in Table() && InLevelRange(l.minLevel, l.maxLevel, level) && r.value == Generate(l);
    }
  }
}

=== FILE: moves.dfy ===
/** Movement and the blocking rule (src/moves.rs). */
module Moves {
  import opened Options
  import opened Constants
  import opened Tiles
  import opened Objects

  datatype PlayerAction = TookTurn | DidntTakeTurn | Exit

  predicate BlocksAt(o: Object, x: int, y: int) {
    o.blocks && o.x == x && o.y == y
  }

  /** Some object in the list blocks `(x, y)`. */
  function AnyBlocksAt(objects: seq<Object>, x: int, y: int): (b: bool)
    ensures b <==> exists i :: 0 <= i < |objects| && BlocksAt(objects[i], x, y)
  {
    if |objects| == 0 then false
    else if BlocksAt(objects[0], x, y) then true
    else
      var b := AnyBlocksAt(objects[1..], x, y);
      assert b ==> exists i :: 0 <= i < |objects[1..]| && BlocksAt(objects[1..][i], x, y);
      assert (exists i :: 0 <= i < |objects| && BlocksAt(objects[i], x, y)) ==>
               exists i :: 0 <= i < |objects[1..]| && BlocksAt(objects[1..][i], x, y) by {
        if exists i :: 0 <= i < |objects| && BlocksAt(objects[i], x, y) {
          var i :| 0 <= i < |objects| && BlocksAt(objects[i], x, y);
          assert i > 0 && BlocksAt(objects[1..][i - 1], x, y);
        }
      }
      b
  }

  /** `is_blocked`: the tile blocks, or a blocking object stands there. An
      object that does not block never blocks a cell. */
  function IsBlocked(x: int, y: int, m: Map, objects: seq<Object>): (b: bool)
    requires InMap(m, x, y)
    ensures m[x][y].blocked ==> b
    ensures !m[x][y].blocked ==> (b <==> exists i :: 0 <= i < |objects| && BlocksAt(objects[i], x, y))
  {
    m[x][y].blocked || AnyBlocksAt(objects, x, y)
  }

  /** A dead NPC no longer blocks: replacing a monster by its corpse frees its
      cell unless something else blocks it. */
  lemma CorpseDoesNotBlock(m: Map, objects: seq<Object>, i: nat)
    requires i < |objects| && InMap(m, objects[i].x, objects[i].y)
    requires !m[objects[i].x][objects[i].y].blocked
    requires forall j :: 0 <= j < |objects| && j != i ==> !BlocksAt(objects[j], objects[i].x, objects[i].y)
    ensures !IsBlocked(objects[i].x, objects[i].y, m, objects[i := NpcDeath(objects[i])])
  {
    var after := objects[i := NpcDeath(objects[i])];
    forall j | 0 <= j < |after| ensures !BlocksAt(after[j], objects[i].x, objects[i].y) {
      if j != i { assert after[j] == objects[j]; }
    }
  }

  /** `move_by`: move `objects[id]` by `(dx, dy)` when the destination is not
      blocked. Returns whether it moved; only that object's position changes. */
  function MoveBy(id: nat, dx: int, dy: int, m: Map, objects: seq<Object>): (r: (bool, seq<Object>))
    requires id < |objects| && InMap(m, objects[id].x + dx, objects[id].y + dy)
    ensures r.0 <==> !IsBlocked(objects[id].x + dx, objects[id].y + dy, m, objects)
    ensures |r.1| == |objects|
    ensures forall j :: 0 <= j < |objects| && j != id ==> r.1[j] == objects[j]
    ensures r.0 ==> r.1[id] == objects[id].(x := objects[id].x + dx, y := objects[id].y + dy)
    ensures !r.0 ==> r.1 == objects
  {
    var o := objects[id];
    if !IsBlocked(o.x + dx, o.y + dy, m, objects) then (true, objects[id := SetPos(o, o.x + dx, o.y + dy)])
    else (false, objects)
  }

  /** A successful move can be undone by the opposite move, provided nothing
      else stands in the way back. */
  lemma MoveBackRestores(id: nat, dx: int, dy: int, m: Map, objects: seq<Object>)
    requires id < |objects| && InMap(m, objects[id].x + dx, objects[id].y + dy)
    requires MoveBy(id, dx, dy, m, objects).0
    requires InMap(m, objects[id].x, objects[id].y) && !m[objects[id].x][objects[id].y].blocked
    requires forall j :: 0 <= j < |objects| && j != id ==> !BlocksAt(objects[j], objects[id].x, objects[id].y)
    ensures var moved := MoveBy(id, dx, dy, m, objects).1;
      MoveBy(id, -dx, -dy, m, moved) == (true, objects)
  {
    var moved := MoveBy(id, dx, dy, m, objects).1;
    var o := objects[id];
    assert moved[id].x + -dx == o.x && moved[id].y + -dy == o.y;
    forall j | 0 <= j < |moved| ensures !BlocksAt(moved[j], o.x, o.y) {
      if j == id {
        if dx == 0 && dy == 0 {
          assert !BlocksAt(objects[id], o.x, o.y);
        }
      }
    }
    var back := MoveBy(id, -dx, -dy, m, moved);
    assert back.1 == objects;
  }

  /** `position`: the first object with a fighter standing at `(x, y)`. */
  function FindFighterAt(objects: seq<Object>, x: int, y: int): (r: Option<nat>)
    ensures r.Some? ==> r.value < |objects| && objects[r.value].fighter.Some?
                        && objects[r.value].x == x && objects[r.value].y == y
    ensures r.Some? ==> forall j :: 0 <= j < r.value ==>
                          !(objects[j].fighter.Some? && objects[j].x == x && objects[j].y == y)
    ensures r.None? ==> forall j :: 0 <= j < |objects| ==>
                          !(objects[j].fighter.Some? && objects[j].x == x && objects[j].y == y)
  {
    if |objects| == 0 then None
    else if objects[0].fighter.Some? && objects[0].x == x && objects[0].y == y then Some(0)
    else
      match FindFighterAt(objects[1..], x, y)
      case None => None
      case Some(k) => Some(k + 1)
  }

  /** The player's blow at the fighter `t`: the target takes the blow, and
      the player stays where it is and pays one karma for attacking on top of
      what the blow earned; every other object is unchanged. */
  function PlayerAttack(t: nat, objects: seq<Object>, gameLevel: int): (r: seq<Object>)
    requires PLAYER < |objects| && t < |objects| && t != PLAYER
    requires objects[PLAYER].fighter.Some? && objects[t].fighter.Some?
    ensures |r| == |objects|
    ensures var fight := MeleeAttack(objects[PLAYER], objects[t], gameLevel);
      && r[t] == fight.1
      && r[PLAYER].x == objects[PLAYER].x && r[PLAYER].y == objects[PLAYER].y
      && r[PLAYER].fighter.Some?
      && r[PLAYER].fighter.value.karma == fight.0.fighter.value.karma - 1
      && r[PLAYER].(fighter := fight.0.fighter) == fight.0
      && r[PLAYER].fighter.value.(karma := fight.0.fighter.value.karma) == fight.0.fighter.value
    ensures forall j :: 0 <= j < |objects| && j != PLAYER && j != t ==> r[j] == objects[j]
  {
    var fight := MeleeAttack(objects[PLAYER], objects[t], gameLevel);
    var attacker := fight.0.fighter.value;
    var player := fight.0.(fighter := Some(attacker.(karma := attacker.karma - 1)));
    objects[PLAYER := player][t := fight.1]
  }

  /** `player_move_or_attack`: if an object with a fighter stands on the
      target cell the player attacks it without moving, pays one karma for
      trying, and the turn is taken. Otherwise the player tries to move, and
      the turn is taken exactly when the move succeeds. `(dx, dy)` must not be
      `(0, 0)`: the player would find itself as the target, and `mut_two`
      refuses to borrow one object twice. */
  function PlayerMoveOrAttack(dx: int, dy: int, m: Map, objects: seq<Object>, gameLevel: int): (r: (PlayerAction, seq<Object>))
    requires PLAYER < |objects| && objects[PLAYER].fighter.Some?
    requires dx != 0 || dy != 0
    requires FindFighterAt(objects, objects[PLAYER].x + dx, objects[PLAYER].y + dy).None? ==>
               InMap(m, objects[PLAYER].x + dx, objects[PLAYER].y + dy)
    ensures r.0 != Exit && |r.1| == |objects|
    ensures var x := objects[PLAYER].x + dx;
      var y := objects[PLAYER].y + dy;
      var target := FindFighterAt(objects, x, y);
      && (target.Some? ==>
            var fight := MeleeAttack(objects[PLAYER], objects[target.value], gameLevel);
            && target.value != PLAYER
            && r.0 == TookTurn
            && r.1[target.value] == fight.1
            && r.1[PLAYER].x == objects[PLAYER].x && r.1[PLAYER].y == objects[PLAYER].y
            && r.1[PLAYER].fighter.Some?
            && r.1[PLAYER].fighter.value.karma == fight.0.fighter.value.karma - 1
            && r.1[PLAYER].(fighter := fight.0.fighter) == fight.0
            && r.1[PLAYER].fighter.value.(karma := fight.0.fighter.value.karma) == fight.0.fighter.value
            && (forall j :: 0 <= j < |objects| && j != PLAYER && j != target.value ==> r.1[j] == objects[j]))
      && (target.None? ==>
            (r.0 == TookTurn <==> !IsBlocked(x, y, m, objects))
            && r.1 == MoveBy(PLAYER, dx, dy, m, objects).1)
  {
    var x := objects[PLAYER].x + dx;
    var y := objects[PLAYER].y + dy;
    match FindFighterAt(objects, x, y)
    case Some(t) => (TookTurn, PlayerAttack(t, objects, gameLevel))
    case None =>
      var moved := MoveBy(PLAYER, dx, dy, m, objects);
      (if moved.0 then TookTurn else DidntTakeTurn, moved.1)
  }
}

=== FILE: npc_table.dfy ===
/** Monsters (src/npc_table.rs): a table of NPC templates with the dungeon
    levels they appear on, and a level-filtered weighted draw. */
module NpcTable {
  import opened Options
  import opened Objects
  import opened Tables

  /** One row of the table (the source's `NPC`). */
  datatype NPC = NPC(
    symbol: char, name: string, color: Color, ai: Ai,
    maxHp: int, defense: int, attack: int, xp: int, startHp: int,
    minLevel: int, maxLevel: int, weight: nat)

  /** `NPC::new`, which asserts `min_level < max_level`. */
  function NewNPC(symbol: char, name: string, color: Color, ai: Ai,
                  maxHp: int, defense: int, attack: int, xp: int, startHp: int,
                  minLevel: int, maxLevel: int, weight: nat): NPC
    requires minLevel < maxLevel
  {
    NPC(symbol, name, color, ai, maxHp, defense, attack, xp, startHp, minLevel, maxLevel, weight)
  }

  /** `NPC::generate`: a living, blocking monster at the off-map position
      (-1, -1), with the row's AI and an NPC fighter whose maximum health is
      the row's and whose current health is the row's starting health. */
  function Generate(row: NPC): (o: Object)
    requires IsI32(row.maxHp)
    ensures o.x == -1 && o.y == -1 && o.blocks && o.alive
    ensures o.chr == row.symbol && o.name == row.name && o.color == row.color
    ensures o.ai == Some(row.ai) && o.item.None? && o.equipment.None?
    ensures o.fighter.Some?
    ensures var f := o.fighter.value;
      && f.hp == row.startHp && MaxHp(f) == row.maxHp
      && f.baseDefense == row.defense && f.basePower == row.attack && f.xp == row.xp
      && f.onDeath == Npc && f.inventory == [] && f.karma == -1000
  {
    var fighter := NewFighter(row.maxHp, row.defense, row.attack, row.xp, true).(hp := row.startHp);
    NewObject(-1, -1, row.symbol, row.name, row.color, true).(ai := Some(row.ai), fighter := Some(fighter), alive := true)
  }

  function Orc(): NPC {
    NewNPC('O', "orc", DesaturatedGreen, Basic, 20, 0, 4, 35, 20, -99, 99, 100)
  }

  function Troll(): NPC {
    NewNPC('T', "troll", DarkerGreen, Basic, 60, 2, 8, 100, 30, 1, 99, 50)
  }

  /** `npc_table`: orcs on every level from -99 to 99, trolls from level 1. */
  function Table(): seq<NPC> {
    [Orc(), Troll()]
  }

  /** Every row has a non-empty level span, a positive weight and a maximum
      health that fits an `i32`; the orc spans levels -99 to 99 and every
      other row starts at level 1 or later. */
  lemma TableRows()
    ensures forall i :: 0 <= i < |Table()| ==> Table()[i].minLevel < Table()[i].maxLevel && Table()[i].weight > 0 && IsI32(Table()[i].maxHp)
    ensures Orc() in Table() && Orc().minLevel == -99 && Orc().maxLevel == 99
    ensures forall row :: row in Table() && row != Orc() ==> row.minLevel >= 1
  {
  }

  /** The filter of `trim_npcs_by_level`. */
  function Allowed(level: int): NPC -> bool {
    (row: NPC) => InLevelRange(row.minLevel, row.maxLevel, level)
  }

  /** `trim_npcs_by_level`: the rows valid at `level`, in table order. */
  function TrimByLevel(level: int): seq<NPC> {
    Filter(Table(), Allowed(level))
  }

  /** Exactly the rows valid at `level` are kept. */
  lemma TrimByLevelKeeps(level: int)
    ensures forall row :: row in TrimByLevel(level) <==> row in Table() && InLevelRange(row.minLevel, row.maxLevel, level)
  {
    FilterKeeps(Table(), Allowed(level));
  }

  /** The number of rows valid at `level`, read off the rows' level spans:
      the orc's -99 to 99 and the troll's 1 to 99. */
  function Count(level: int): nat {
    InSpan(-99, 99, level) + InSpan(1, 99, level)
  }

  /** The count is the length of the trimmed table. */
  lemma CountIsTrimmedLength(level: int)
    ensures |TrimByLevel(level)| == Count(level)
  {
    var t := Table();
    FilterLength(t, Allowed(level));
    assert t[1..][1..] == [];
  }

  /** `generate_npc`: a draw over the rows valid at `level`. `pick` is the
      index the weighted choice returns. The source asserts the trimmed table
      is non-empty; that failure is `None`. */
  function GenerateNpc(level: int, pick: nat): (r: Option<Object>)
    requires Count(level) > 0 ==> pick < Count(level)
    ensures r.None? <==> Count(level) == 0
    ensures r.Some? ==> exists row :: row in Table() && InLevelRange(row.minLevel, row.maxLevel, level) && r.value == Generate(row)
    ensures r.Some? ==> r.value.blocks && r.value.alive && r.value.fighter.Some? && r.value.item.None?
  {
    CountIsTrimmedLength(level);
    var table := TrimByLevel(level);
    if |table| == 0 then None
    else
      TrimByLevelKeeps(level);
      TableRows();
      assert table[pick] in table;
      Some(Generate(table[pick]))
  }

  /** The orc row keeps every level from -99 to 99 populated, so
      `generate_npc` does not panic there. */
  lemma TrimmedTableIsNonEmpty(level: int)
    requires -99 <= level <= 99
    ensures |TrimByLevel(level)| > 0
  {
    CountIsTrimmedLength(level);
  }

  /** On the first level (and below) only orcs can be generated. */
  lemma OnlyOrcsBelowLevelOne(level: int, pick: nat)
    requires -99 <= level < 1
    requires pick < Count(level)
    ensures GenerateNpc(level, pick) == Some(Generate(Orc()))
  {
    var r := GenerateNpc(level, pick);
    TableRows();
    var row :| row in Table() && InLevelRange(row.minLevel, row.maxLevel, level) && r.value == Generate(row);
    assert row == Orc();
  }
}

=== FILE: objects.dfy ===
/** The game's entities (src/objects.rs): items, equipment, fighters and the
    generic object, with the stat, damage, death and equip rules. Messages and
    rendering are not modelled. */
module Objects {
  import opened Options

  datatype Item = HealPot | LightningScroll | ConfuseScroll | FireballScroll | Sword | Shield

  datatype Slot = Chest | Head | Hand | Ring

  datatype UseResult = UsedUp | UsedAndKept | Cancelled

  /** The named colours the modelled code uses. */
  datatype Color =
    | White | DarkRed | Red | DarkBlue | Blue | Sky | LightBlue
    | DarkerOrange | Orange | LightOrange | Violet | LightGreen
    | DesaturatedGreen | DarkerGreen

  /** Something that can be worn, and the bonuses it gives while worn. */
  datatype Equipment = Equipment(slot: Slot, equipped: bool, maxHpBonus: int, defenseBonus: int, powerBonus: int)

  /** An NPC's behaviour; a confused one remembers what it was before. */
  datatype Ai = Basic | Confused(previousAi: Ai, numTurns: int)

  datatype DeathCallback = Player | Npc

  /** Combat state. `baseMaxHp` is the `u32` the source stores. */
  datatype Fighter = Fighter(
    hp: int, baseMaxHp: nat, baseDefense: int, basePower: int,
    xp: int, karma: int, onDeath: DeathCallback, inventory: seq<Object>)

  /** The player, an NPC, an item, the stairs... */
  datatype Object = Object(
    x: int, y: int, chr: char, color: Color, name: string,
    blocks: bool, alive: bool,
    fighter: Option<Fighter>, ai: Option<Ai>, item: Option<Item>, equipment: Option<Equipment>,
    alwaysVisible: bool, level: int, charges: int)

  /** How many items of a slot may be worn at once. */
  function NumInSlot(slot: Slot): (r: Option<nat>)
    ensures r.Some? && 1 <= r.value
    ensures r.value == 1 <==> slot == Chest || slot == Head
    ensures slot == Hand ==> r.value == 2
    ensures slot == Ring ==> r.value == 8
  {
    match slot
    case Chest => Some(1)
    case Head => Some(1)
    case Hand => Some(2)
    case Ring => Some(8)
  }

  /** `Object::new`: a dead, bare object of level 1 with one charge. */
  function NewObject(x: int, y: int, chr: char, name: string, color: Color, blocks: bool): Object {
    Object(x, y, chr, color, name, blocks, false, None, None, None, None, false, 1, 1)
  }

  function SetPos(o: Object, x: int, y: int): Object {
    o.(x := x, y := y)
  }

  /** Items without equipment stack. */
  predicate IsStackable(o: Object) {
    o.item.Some? && o.equipment.None?
  }

  // ---- Integer casts ----

  const TWO_31: int := 0x8000_0000
  const TWO_32: int := 0x1_0000_0000

  predicate IsI32(v: int) {
    -TWO_31 <= v < TWO_31
  }

  /** `v as u32` for an `i32`: negative values wrap around. */
  function AsU32(v: int): (u: nat)
    requires IsI32(v)
    ensures u < TWO_32
    ensures v >= 0 ==> u == v
  {
    if v < 0 then v + TWO_32 else v
  }

  /** `u as i32` for a `u32`: values of 2^31 and above wrap around. */
  function AsI32(u: nat): (v: int)
    requires u < TWO_32
    ensures IsI32(v)
    ensures u < TWO_31 ==> v == u
  {
    if u >= TWO_31 then u - TWO_32 else u
  }

  /** Storing an `i32` in a `u32` and reading it back gives the original. */
  lemma CastRoundTrip(v: int)
    requires IsI32(v)
    ensures AsI32(AsU32(v)) == v
  {
  }

  // ---- Fighters ----

  /** `Fighter::new`: full health, karma -1000, nothing carried, and the death
      callback of an NPC exactly when `isNpc`. */
  function NewFighter(hp: int, baseDefense: int, basePower: int, xp: int, isNpc: bool): (f: Fighter)
    requires IsI32(hp)
    ensures f.hp == hp && f.baseDefense == baseDefense && f.basePower == basePower && f.xp == xp
    ensures f.karma == -1000 && f.inventory == []
    ensures f.onDeath == Npc <==> isNpc
    ensures MaxHp(f) == hp
  {
    CastRoundTrip(hp);
    Fighter(hp, AsU32(hp), baseDefense, basePower, xp, -1000, if isNpc then Npc else Player, [])
  }

  /** Which bonus a stat sums. */
  datatype Stat = MaxHpStat | DefenseStat | PowerStat

  function Bonus(e: Equipment, stat: Stat): int {
    match stat
    case MaxHpStat => e.maxHpBonus
    case DefenseStat => e.defenseBonus
    case PowerStat => e.powerBonus
  }

  predicate IsEquipped(o: Object) {
    o.equipment.Some? && o.equipment.value.equipped
  }

  /** `get_all_equipped`: the equipment of the worn inventory items, in order. */
  function GetAllEquipped(inventory: seq<Object>): (r: seq<Equipment>)
    ensures |r| <= |inventory|
    ensures forall i :: 0 <= i < |r| ==> r[i].equipped
    ensures (forall i :: 0 <= i < |inventory| ==> !IsEquipped(inventory[i])) <==> r == []
  {
    if |inventory| == 0 then []
    else
      var rest := GetAllEquipped(inventory[1..]);
      if IsEquipped(inventory[0]) then [inventory[0].equipment.value] + rest
      else
        assert forall i :: 1 <= i < |inventory| ==> inventory[i] == inventory[1..][i - 1];
        rest
  }

  /** `get_all_equipped` goes item by item: the equipment worn in two
      inventories laid end to end is that of the first followed by that of
      the second. */
  lemma {:induction false} GetAllEquippedConcat(a: seq<Object>, b: seq<Object>)
    ensures GetAllEquipped(a + b) == GetAllEquipped(a) + GetAllEquipped(b)
    decreases |a|
  {
    if |a| == 0 {
      assert a + b == b;
    } else {
      assert (a + b)[1..] == a[1..] + b;
      GetAllEquippedConcat(a[1..], b);
    }
  }

  /** One more item adds its equipment exactly when it is worn. */
  lemma GetAllEquippedPush(a: seq<Object>, o: Object)
    ensures GetAllEquipped(a + [o]) == GetAllEquipped(a) + (if IsEquipped(o) then [o.equipment.value] else [])
  {
    GetAllEquippedConcat(a, [o]);
    assert [o][1..] == [];
  }

  function SumBonus(es: seq<Equipment>, stat: Stat): int {
    if |es| == 0 then 0 else Bonus(es[0], stat) + SumBonus(es[1..], stat)
  }

  function Power(f: Fighter): int {
    f.basePower + SumBonus(GetAllEquipped(f.inventory), PowerStat)
  }

  function Defense(f: Fighter): int {
    f.baseDefense + SumBonus(GetAllEquipped(f.inventory), DefenseStat)
  }

  /** The source reads the `u32` base back as an `i32`. */
  function MaxHp(f: Fighter): int {
    (if f.baseMaxHp < TWO_32 then AsI32(f.baseMaxHp) else f.baseMaxHp)
      + SumBonus(GetAllEquipped(f.inventory), MaxHpStat)
  }

  /** What one carried object adds to a stat: its bonus if worn, else 0. */
  function ItemBonus(o: Object, stat: Stat): int {
    if IsEquipped(o) then Bonus(o.equipment.value, stat) else 0
  }

  /** Reference definition: the sum of `ItemBonus` over the whole inventory. */
  function InventoryBonus(inventory: seq<Object>, stat: Stat): int {
    if |inventory| == 0 then 0 else ItemBonus(inventory[0], stat) + InventoryBonus(inventory[1..], stat)
  }

  /** Summing the bonuses of `get_all_equipped` is summing each carried item's
      contribution, where unworn items contribute nothing. */
  lemma {:induction false} EquippedBonusIsInventoryBonus(inventory: seq<Object>, stat: Stat)
    ensures SumBonus(GetAllEquipped(inventory), stat) == InventoryBonus(inventory, stat)
    decreases |inventory|
  {
    if |inventory| > 0 {
      EquippedBonusIsInventoryBonus(inventory[1..], stat);
    }
  }

  lemma {:induction false} InventoryBonusAppend(inventory: seq<Object>, o: Object, stat: Stat)
    ensures InventoryBonus(inventory + [o], stat) == InventoryBonus(inventory, stat) + ItemBonus(o, stat)
    decreases |inventory|
  {
    if |inventory| > 0 {
      assert (inventory + [o])[1..] == inventory[1..] + [o];
      InventoryBonusAppend(inventory[1..], o, stat);
    }
  }

  /** Picking up an object changes power, defense and maximum health by its
      bonuses if it is worn, and not at all otherwise. */
  lemma CarryingAddsBonus(f: Fighter, o: Object)
    ensures var g := f.(inventory := f.inventory + [o]);
      && Power(g) == Power(f) + ItemBonus(o, PowerStat)
      && Defense(g) == Defense(f) + ItemBonus(o, DefenseStat)
      && MaxHp(g) == MaxHp(f) + ItemBonus(o, MaxHpStat)
  {
    var g := f.(inventory := f.inventory + [o]);
    forall stat: Stat ensures SumBonus(GetAllEquipped(g.inventory), stat)
                            == SumBonus(GetAllEquipped(f.inventory), stat) + ItemBonus(o, stat) {
      EquippedBonusIsInventoryBonus(g.inventory, stat);
      EquippedBonusIsInventoryBonus(f.inventory, stat);
      InventoryBonusAppend(f.inventory, o, stat);
    }
  }

  /** `heal`: add `amount`, capped at the maximum; nothing else changes. */
  function Heal(f: Fighter, amount: int): (r: Fighter)
    ensures r.(hp := f.hp) == f
    ensures r.hp <= MaxHp(f) && r.hp <= f.hp + amount
    ensures r.hp == f.hp + amount || r.hp == MaxHp(f)
  {
    var hp := f.hp + amount;
    f.(hp := if hp > MaxHp(f) then MaxHp(f) else hp)
  }

  /** Healing a fighter that is not above its maximum never lowers its health,
      and healing twice by non-negative amounts is healing once by their sum. */
  lemma HealMonotone(f: Fighter, a: int, b: int)
    requires f.hp <= MaxHp(f) && 0 <= a && 0 <= b
    ensures f.hp <= Heal(f, a).hp
    ensures Heal(Heal(f, a), b) == Heal(f, a + b)
  {
  }

  /** Karma lost for a kill: the victim's xp times one more than the level. */
  function KillKarma(xp: int, gameLevel: int): (k: int)
    ensures xp >= 0 && gameLevel >= 0 ==> k <= 0
    ensures gameLevel >= 0 ==> (k == 0 <==> xp == 0)
    ensures gameLevel >= 0 && xp > 0 ==> k <= -xp
  {
    -xp * (gameLevel + 1)
  }

  /** `kill_rewards`: gain the xp, pay the karma; nothing else changes. */
  function KillRewards(f: Fighter, xp: int, gameLevel: int): (r: Fighter)
    ensures r.(xp := f.xp, karma := f.karma) == f
    ensures r.xp == f.xp + xp
    ensures r.karma - f.karma == KillKarma(xp, gameLevel)
  {
    f.(xp := f.xp + xp, karma := f.karma + KillKarma(xp, gameLevel))
  }

  // ---- Death ----

  /** `player_death`: a corpse glyph, but still a fighter. */
  function PlayerDeath(o: Object): (r: Object)
    ensures !r.alive && r.chr == '%' && r.color == DarkRed
    ensures r.(alive := o.alive, chr := o.chr, color := o.color) == o
  {
    o.(alive := false, chr := '%', color := DarkRed)
  }

  /** `npc_death`: the NPC becomes a non-blocking corpse without fighter or AI,
      renamed "remains of ...". */
  function NpcDeath(o: Object): (r: Object)
    ensures !r.alive && !r.blocks && r.fighter.None? && r.ai.None?
    ensures r.chr == '%' && r.color == DarkRed
    ensures r.name == "remains of " + o.name
    ensures r.x == o.x && r.y == o.y && r.item == o.item && r.equipment == o.equipment
    ensures r.(alive := o.alive, blocks := o.blocks, fighter := o.fighter, ai := o.ai,
               chr := o.chr, color := o.color, name := o.name) == o
  {
    o.(alive := false, chr := '%', color := DarkRed, blocks := false,
       fighter := None, ai := None, name := "remains of " + o.name)
  }

  function RunDeathCallback(cb: DeathCallback, o: Object): Object {
    match cb
    case Player => PlayerDeath(o)
    case Npc => NpcDeath(o)
  }

  /** `take_damage`: positive damage lowers the fighter's health; if health
      is then at most 0 the death callback runs and the fighter's xp is
      returned, otherwise 0 is. An object without a fighter is untouched. */
  function TakeDamage(o: Object, damage: int): (r: (int, Object))
    ensures o.fighter.None? ==> r == (0, o)
    ensures o.fighter.Some? ==>
      var f := o.fighter.value;
      var hp := if damage > 0 then f.hp - damage else f.hp;
      var hurt := o.(fighter := Some(f.(hp := hp)));
      && (hp > 0 ==> r == (0, hurt))
      && (hp <= 0 ==> r.0 == f.xp && !r.1.alive && r.1.chr == '%')
      && (hp <= 0 && f.onDeath == Npc ==> r.1 == NpcDeath(o))
      && (hp <= 0 && f.onDeath == Player ==> r.1 == PlayerDeath(hurt))
  {
    var hurt := if o.fighter.Some? && damage > 0
                then o.(fighter := Some(o.fighter.value.(hp := o.fighter.value.hp - damage)))
                else o;
    if hurt.fighter.Some? && hurt.fighter.value.hp <= 0 then
      (hurt.fighter.value.xp, RunDeathCallback(hurt.fighter.value.onDeath, hurt))
    else (0, hurt)
  }

  /** The integer part of a square root: what `(d as f64).sqrt() as i32` gives. */
  function ISqrt(n: nat): (r: nat)
    ensures r * r <= n < (r + 1) * (r + 1)
  {
    if n == 0 then 0
    else
      var s := ISqrt(n - 1);
      if (s + 1) * (s + 1) <= n then s + 1 else s
  }

  /** `melee_attack`: damage is the attacker's power minus the target's
      defense. If positive, the attacker loses the square root of the damage
      in karma, the target takes the damage, and a kill that yields xp is
      rewarded. Otherwise neither side changes. */
  function MeleeAttack(attacker: Object, target: Object, gameLevel: int): (r: (Object, Object))
    requires attacker.fighter.Some? && target.fighter.Some?
    ensures var damage := Power(attacker.fighter.value) - Defense(target.fighter.value);
      && (damage <= 0 ==> r == (attacker, target))
      && (damage > 0 ==>
            var taken := TakeDamage(target, damage);
            var a := attacker.fighter.value;
            && r.1 == taken.1
            && r.0.fighter.Some?
            && r.0.(fighter := attacker.fighter) == attacker
            && r.0.fighter.value.(karma := a.karma, xp := a.xp) == a
            && r.0.fighter.value.karma == a.karma - ISqrt(damage)
                 + (if taken.0 > 0 then KillKarma(taken.0, gameLevel) else 0)
            && r.0.fighter.value.xp == a.xp + (if taken.0 > 0 then taken.0 else 0))
  {
    var damage := Power(attacker.fighter.value) - Defense(target.fighter.value);
    if damage > 0 then
      var a := attacker.fighter.value;
      var penalised := a.(karma := a.karma - ISqrt(damage));
      var taken := TakeDamage(target, damage);
      var rewarded := if taken.0 > 0 then KillRewards(penalised, taken.0, gameLevel) else penalised;
      (attacker.(fighter := Some(rewarded)), taken.1)
    else (attacker, target)
  }

  /** Fighting never improves the attacker's karma, as long as levels and xp
      are not negative. */
  lemma AttackNeverRaisesKarma(attacker: Object, target: Object, gameLevel: int)
    requires attacker.fighter.Some? && target.fighter.Some?
    requires gameLevel >= 0 && target.fighter.value.xp >= 0
    ensures MeleeAttack(attacker, target, gameLevel).0.fighter.value.karma <= attacker.fighter.value.karma
  {
  }

  // ---- Equipping ----

  /** `equip`: an item with equipment becomes worn; anything else is left as
      it is. */
  function Equip(o: Object): (r: Object)
    ensures o.item.Some? && o.equipment.Some? ==>
      r.equipment.Some? && r.equipment.value.equipped &&
      r.equipment.value.(equipped := o.equipment.value.equipped) == o.equipment.value &&
      r.(equipment := o.equipment) == o
    ensures o.item.None? || o.equipment.None? ==> r == o
  {
    if o.item.Some? && o.equipment.Some? then o.(equipment := Some(o.equipment.value.(equipped := true)))
    else o
  }

  /** `dequip`: the mirror image of `equip`. */
  function Dequip(o: Object): (r: Object)
    ensures o.item.Some? && o.equipment.Some? ==>
      r.equipment.Some? && !r.equipment.value.equipped &&
      r.equipment.value.(equipped := o.equipment.value.equipped) == o.equipment.value &&
      r.(equipment := o.equipment) == o
    ensures o.item.None? || o.equipment.None? ==> r == o
  {
    if o.item.Some? && o.equipment.Some? then o.(equipment := Some(o.equipment.value.(equipped := false)))
    else o
  }

  /** Equipping an unworn item and taking it off again restores it, and
      equipping is idempotent. */
  lemma EquipDequipRoundTrip(o: Object)
    requires !IsEquipped(o)
    ensures Dequip(Equip(o)) == o
    ensures Equip(Equip(o)) == Equip(o)
  {
  }
}

=== FILE: options.dfy ===
/** A failure-compatible optional value. `None` stands for a Rust panic that the
    modelled code would raise (an `assert!` that fails), so that callers can
    propagate it with `:-`. */
module Options {

  datatype Option<+T> = None | Some(value: T) {

    predicate IsFailure() {
      None?
    }

    function PropagateFailure<U>(): Option<U>
      requires None?
    {
      None
    }

    function Extract(): T
      requires Some?
    {
      value
    }
  }
}

=== FILE: partition.dfy ===
/** The purely spatial part of binary space partitioning: `split_single_cell`
    and `binary_space_partition` of src/map_algos/bsp_mod.rs, which
    libtcod/src/map_algos/bsp.rs repeats with a different minimum size and
    without the random carry-over. `min` is the generator's `ROOM_MIN_SIZE`;
    `skipping` selects the modified variant. A cell's corners are inclusive. */
module Partition {
  import opened Rects

  /** The dummy second half returned when a cell is not split. */
  const NO_CELL: Rect := Rect(-1, -1, -1, -1)

  /** Too small to split: both extents are at most twice the minimum. */
  predicate Terminal(min: int, c: Rect) {
    c.x2 - c.x1 <= 2 * min && c.y2 - c.y1 <= 2 * min
  }

  /** Both extents are at least `min - 1`: every cell the partition makes has
      room for a room of the minimum size. */
  predicate Fits(min: int, c: Rect) {
    c.x2 - c.x1 >= min - 1 && c.y2 - c.y1 >= min - 1
  }

  /** Neither size rule forces the axis, so a coin is drawn. */
  predicate CoinDrawn(min: int, c: Rect) {
    var w := c.x2 - c.x1;
    var h := c.y2 - c.y1;
    w > 2 * min && h <= 3 * w && h > 2 * min && w <= 3 * h
  }

  /** Axis choice: split horizontally when the cell is narrow or more than three
      times as tall as wide, vertically when it is flat or more than three
      times as wide as tall, and otherwise by the coin (1 means horizontal).
      The source compares `h as f32 / w as f32 > 3.0`; in that branch `w` is
      positive, so the comparison is `h > 3 * w` on integers. */
  predicate SplitsVertically(min: int, c: Rect, coin: int) {
    var w := c.x2 - c.x1;
    var h := c.y2 - c.y1;
    if w <= 2 * min || h > 3 * w then false
    else if h <= 2 * min || w > 3 * h then true
    else coin != 1
  }

  /** Where the cut may go: at least `min` from the low side and from the high
      side of the chosen axis. The range is never empty. */
  function SplitRange(min: int, c: Rect, coin: int): (r: (int, int))
    requires min > 0 && !Terminal(min, c)
    ensures r.0 <= r.1
    ensures SplitsVertically(min, c, coin) ==> c.x1 + min == r.0 && r.1 == c.x2 - min
    ensures !SplitsVertically(min, c, coin) ==> c.y1 + min == r.0 && r.1 == c.y2 - min
  {
    if SplitsVertically(min, c, coin) then (c.x1 + min, c.x2 - min) else (c.y1 + min, c.y2 - min)
  }

  /** The draws `gen_range(0, 2)` (coin) and `gen_range(lo, hi + 1)` (cut) of
      one split, constrained to their ranges when they are drawn at all. */
  predicate SplitDrawOk(min: int, c: Rect, coin: int, at: int)
    requires min > 0
  {
    Terminal(min, c) ||
    ((CoinDrawn(min, c) ==> 0 <= coin < 2) &&
     SplitRange(min, c, coin).0 <= at <= SplitRange(min, c, coin).1)
  }

  /** `a` and `b` are disjoint, non-empty, inside `c`, and together hold every
      cell of `c`. */
  ghost predicate Halves(c: Rect, a: Rect, b: Rect) {
    && NonEmpty(a) && NonEmpty(b)
    && Within(a, c) && Within(b, c)
    && Disjoint(a, b)
    && forall x, y :: Inside(c, x, y) <==> Inside(a, x, y) || Inside(b, x, y)
  }

  /** `split_single_cell`: a terminal cell comes back unchanged with the dummy
      second half; any other cell is cut at `at` into two halves that tile it,
      each keeping at least `min - 1` of extent. */
  function SplitSingleCell(min: int, c: Rect, coin: int, at: int): (r: (Rect, Rect))
    requires min > 0 && SplitDrawOk(min, c, coin, at)
    ensures Terminal(min, c) <==> r.0 == c && r.1 == NO_CELL
    ensures !Terminal(min, c) && NonEmpty(c) ==> Halves(c, r.0, r.1)
    ensures !Terminal(min, c) && Fits(min, c) ==> Fits(min, r.0) && Fits(min, r.1)
    ensures !Terminal(min, c) && SplitsVertically(min, c, coin) ==>
              r.0 == Rect(c.x1, c.y1, at, c.y2) && r.1 == Rect(at + 1, c.y1, c.x2, c.y2)
    ensures !Terminal(min, c) && !SplitsVertically(min, c, coin) ==>
              r.0 == Rect(c.x1, c.y1, c.x2, at) && r.1 == Rect(c.x1, at + 1, c.x2, c.y2)
  {
    if Terminal(min, c) then (Corners(c.x1, c.y1, c.x2, c.y2), NO_CELL)
    else if SplitsVertically(min, c, coin) then
      (Corners(c.x1, c.y1, at, c.y2), Corners(at + 1, c.y1, c.x2, c.y2))
    else
      (Corners(c.x1, c.y1, c.x2, at), Corners(c.x1, at + 1, c.x2, c.y2))
  }

  /** The draws made for one cell in one round: the carry-over draw
      `gen_range(0, 21)`, the axis coin and the cut. */
  datatype CellDraw = CellDraw(skip: int, coin: int, at: int)

  /** The cell is carried over unsplit: only in the modified variant, only from
      the third round on (`iter > 1`), and only when the draw is 0. */
  predicate Skipped(skipping: bool, iter: int, d: CellDraw) {
    skipping && iter > 1 && d.skip == 0
  }

  predicate DrawOk(min: int, skipping: bool, iter: int, c: Rect, d: CellDraw)
    requires min > 0
  {
    (skipping && iter > 1 ==> 0 <= d.skip < 21) &&
    (Skipped(skipping, iter, d) || SplitDrawOk(min, c, d.coin, d.at))
  }

  /** What one cell contributes to the next round's list. The second half is
      kept only when its `x0` is not negative, which drops the dummy. */
  function Step(min: int, skipping: bool, iter: int, c: Rect, d: CellDraw): seq<Rect>
    requires min > 0 && DrawOk(min, skipping, iter, c, d)
  {
    if Skipped(skipping, iter, d) then [c]
    else
      var halves := SplitSingleCell(min, c, d.coin, d.at);
      if halves.1.x1 >= 0 then [halves.0, halves.1] else [halves.0]
  }

  predicate RoundDrawsOk(min: int, skipping: bool, iter: int, cells: seq<Rect>, ds: seq<CellDraw>)
    requires min > 0
  {
    |ds| == |cells| && forall i :: 0 <= i < |cells| ==> DrawOk(min, skipping, iter, cells[i], ds[i])
  }

  /** One pass of the outer loop: the concatenation of every cell's step. */
  function Round(min: int, skipping: bool, iter: int, cells: seq<Rect>, ds: seq<CellDraw>): seq<Rect>
    requires min > 0 && RoundDrawsOk(min, skipping, iter, cells, ds)
    decreases |cells|
  {
    if |cells| == 0 then []
    else Step(min, skipping, iter, cells[0], ds[0]) + Round(min, skipping, iter, cells[1..], ds[1..])
  }

  /** `draws[k]` holds one draw per cell of round `iter + k`, each in range. */
  predicate ValidDraws(min: int, skipping: bool, cells: seq<Rect>, iter: int, draws: seq<seq<CellDraw>>)
    requires min > 0
    decreases |draws|
  {
    |draws| == 0 ||
    (RoundDrawsOk(min, skipping, iter, cells, draws[0]) &&
     ValidDraws(min, skipping, Round(min, skipping, iter, cells, draws[0]), iter + 1, draws[1..]))
  }

  function Pow2(n: nat): (p: nat)
    ensures p >= 1
  {
    if n == 0 then 1 else 2 * Pow2(n - 1)
  }

  /** Some cell of the list holds `(x, y)`. */
  ghost predicate Covers(cells: seq<Rect>, x: int, y: int) {
    exists i :: 0 <= i < |cells| && Inside(cells[i], x, y)
  }

  ghost predicate PairwiseDisjoint(cells: seq<Rect>) {
    forall i, j :: 0 <= i < j < |cells| ==> Disjoint(cells[i], cells[j])
  }

  /** Every cell is big enough and has a non-negative `x0`, so the dummy check
      never drops a real half. */
  ghost predicate AllFit(min: int, cells: seq<Rect>) {
    forall i :: 0 <= i < |cells| ==> Fits(min, cells[i]) && 0 <= cells[i].x1
  }

  /** The list exactly tiles `seed`: its cells are non-empty, inside the seed,
      pairwise disjoint, and together hold every cell of the seed. */
  ghost predicate Tiles(cells: seq<Rect>, seed: Rect) {
    && (forall i :: 0 <= i < |cells| ==> NonEmpty(cells[i]) && Within(cells[i], seed))
    && PairwiseDisjoint(cells)
    && forall x, y :: Inside(seed, x, y) <==> Covers(cells, x, y)
  }

  lemma CoversConcat(a: seq<Rect>, b: seq<Rect>, x: int, y: int)
    ensures Covers(a + b, x, y) <==> Covers(a, x, y) || Covers(b, x, y)
  {
    if Covers(a + b, x, y) {
      var i :| 0 <= i < |a + b| && Inside((a + b)[i], x, y);
      if i >= |a| {
        assert Inside(b[i - |a|], x, y);
      }
    }
    if Covers(b, x, y) {
      var i :| 0 <= i < |b| && Inside(b[i], x, y);
      assert Inside((a + b)[|a| + i], x, y);
    }
    if Covers(a, x, y) {
      var i :| 0 <= i < |a| && Inside(a[i], x, y);
      assert Inside((a + b)[i], x, y);
    }
  }

  lemma PairwiseDisjointConcat(a: seq<Rect>, b: seq<Rect>)
    requires PairwiseDisjoint(a) && PairwiseDisjoint(b)
    requires forall i, j :: 0 <= i < |a| && 0 <= j < |b| ==> Disjoint(a[i], b[j])
    ensures PairwiseDisjoint(a + b)
  {
    forall i, j | 0 <= i < j < |a + b| ensures Disjoint((a + b)[i], (a + b)[j]) {
      if j < |a| {
      } else if i >= |a| {
        assert Disjoint(b[i - |a|], b[j - |a|]);
      } else {
        assert Disjoint(a[i], b[j - |a|]);
      }
    }
  }

  /** One cell's step: one or two good cells that tile it. */
  lemma StepTilesCell(min: int, skipping: bool, iter: int, c: Rect, d: CellDraw)
    requires min > 0 && DrawOk(min, skipping, iter, c, d)
    requires Fits(min, c) && 0 <= c.x1
    ensures var s := Step(min, skipping, iter, c, d);
      && 1 <= |s| <= 2
      && AllFit(min, s)
      && (forall i :: 0 <= i < |s| ==> NonEmpty(s[i]) && Within(s[i], c))
      && PairwiseDisjoint(s)
      && forall x, y :: Covers(s, x, y) <==> Inside(c, x, y)
  {
    var s := Step(min, skipping, iter, c, d);
    if Skipped(skipping, iter, d) {
      assert s == [c];
      forall x, y ensures Covers(s, x, y) <==> Inside(c, x, y) {
        if Inside(c, x, y) { assert Inside(s[0], x, y); }
      }
    } else if Terminal(min, c) {
      assert s == [c];
      forall x, y ensures Covers(s, x, y) <==> Inside(c, x, y) {
        if Inside(c, x, y) { assert Inside(s[0], x, y); }
      }
    } else {
      var halves := SplitSingleCell(min, c, d.coin, d.at);
      assert Halves(c, halves.0, halves.1);
      assert s == [halves.0, halves.1];
      forall x, y ensures Covers(s, x, y) <==> Inside(c, x, y) {
        if Inside(halves.0, x, y) { assert Inside(s[0], x, y); }
        if Inside(halves.1, x, y) { assert Inside(s[1], x, y); }
      }
    }
  }

  /** A round keeps the list a tiling of the same area, keeps every cell good,
      and at most doubles the list's length. */
  lemma {:induction false} RoundKeepsTiling(min: int, skipping: bool, iter: int, cells: seq<Rect>, ds: seq<CellDraw>)
    requires min > 0 && RoundDrawsOk(min, skipping, iter, cells, ds)
    requires AllFit(min, cells) && PairwiseDisjoint(cells)
    ensures var r := Round(min, skipping, iter, cells, ds);
      && |cells| <= |r| <= 2 * |cells|
      && AllFit(min, r)
      && PairwiseDisjoint(r)
      && (forall x, y :: Covers(r, x, y) <==> Covers(cells, x, y))
    decreases |cells|
  {
    var r := Round(min, skipping, iter, cells, ds);
    if |cells| > 0 {
      var s := Step(min, skipping, iter, cells[0], ds[0]);
      var rest := cells[1..];
      var rr := Round(min, skipping, iter, rest, ds[1..]);
      assert r == s + rr;
      TailOk(min, skipping, iter, cells, ds);
      StepTilesCell(min, skipping, iter, cells[0], ds[0]);
      RoundKeepsTiling(min, skipping, iter, rest, ds[1..]);
      CoversHeadAndTail(cells, s, rr);
      StepApartFromRest(cells[0], rest, s, rr);
      PairwiseDisjointConcat(s, rr);
    }
  }

  /** The tail of a list that `RoundKeepsTiling` accepts is accepted too,
      and lies apart from the head. */
  lemma TailOk(min: int, skipping: bool, iter: int, cells: seq<Rect>, ds: seq<CellDraw>)
    requires min > 0 && |cells| > 0 && RoundDrawsOk(min, skipping, iter, cells, ds)
    requires AllFit(min, cells) && PairwiseDisjoint(cells)
    ensures RoundDrawsOk(min, skipping, iter, cells[1..], ds[1..])
    ensures AllFit(min, cells[1..]) && PairwiseDisjoint(cells[1..])
    ensures forall k :: 0 <= k < |cells[1..]| ==> Disjoint(cells[0], cells[1..][k])
  {
    var rest := cells[1..];
    forall i | 0 <= i < |rest| ensures DrawOk(min, skipping, iter, rest[i], ds[1..][i]) {
      assert DrawOk(min, skipping, iter, cells[i + 1], ds[i + 1]);
    }
    forall i, j | 0 <= i < j < |rest| ensures Disjoint(rest[i], rest[j]) {
      assert Disjoint(cells[i + 1], cells[j + 1]);
    }
    forall i | 0 <= i < |rest| ensures Fits(min, rest[i]) && 0 <= rest[i].x1 {
      assert Fits(min, cells[i + 1]) && 0 <= cells[i + 1].x1;
    }
    forall k | 0 <= k < |rest| ensures Disjoint(cells[0], rest[k]) {
      assert Disjoint(cells[0], cells[k + 1]);
    }
  }

  /** Replacing the head of a list by its halves and the tail by a list
      covering the same cells covers the same cells. */
  lemma CoversHeadAndTail(cells: seq<Rect>, s: seq<Rect>, rr: seq<Rect>)
    requires |cells| > 0
    requires forall x, y :: Covers(s, x, y) <==> Inside(cells[0], x, y)
    requires forall x, y :: Covers(rr, x, y) <==> Covers(cells[1..], x, y)
    ensures forall x, y :: Covers(s + rr, x, y) <==> Covers(cells, x, y)
  {
    forall x, y ensures Covers(s + rr, x, y) <==> Covers(cells, x, y) {
      CoversConcat(s, rr, x, y);
      CoversConcat([cells[0]], cells[1..], x, y);
      assert [cells[0]] + cells[1..] == cells;
      assert Covers([cells[0]], x, y) <==> Inside(cells[0], x, y) by {
        if Inside(cells[0], x, y) { assert Inside([cells[0]][0], x, y); }
      }
    }
  }

  /** The halves of a cell lie apart from every cell of a list that covers
      no more than cells disjoint from it. */
  lemma StepApartFromRest(c: Rect, rest: seq<Rect>, s: seq<Rect>, rr: seq<Rect>)
    requires NonEmpty(c) && forall k :: 0 <= k < |rest| ==> NonEmpty(rest[k]) && Disjoint(c, rest[k])
    requires forall i :: 0 <= i < |s| ==> NonEmpty(s[i]) && Within(s[i], c)
    requires forall j :: 0 <= j < |rr| ==> NonEmpty(rr[j])
    requires forall x, y :: Covers(rr, x, y) ==> Covers(rest, x, y)
    ensures forall i, j :: 0 <= i < |s| && 0 <= j < |rr| ==> Disjoint(s[i], rr[j])
  {
    forall i, j | 0 <= i < |s| && 0 <= j < |rr| ensures Disjoint(s[i], rr[j]) {
      forall x, y ensures !(Inside(s[i], x, y) && Inside(rr[j], x, y)) {
        if Inside(rr[j], x, y) {
          assert Covers(rr, x, y);
        }
      }
      DisjointIffNoCommonCell(s[i], rr[j]);
    }
  }

  lemma DoublingBound(c: nat, n: nat, r: nat, p: nat)
    requires c <= n <= 2 * c && n <= r <= n * p
    ensures c <= r <= c * (2 * p)
  {
    assert n * p <= (2 * c) * p;
  }

  /** The rounds of the outer loop, from round `iter` on. */
  function Rounds(min: int, skipping: bool, cells: seq<Rect>, iter: int, draws: seq<seq<CellDraw>>): seq<Rect>
    requires min > 0 && ValidDraws(min, skipping, cells, iter, draws)
    decreases |draws|
  {
    if |draws| == 0 then cells
    else Rounds(min, skipping, Round(min, skipping, iter, cells, draws[0]), iter + 1, draws[1..])
  }

  /** The rounds keep every cell good and the cells pairwise disjoint. */
  lemma {:induction false} RoundsKeepCellsApart(min: int, skipping: bool, cells: seq<Rect>, iter: int, draws: seq<seq<CellDraw>>)
    requires min > 0 && ValidDraws(min, skipping, cells, iter, draws)
    requires AllFit(min, cells) && PairwiseDisjoint(cells)
    ensures AllFit(min, Rounds(min, skipping, cells, iter, draws))
    ensures PairwiseDisjoint(Rounds(min, skipping, cells, iter, draws))
    decreases |draws|
  {
    if |draws| > 0 {
      RoundKeepsTiling(min, skipping, iter, cells, draws[0]);
      RoundsKeepCellsApart(min, skipping, Round(min, skipping, iter, cells, draws[0]), iter + 1, draws[1..]);
    }
  }

  /** The rounds cover exactly the area the list started with. */
  lemma {:induction false} RoundsKeepArea(min: int, skipping: bool, cells: seq<Rect>, iter: int, draws: seq<seq<CellDraw>>, x: int, y: int)
    requires min > 0 && ValidDraws(min, skipping, cells, iter, draws)
    requires AllFit(min, cells) && PairwiseDisjoint(cells)
    ensures Covers(Rounds(min, skipping, cells, iter, draws), x, y) <==> Covers(cells, x, y)
    decreases |draws|
  {
    if |draws| > 0 {
      RoundKeepsTiling(min, skipping, iter, cells, draws[0]);
      RoundsKeepArea(min, skipping, Round(min, skipping, iter, cells, draws[0]), iter + 1, draws[1..], x, y);
    }
  }

  /** Each round at most doubles the list and never shrinks it. */
  lemma {:induction false} RoundsBoundLength(min: int, skipping: bool, cells: seq<Rect>, iter: int, draws: seq<seq<CellDraw>>)
    requires min > 0 && ValidDraws(min, skipping, cells, iter, draws)
    requires AllFit(min, cells) && PairwiseDisjoint(cells)
    ensures |cells| <= |Rounds(min, skipping, cells, iter, draws)| <= |cells| * Pow2(|draws|)
    decreases |draws|
  {
    if |draws| > 0 {
      var next := Round(min, skipping, iter, cells, draws[0]);
      RoundKeepsTiling(min, skipping, iter, cells, draws[0]);
      RoundsBoundLength(min, skipping, next, iter + 1, draws[1..]);
      DoublingBound(|cells|, |next|, |Rounds(min, skipping, next, iter + 1, draws[1..])|, Pow2(|draws| - 1));
    }
  }

  /** `binary_space_partition(width, height, iterations)`: starts from the
      single cell `(0, 0, width, height)` and runs `iterations` rounds. The
      result exactly tiles that cell, has between 1 and `2^iterations` cells,
      and every cell keeps at least `min - 1` of extent on both axes. */
  function BinarySpacePartition(min: int, skipping: bool, width: int, height: int, iterations: int,
                                draws: seq<seq<CellDraw>>): (r: seq<Rect>)
    requires min > 0 && width > min && height > min && iterations > 0
    requires |draws| == iterations && ValidDraws(min, skipping, [Rect(0, 0, width, height)], 0, draws)
    ensures Tiles(r, Rect(0, 0, width, height))
    ensures AllFit(min, r)
    ensures 1 <= |r| <= Pow2(iterations)
  {
    var seed := Rect(0, 0, width, height);
    var r := Rounds(min, skipping, [seed], 0, draws);
    RoundsKeepCellsApart(min, skipping, [seed], 0, draws);
    RoundsBoundLength(min, skipping, [seed], 0, draws);
    forall x, y ensures Inside(seed, x, y) <==> Covers(r, x, y) {
      RoundsKeepArea(min, skipping, [seed], 0, draws, x, y);
      if Inside(seed, x, y) { assert Inside([seed][0], x, y); }
    }
    forall i | 0 <= i < |r| ensures NonEmpty(r[i]) && Within(r[i], seed) {
      assert Fits(min, r[i]);
      assert Covers(r, r[i].x1, r[i].y1) && Covers(r, r[i].x2, r[i].y2);
    }
    r
  }

  /** Without carry-over, once every cell is terminal a round changes nothing. */
  lemma {:induction false} TerminalCellsAreFixed(min: int, iter: int, cells: seq<Rect>, ds: seq<CellDraw>)
    requires min > 0 && RoundDrawsOk(min, false, iter, cells, ds)
    requires forall i :: 0 <= i < |cells| ==> Terminal(min, cells[i])
    ensures Round(min, false, iter, cells, ds) == cells
    decreases |cells|
  {
    if |cells| > 0 {
      var rest := cells[1..];
      assert RoundDrawsOk(min, false, iter, rest, ds[1..]) by {
        forall i | 0 <= i < |rest| ensures DrawOk(min, false, iter, rest[i], ds[1..][i]) {
          assert DrawOk(min, false, iter, cells[i + 1], ds[i + 1]);
        }
      }
      TerminalCellsAreFixed(min, iter, rest, ds[1..]);
      assert Step(min, false, iter, cells[0], ds[0]) == [cells[0]];
      assert cells == [cells[0]] + rest;
    }
  }
}

=== FILE: placement.dfy ===
/** What the map generators' `place_objects` functions promise about the
    objects they push onto a level's list: which table an object comes from,
    where it may stand, and that no two blocking objects end up on one cell. */
module Placement {
  import opened Options
  import opened Tiles
  import opened Objects
  import opened Moves
  import NpcTable
  import LootTable

  /** Which table a placement draws from. */
  datatype Kind = NpcKind | ItemKind

  /** How many entries of the kind's table are allowed at `level`: the
      length of its trimmed table (`CountIsTrimmedLength`). */
  function Choices(kind: Kind, level: int): nat {
    match kind
    case NpcKind => NpcTable.Count(level)
    case ItemKind => LootTable.Count(level)
  }

  /** What an object of each kind is: an NPC blocks and fights, an item
      neither blocks nor fights. */
  predicate OfKind(kind: Kind, o: Object) {
    match kind
    case NpcKind => o.blocks && o.alive && o.fighter.Some? && o.item.None?
    case ItemKind => !o.blocks && o.item.Some? && o.fighter.None?
  }

  /** The weighted-choice index is drawn from the allowed entries whenever
      there are any. */
  predicate PickOk(kind: Kind, level: int, pick: nat) {
    Choices(kind, level) > 0 ==> pick < Choices(kind, level)
  }

  lemma TablesAreNonEmpty(level: int)
    requires -99 <= level <= 99
    ensures Choices(NpcKind, level) > 0 && Choices(ItemKind, level) > 0
  {
  }

  /** `generate_npc(level)` moved to `(x, y)`: a living, blocking fighter.
      The table's `assert!` panics when no row is allowed at the level. */
  function MakeNpc(level: int, pick: nat, x: int, y: int): (r: Option<Object>)
    requires PickOk(NpcKind, level, pick)
    ensures r.None? <==> Choices(NpcKind, level) == 0
    ensures r.Some? ==> r.value.x == x && r.value.y == y
    ensures r.Some? ==> r.value.blocks && r.value.alive && r.value.fighter.Some? && r.value.item.None?
  {
    var o :- NpcTable.GenerateNpc(level, pick);
    Some(SetPos(o, x, y))
  }

  /** `generate_floor_item(level)` moved to `(x, y)`: an item that does not
      block. The table's `assert!` panics when no row is allowed. */
  function MakeItem(level: int, pick: nat, x: int, y: int): (r: Option<Object>)
    requires PickOk(ItemKind, level, pick)
    ensures r.None? <==> Choices(ItemKind, level) == 0
    ensures r.Some? ==> r.value.x == x && r.value.y == y
    ensures r.Some? ==> !r.value.blocks && r.value.item.Some? && r.value.fighter.None?
  {
    LootTable.FloorItemIsItem(level, pick);
    var o :- LootTable.GenerateFloorItem(level, pick);
    Some(SetPos(o, x, y))
  }

  /** A placement of either kind. It fails exactly when the kind's table is
      empty at `level` (never from -99 to 99, by `TablesAreNonEmpty`). */
  function Make(kind: Kind, level: int, pick: nat, x: int, y: int): (r: Option<Object>)
    requires PickOk(kind, level, pick)
    ensures r.None? <==> Choices(kind, level) == 0
    ensures r.Some? ==> r.value.x == x && r.value.y == y
    ensures r.Some? ==> OfKind(kind, r.value)
  {
    if kind == NpcKind then MakeNpc(level, pick, x, y) else MakeItem(level, pick, x, y)
  }

  /** Every object from index `from` on is of the given kind. */
  ghost predicate AllOfKind(kind: Kind, objs: seq<Object>, from: nat) {
    forall i :: from <= i < |objs| ==> OfKind(kind, objs[i])
  }

  /** `after` is `before` with objects pushed at the end. */
  predicate Extends(after: seq<Object>, before: seq<Object>) {
    |before| <= |after| && after[..|before|] == before
  }

  /** Every object from index `from` on stands on a floor cell of `m`. */
  ghost predicate PlacedOnFloor(m: Map, objs: seq<Object>, from: nat) {
    forall i :: from <= i < |objs| ==> IsFloor(m, objs[i].x, objs[i].y)
  }

  /** Every object from index `from` on was pushed onto a cell that
      `is_blocked` reported free at that moment. */
  ghost predicate PlacedWhereFree(m: Map, objs: seq<Object>, from: nat) {
    forall i :: from <= i < |objs| ==>
      InMap(m, objs[i].x, objs[i].y) && !IsBlocked(objs[i].x, objs[i].y, m, objs[..i])
  }

  /** Every blocking object from index `from` on was pushed onto a cell that
      no earlier object blocked. */
  ghost predicate BlockersWhereFree(objs: seq<Object>, from: nat) {
    forall i :: from <= i < |objs| && objs[i].blocks ==> !AnyBlocksAt(objs[..i], objs[i].x, objs[i].y)
  }

  /** No two blocking objects share a cell. */
  ghost predicate Unstacked(objs: seq<Object>) {
    forall i, j :: 0 <= i < j < |objs| && objs[i].blocks && objs[j].blocks ==>
      objs[i].x != objs[j].x || objs[i].y != objs[j].y
  }

  /** Placing where `is_blocked` was false puts objects on floor, and puts a
      blocking one where nothing blocked. */
  lemma FreePlacementFacts(m: Map, objs: seq<Object>, from: nat)
    requires PlacedWhereFree(m, objs, from)
    ensures PlacedOnFloor(m, objs, from)
    ensures BlockersWhereFree(objs, from)
  {
  }

  /** Pushing blocking objects only onto unblocked cells keeps a list free of
      stacked blockers. */
  lemma FreePlacementKeepsUnstacked(objs: seq<Object>, from: nat)
    requires from <= |objs| && Unstacked(objs[..from])
    requires BlockersWhereFree(objs, from)
    ensures Unstacked(objs)
  {
    forall i, j | 0 <= i < j < |objs| && objs[i].blocks && objs[j].blocks
      ensures objs[i].x != objs[j].x || objs[i].y != objs[j].y
    {
      if j < from {
        assert objs[..from][i] == objs[i] && objs[..from][j] == objs[j];
      } else {
        assert objs[..j][i] == objs[i];
        if objs[i].x == objs[j].x && objs[i].y == objs[j].y {
          assert BlocksAt(objs[..j][i], objs[j].x, objs[j].y);
          assert false;
        }
      }
    }
  }

  /** Floor stays floor while the map is only dug further. */
  lemma PlacedOnFloorPersists(m: Map, m2: Map, objs: seq<Object>, from: nat)
    requires PlacedOnFloor(m, objs, from) && OnlyDigs(m, m2)
    ensures PlacedOnFloor(m2, objs, from)
  {
  }

  /** Two batches of pushes, one after the other, each keeping its promise,
      keep it together. */
  lemma PlacementsCompose(m: Map, a: seq<Object>, b: seq<Object>, c: seq<Object>)
    requires Extends(b, a) && Extends(c, b)
    requires PlacedWhereFree(m, b, |a|) && PlacedWhereFree(m, c, |b|)
    ensures Extends(c, a) && PlacedWhereFree(m, c, |a|)
  {
    forall i | |a| <= i < |b| ensures c[..i] == b[..i] && c[i] == b[i] {
      assert c[..|b|] == b;
    }
  }
}

=== FILE: player.dfy ===
/** Player progression (src/player.rs): the level-up threshold, the stat
    raise a level brings, and the reset on reincarnation. The menu that asks
    for the stat becomes the `choice` parameter. */
module PlayerRules {
  import opened Options
  import opened Constants
  import opened Objects

  /** `xp_to_level_up`: the xp needed to leave level `lvl`. */
  function XpToLevelUp(lvl: int): (r: int)
    ensures lvl >= -1 ==> r >= LEVEL_UP_BASE
    ensures lvl >= 0 ==> r >= LEVEL_UP_BASE + LEVEL_UP_FACTOR
  {
    LEVEL_UP_BASE + (lvl + 1) * LEVEL_UP_FACTOR
  }

  /** Each level costs `LEVEL_UP_FACTOR` more xp than the one before, so the
      threshold strictly increases with the level. */
  lemma ThresholdGrows(lvl: int, higher: int)
    requires lvl < higher
    ensures XpToLevelUp(lvl + 1) == XpToLevelUp(lvl) + LEVEL_UP_FACTOR
    ensures XpToLevelUp(lvl) < XpToLevelUp(higher)
  {
    assert (higher + 1) * LEVEL_UP_FACTOR - (lvl + 1) * LEVEL_UP_FACTOR == (higher - lvl) * LEVEL_UP_FACTOR;
  }

  /** The xp the source compares: 0 for an object without a fighter. */
  function CurrentXp(player: Object): int {
    if player.fighter.Some? then player.fighter.value.xp else 0
  }

  /** Enough xp to level up. */
  predicate CanLevelUp(player: Object) {
    CurrentXp(player) >= XpToLevelUp(player.level)
  }

  /** `level_up`: below the threshold nothing happens. Otherwise the level
      goes up by one, the threshold is paid out of the xp, and the chosen
      stat rises: 0 adds 20 to maximum and current health, 1 adds 1 to
      power, 2 adds 1 to defense. The source unwraps the fighter, so an
      object without one must not reach the threshold. */
  function LevelUp(player: Object, choice: int): (r: Object)
    requires 0 <= choice <= 2
    requires CanLevelUp(player) ==> player.fighter.Some?
    ensures !CanLevelUp(player) ==> r == player
    ensures CanLevelUp(player) ==>
      var f := player.fighter.value;
      && r.fighter.Some?
      && var g := r.fighter.value;
      && r.(level := player.level, fighter := player.fighter) == player
      && r.level == player.level + 1
      && g.xp == f.xp - XpToLevelUp(player.level) && g.xp >= 0
      && g.(xp := f.xp, baseMaxHp := f.baseMaxHp, hp := f.hp, basePower := f.basePower, baseDefense := f.baseDefense) == f
      && (choice == 0 <==> g.baseMaxHp == f.baseMaxHp + 20)
      && (choice == 0 ==> g.hp == f.hp + 20 && g.basePower == f.basePower && g.baseDefense == f.baseDefense)
      && (choice == 1 <==> g.basePower == f.basePower + 1)
      && (choice == 1 ==> g.hp == f.hp && g.baseMaxHp == f.baseMaxHp && g.baseDefense == f.baseDefense)
      && (choice == 2 <==> g.baseDefense == f.baseDefense + 1)
      && (choice == 2 ==> g.hp == f.hp && g.baseMaxHp == f.baseMaxHp && g.basePower == f.basePower)
  {
    if !CanLevelUp(player) then player
    else
      var threshold := XpToLevelUp(player.level);
      var f := player.fighter.value;
      var paid := f.(xp := f.xp - threshold);
      var raised :=
        if choice == 0 then paid.(baseMaxHp := paid.baseMaxHp + 20, hp := paid.hp + 20)
        else if choice == 1 then paid.(basePower := paid.basePower + 1)
        else paid.(baseDefense := paid.baseDefense + 1);
      player.(level := player.level + 1, fighter := Some(raised))
  }

  /** Raising constitution raises the maximum health by exactly 20, as long as
      the stored base stays below 2^31. */
  lemma ConstitutionAddsTwenty(player: Object)
    requires CanLevelUp(player) && player.fighter.Some?
    requires player.fighter.value.baseMaxHp + 20 < TWO_31
    ensures MaxHp(LevelUp(player, 0).fighter.value) == MaxHp(player.fighter.value) + 20
  {
  }

  /** `reincarnate_reset`: back to a fresh level-0 character at the origin with
      fixed stats and nothing carried; name, karma and everything else are
      kept. */
  function ReincarnateReset(player: Object): (r: Object)
    ensures r.alive && r.chr == '@' && r.color == White && r.level == 0 && r.x == 0 && r.y == 0
    ensures r.(alive := player.alive, chr := player.chr, color := player.color, level := player.level,
               x := player.x, y := player.y, fighter := player.fighter) == player
    ensures r.fighter.Some? <==> player.fighter.Some?
    ensures r.fighter.Some? ==>
      var f := player.fighter.value;
      var g := r.fighter.value;
      && g.hp == 100 && MaxHp(g) == 100 && g.baseDefense == 2 && g.basePower == 3 && g.xp == 0
      && g.inventory == [] && g.karma == f.karma && g.onDeath == f.onDeath
  {
    var reset := player.(alive := true, chr := '@', color := White, level := 0, x := 0, y := 0);
    if player.fighter.Some? then
      var f := player.fighter.value;
      reset.(fighter := Some(f.(hp := 100, baseMaxHp := 100, baseDefense := 2, basePower := 3, xp := 0, inventory := [])))
    else reset
  }

  /** Reincarnating twice is the same as reincarnating once. */
  lemma ReincarnateResetIdempotent(player: Object)
    ensures ReincarnateReset(ReincarnateReset(player)) == ReincarnateReset(player)
  {
  }
}

=== FILE: rects.dfy ===
/** Axis-aligned rectangles, as used by every map generator: `Rect` in
    src/map_algos/bsp_mod.rs, libtcod/src/map_algos/bsp.rs and
    src/map_algos/simple_fast.rs. All of them store two corners. */
module Rects {

  datatype Rect = Rect(x1: int, y1: int, x2: int, y2: int)

  /** `std::cmp::min` and `max`, which every tunnel uses to order its ends. */
  function Min(a: int, b: int): int { if a <= b then a else b }
  function Max(a: int, b: int): int { if a <= b then b else a }

  /** Rust's `/` on `i32`: truncates toward zero. */
  function Quot(a: int, b: int): (q: int)
    requires b > 0
    ensures a >= 0 ==> q * b <= a < q * b + b
    ensures a < 0 ==> q * b - b < a <= q * b
  {
    if a >= 0 then a / b else -((-a) / b)
  }

  /** `Rect::new(x0, y0, xf, yf)` of the modified BSP: the corners are given. */
  function Corners(x0: int, y0: int, xf: int, yf: int): Rect {
    Rect(x0, y0, xf, yf)
  }

  /** `Rect::new(x, y, w, h)` of the uniform BSP and the random-rooms
      generator: a corner and a size. */
  function Sized(x: int, y: int, w: int, h: int): (r: Rect)
    ensures r.x2 - r.x1 == w && r.y2 - r.y1 == h
    ensures r.x1 == x && r.y1 == y
  {
    Rect(x, y, x + w, y + h)
  }

  /** Midpoint of the two corners, each coordinate rounded toward zero. */
  function Center(r: Rect): (c: (int, int))
    ensures 0 <= r.x1 <= r.x2 ==> r.x1 <= c.0 <= r.x2 && 2 * c.0 <= r.x1 + r.x2 <= 2 * c.0 + 1
    ensures 0 <= r.y1 <= r.y2 ==> r.y1 <= c.1 <= r.y2 && 2 * c.1 <= r.y1 + r.y2 <= 2 * c.1 + 1
  {
    (Quot(r.x1 + r.x2, 2), Quot(r.y1 + r.y2, 2))
  }

  /** `intersects_with`: the closed rectangles overlap or touch. */
  predicate IntersectsWith(a: Rect, b: Rect) {
    a.x1 <= b.x2 && a.x2 >= b.x1 && a.y1 <= b.y2 && a.y2 >= b.y1
  }

  /** The cell `(x, y)` is inside `r`, bounds included. */
  predicate Inside(r: Rect, x: int, y: int) {
    r.x1 <= x <= r.x2 && r.y1 <= y <= r.y2
  }

  /** The rectangle holds at least one cell. */
  predicate NonEmpty(r: Rect) {
    r.x1 <= r.x2 && r.y1 <= r.y2
  }

  /** Intersection is symmetric, and for non-empty rectangles it holds exactly
      when some cell lies in both (so touching edges count). */
  lemma IntersectsIsSymmetricAndInclusive(a: Rect, b: Rect)
    requires NonEmpty(a) && NonEmpty(b)
    ensures IntersectsWith(a, b) == IntersectsWith(b, a)
    ensures IntersectsWith(a, b) <==> exists x, y :: Inside(a, x, y) && Inside(b, x, y)
  {
    if IntersectsWith(a, b) {
      var x := if a.x1 < b.x1 then b.x1 else a.x1;
      var y := if a.y1 < b.y1 then b.y1 else a.y1;
      assert Inside(a, x, y) && Inside(b, x, y);
    }
  }

  /** Two inclusive rectangles share no cell. */
  predicate Disjoint(a: Rect, b: Rect) {
    a.x2 < b.x1 || b.x2 < a.x1 || a.y2 < b.y1 || b.y2 < a.y1
  }

  /** `inner` lies inside `outer`. */
  predicate Within(inner: Rect, outer: Rect) {
    outer.x1 <= inner.x1 && inner.x2 <= outer.x2 && outer.y1 <= inner.y1 && inner.y2 <= outer.y2
  }

  /** For non-empty rectangles, being disjoint is exactly having no common cell. */
  lemma DisjointIffNoCommonCell(a: Rect, b: Rect)
    requires NonEmpty(a) && NonEmpty(b)
    ensures Disjoint(a, b) <==> forall x, y :: !(Inside(a, x, y) && Inside(b, x, y))
  {
    if !Disjoint(a, b) {
      var x := if a.x1 < b.x1 then b.x1 else a.x1;
      var y := if a.y1 < b.y1 then b.y1 else a.y1;
      assert Inside(a, x, y) && Inside(b, x, y);
    }
  }
}

=== FILE: rltk_map.dfy ===
/** The flat tile map of the rltk port (rltk/src/map.rs): 80 by 50 cells
    stored row by row in one vector, a test map of random walls, and room and
    tunnel digging. Index arithmetic is taken as unbounded: for the indices
    the guards below let through this agrees with Rust's wrapping `usize`. */
module RltkMap {
  import opened Rects

  datatype TileType = Wall | Floor

  const WIDTH: int := 80
  const HEIGHT: int := 50
  const SIZE: int := 4000

  predicate InGrid(x: int, y: int) {
    0 <= x < WIDTH && 0 <= y < HEIGHT
  }

  /** `xy_idx`: row-major position of `(x, y)`. Inside the grid it is a valid
      index from which the cell can be read back. */
  function XyIdx(x: int, y: int): (i: int)
    ensures InGrid(x, y) ==> 0 <= i < SIZE && i % WIDTH == x && i / WIDTH == y
  {
    y * WIDTH + x
  }

  /** Different cells of a grid row of width 80 have different indices. */
  lemma XyIdxInjective(x: int, y: int, a: int, b: int)
    requires 0 <= x < WIDTH && 0 <= a < WIDTH && y >= 0 && b >= 0
    requires XyIdx(x, y) == XyIdx(a, b)
    ensures x == a && y == b
  {
  }

  predicate OnBorder(x: int, y: int) {
    x == 0 || x == WIDTH - 1 || y == 0 || y == HEIGHT - 1
  }

  /** `roll_dice(1, 79)` and `roll_dice(1, 49)`: one die each. */
  predicate SplatOk(draws: seq<(int, int)>) {
    forall i :: 0 <= i < |draws| ==> 1 <= draws[i].0 <= 79 && 1 <= draws[i].1 <= 49
  }

  ghost predicate Splatted(draws: seq<(int, int)>, x: int, y: int) {
    exists i :: 0 <= i < |draws| && draws[i] == (x, y)
  }

  /** One more draw splats exactly one more cell. */
  lemma SplattedStep(draws: seq<(int, int)>, k: nat)
    requires k < |draws|
    ensures forall x, y :: Splatted(draws[..k + 1], x, y) <==> Splatted(draws[..k], x, y) || (x, y) == draws[k]
  {
    forall x, y ensures Splatted(draws[..k + 1], x, y) <==> Splatted(draws[..k], x, y) || (x, y) == draws[k] {
      if Splatted(draws[..k + 1], x, y) {
        var i :| 0 <= i < k + 1 && draws[..k + 1][i] == (x, y);
        if i < k { assert draws[..k][i] == (x, y); }
      }
      if Splatted(draws[..k], x, y) {
        var i :| 0 <= i < k && draws[..k][i] == (x, y);
        assert draws[..k + 1][i] == (x, y);
      }
      if (x, y) == draws[k] { assert draws[..k + 1][k] == (x, y); }
    }
  }

  /** The first part of `new_map_test`: floor everywhere, walls exactly on
      the border. */
  method Bordered() returns (m: seq<TileType>)
    ensures |m| == SIZE
    ensures forall x, y :: InGrid(x, y) ==> (m[XyIdx(x, y)] == Wall <==> OnBorder(x, y))
  {
    m := seq(SIZE, _ => Floor);
    var x := 0;
    while x < WIDTH
      invariant 0 <= x <= WIDTH && |m| == SIZE
      invariant forall cx, cy :: InGrid(cx, cy) ==>
        (m[XyIdx(cx, cy)] == Wall <==> cx < x && (cy == 0 || cy == HEIGHT - 1))
    {
      forall cx, cy | InGrid(cx, cy) && (cx, cy) != (x, 0) ensures XyIdx(cx, cy) != XyIdx(x, 0) {
        if XyIdx(cx, cy) == XyIdx(x, 0) { XyIdxInjective(cx, cy, x, 0); }
      }
      forall cx, cy | InGrid(cx, cy) && (cx, cy) != (x, HEIGHT - 1) ensures XyIdx(cx, cy) != XyIdx(x, HEIGHT - 1) {
        if XyIdx(cx, cy) == XyIdx(x, HEIGHT - 1) { XyIdxInjective(cx, cy, x, HEIGHT - 1); }
      }
      m := m[XyIdx(x, 0) := Wall][XyIdx(x, HEIGHT - 1) := Wall];
      x := x + 1;
    }
    var y := 0;
    while y < HEIGHT
      invariant 0 <= y <= HEIGHT && |m| == SIZE
      invariant forall cx, cy :: InGrid(cx, cy) ==>
        (m[XyIdx(cx, cy)] == Wall <==> cy == 0 || cy == HEIGHT - 1 || (cy < y && (cx == 0 || cx == WIDTH - 1)))
    {
      forall cx, cy | InGrid(cx, cy) && (cx, cy) != (0, y) ensures XyIdx(cx, cy) != XyIdx(0, y) {
        if XyIdx(cx, cy) == XyIdx(0, y) { XyIdxInjective(cx, cy, 0, y); }
      }
      forall cx, cy | InGrid(cx, cy) && (cx, cy) != (WIDTH - 1, y) ensures XyIdx(cx, cy) != XyIdx(WIDTH - 1, y) {
        if XyIdx(cx, cy) == XyIdx(WIDTH - 1, y) { XyIdxInjective(cx, cy, WIDTH - 1, y); }
      }
      m := m[XyIdx(0, y) := Wall][XyIdx(WIDTH - 1, y) := Wall];
      y := y + 1;
    }
  }

  /** `new_map_test`: floor everywhere, walls on the border, then 400 random
      walls, except that the middle cell (40, 25) is never walled. */
  method NewMapTest(draws: seq<(int, int)>) returns (m: seq<TileType>)
    requires |draws| == 400 && SplatOk(draws)
    ensures |m| == SIZE
    ensures forall x, y :: InGrid(x, y) ==>
      (m[XyIdx(x, y)] == Wall <==> OnBorder(x, y) || ((x, y) != (40, 25) && Splatted(draws, x, y)))
  {
    m := Bordered();
    var k := 0;
    while k < |draws|
      invariant 0 <= k <= |draws| && |m| == SIZE
      invariant forall cx, cy :: InGrid(cx, cy) ==>
        (m[XyIdx(cx, cy)] == Wall <==> OnBorder(cx, cy) || ((cx, cy) != (40, 25) && Splatted(draws[..k], cx, cy)))
    {
      var (dx, dy) := draws[k];
      var idx := XyIdx(dx, dy);
      SplattedStep(draws, k);
      forall cx, cy | InGrid(cx, cy) && (cx, cy) != (dx, dy) ensures XyIdx(cx, cy) != idx {
        if XyIdx(cx, cy) == idx { XyIdxInjective(cx, cy, dx, dy); }
      }
      if idx != XyIdx(40, 25) {
        m := m[idx := Wall];
      } else {
        XyIdxInjective(dx, dy, 40, 25);
      }
      k := k + 1;
    }
    assert draws[..k] == draws;
  }

  /** `apply_room_to_map`: floors `x1 + 1 ..= x2` by `y1 + 1 ..= y2`, whose
      upper bounds, unlike the other generators, are inclusive. */
  method ApplyRoomToMap(room: Rect, m: seq<TileType>) returns (r: seq<TileType>)
    requires |m| == SIZE
    requires room.x2 < room.x1 + 1 || room.y2 < room.y1 + 1 || (InGrid(room.x1 + 1, room.y1 + 1) && InGrid(room.x2, room.y2))
    ensures |r| == SIZE
    ensures forall x, y :: InGrid(x, y) ==>
      r[XyIdx(x, y)] == if room.x1 < x <= room.x2 && room.y1 < y <= room.y2 then Floor else m[XyIdx(x, y)]
  {
    r := m;
    var y := room.y1 + 1;
    while y <= room.y2
      invariant room.y1 + 1 <= y && (y <= room.y2 + 1 || y == room.y1 + 1) && |r| == SIZE
      invariant forall cx, cy :: InGrid(cx, cy) ==>
        r[XyIdx(cx, cy)] == if room.x1 < cx <= room.x2 && room.y1 < cy < y then Floor else m[XyIdx(cx, cy)]
    {
      var x := room.x1 + 1;
      while x <= room.x2
        invariant room.x1 + 1 <= x && (x <= room.x2 + 1 || x == room.x1 + 1) && |r| == SIZE
        invariant forall cx, cy :: InGrid(cx, cy) ==>
          r[XyIdx(cx, cy)] == if room.x1 < cx <= room.x2 && (room.y1 < cy < y || (cy == y && cx < x)) then Floor else m[XyIdx(cx, cy)]
      {
        forall cx, cy | InGrid(cx, cy) && (cx, cy) != (x, y) ensures XyIdx(cx, cy) != XyIdx(x, y) {
          if XyIdx(cx, cy) == XyIdx(x, y) { XyIdxInjective(cx, cy, x, y); }
        }
        r := r[XyIdx(x, y) := Floor];
        x := x + 1;
      }
      y := y + 1;
    }
  }

  /** Index `i` lies in row `y` at a column from `lo` to `hi` (counting
      on into the next rows past column 79). */
  predicate InRowRun(i: int, y: int, lo: int, hi: int) {
    lo <= i - y * WIDTH <= hi
  }

  /** Index `i` lies in column `x` at a row from `lo` to `hi`. */
  predicate InColumnRun(i: int, x: int, lo: int, hi: int) {
    (i - x) % WIDTH == 0 && lo <= (i - x) / WIDTH <= hi
  }

  /** What a tunnel leaves: the guarded cells of its run are floor. */
  function Tunneled(m: seq<TileType>, run: int -> bool): (r: seq<TileType>)
    ensures |r| == |m|
    ensures forall i :: 0 <= i < |m| ==> r[i] == if 0 < i < SIZE && run(i) then Floor else m[i]
  {
    seq(|m|, i requires 0 <= i < |m| => if 0 < i < SIZE && run(i) then Floor else m[i])
  }

  /** `apply_horizontal_tunnel`: floors row `y` from `min(x1, x2)` to
      `max(x1, x2)`, writing only indices strictly between 0 and 4000 (so
      cell (0, 0) is never dug, and a run past the right edge continues on
      the next row). */
  method ApplyHorizontalTunnel(m: seq<TileType>, x1: int, x2: int, y: int) returns (r: seq<TileType>)
    requires |m| == SIZE
    ensures r == Tunneled(m, i => InRowRun(i, y, Min(x1, x2), Max(x1, x2)))
  {
    r := m;
    var x := Min(x1, x2);
    while x <= Max(x1, x2)
      invariant Min(x1, x2) <= x <= Max(x1, x2) + 1 && |r| == SIZE
      invariant forall i :: 0 <= i < SIZE ==>
        r[i] == if 0 < i && InRowRun(i, y, Min(x1, x2), x - 1) then Floor else m[i]
    {
      var idx := XyIdx(x, y);
      if idx > 0 && idx < SIZE {
        r := r[idx := Floor];
      }
      x := x + 1;
    }
  }

  /** `apply_vertical_tunnel`: floors column `x` from `min(y1, y2)` to
      `max(y1, y2)`, under the same index guard. */
  method ApplyVerticalTunnel(m: seq<TileType>, y1: int, y2: int, x: int) returns (r: seq<TileType>)
    requires |m| == SIZE
    ensures r == Tunneled(m, i => InColumnRun(i, x, Min(y1, y2), Max(y1, y2)))
  {
    r := m;
    var y := Min(y1, y2);
    while y <= Max(y1, y2)
      invariant Min(y1, y2) <= y <= Max(y1, y2) + 1 && |r| == SIZE
      invariant forall i :: 0 <= i < SIZE ==>
        r[i] == if 0 < i && InColumnRun(i, x, Min(y1, y2), y - 1) then Floor else m[i]
    {
      var idx := XyIdx(x, y);
      assert (idx - x) % WIDTH == 0 && (idx - x) / WIDTH == y;
      if idx > 0 && idx < SIZE {
        r := r[idx := Floor];
      }
      y := y + 1;
    }
  }

  /** A tunnel only digs, it digs the same cells whichever end it starts
      from, and digging it twice is digging it once. */
  lemma TunnelFacts(m: seq<TileType>, a: int, b: int, c: int)
    requires |m| == SIZE
    ensures var h := i => InRowRun(i, c, Min(a, b), Max(a, b));
      && Tunneled(m, h) == Tunneled(m, i => InRowRun(i, c, Min(b, a), Max(b, a)))
      && Tunneled(Tunneled(m, h), h) == Tunneled(m, h)
      && forall i :: 0 <= i < SIZE && m[i] == Floor ==> Tunneled(m, h)[i] == Floor
    ensures var v := i => InColumnRun(i, c, Min(a, b), Max(a, b));
      && Tunneled(m, v) == Tunneled(m, i => InColumnRun(i, c, Min(b, a), Max(b, a)))
      && Tunneled(Tunneled(m, v), v) == Tunneled(m, v)
  {
  }

  /** `new_map_rooms_and_corridors`: solid rock with two rooms side by side,
      `Rect::new(20, 15, 10, 15)` and `Rect::new(35, 15, 10, 15)`, joined
      along row 23 from x = 25 to 40. */
  method NewMapRoomsAndCorridors() returns (m: seq<TileType>)
    ensures |m| == SIZE
    ensures forall x, y :: InGrid(x, y) ==>
      (m[XyIdx(x, y)] == Floor <==>
         (20 < x <= 30 && 15 < y <= 30) || (35 < x <= 45 && 15 < y <= 30) || (y == 23 && 25 <= x <= 40))
    ensures forall x :: 25 <= x <= 40 ==> m[XyIdx(x, 23)] == Floor
  {
    m := seq(SIZE, _ => Wall);
    m := ApplyRoomToMap(Sized(20, 15, 10, 15), m);
    m := ApplyRoomToMap(Sized(35, 15, 10, 15), m);
    m := ApplyHorizontalTunnel(m, 25, 40, 23);
    forall x, y | InGrid(x, y) ensures InRowRun(XyIdx(x, y), 23, 25, 40) <==> y == 23 && 25 <= x <= 40 {
      if InRowRun(XyIdx(x, y), 23, 25, 40) {
        XyIdxInjective(x, y, XyIdx(x, y) - 23 * WIDTH, 23);
      }
    }
  }
}

=== FILE: room_population.dfy ===
/** `place_objects` of src/map_algos/simple_fast.rs and
    libtcod/src/map_algos/bsp.rs, which are the same code: up to `max_npcs`
    NPC attempts and then up to `max_items` item attempts, each at a random
    cell strictly inside the room. An attempt pushes its object only when
    `is_blocked` is false for the cell at that moment. */
module RoomPopulation {
  import opened Options
  import opened Tiles
  import opened Rects
  import opened Objects
  import opened Moves
  import opened Transitions
  import opened Placement

  /** Most NPCs per room, by level. */
  const MAX_NPCS: seq<Transition> := [Transition(0, 2), Transition(7, 3), Transition(14, 4), Transition(20, 6)]

  /** Most items per room, by level. */
  const MAX_ITEMS: seq<Transition> := [Transition(0, 1), Transition(7, 2)]

  /** One attempt: the cell `(gen_range(x1 + 1, x2), gen_range(y1 + 1, y2))`
      and the weighted-table pick for the object. */
  datatype Spot = Spot(x: int, y: int, pick: nat)

  /** All draws of one call. The lengths are the two count draws
      `gen_range(0, max + 1)`. */
  datatype RoomDraws = RoomDraws(npcs: seq<Spot>, items: seq<Spot>)

  /** The attempt's cell is strictly inside the room and inside the map. */
  predicate SpotOk(room: Rect, m: Map, kind: Kind, level: int, s: Spot) {
    room.x1 < s.x < room.x2 && room.y1 < s.y < room.y2 && InMap(m, s.x, s.y) && PickOk(kind, level, s.pick)
  }

  predicate SpotsOk(room: Rect, m: Map, kind: Kind, level: int, spots: seq<Spot>) {
    forall k :: 0 <= k < |spots| ==> SpotOk(room, m, kind, level, spots[k])
  }

  /** The draws fit the level's counts and the room. */
  predicate DrawsOk(room: Rect, m: Map, level: nat, d: RoomDraws) {
    && |d.npcs| <= FromMapLevel(MAX_NPCS, level)
    && |d.items| <= FromMapLevel(MAX_ITEMS, level)
    && SpotsOk(room, m, NpcKind, level, d.npcs)
    && SpotsOk(room, m, ItemKind, level, d.items)
  }

  /** Every object from index `from` on lies strictly inside the room. */
  ghost predicate InsideRoom(room: Rect, objs: seq<Object>, from: nat) {
    forall i :: from <= i < |objs| ==> room.x1 < objs[i].x < room.x2 && room.y1 < objs[i].y < room.y2
  }

  lemma RestSpotsOk(room: Rect, m: Map, kind: Kind, level: int, spots: seq<Spot>)
    requires |spots| > 0 && SpotsOk(room, m, kind, level, spots)
    ensures SpotOk(room, m, kind, level, spots[0]) && SpotsOk(room, m, kind, level, spots[1..])
  {
    forall k | 0 <= k < |spots[1..]| ensures SpotOk(room, m, kind, level, spots[1..][k]) {
      assert spots[1..][k] == spots[k + 1];
    }
  }

  /** Pushing `o` onto a free cell of the room and then more objects that
      keep the promises keeps them from `objs` on. */
  lemma PushThenMore(m: Map, room: Rect, kind: Kind, objs: seq<Object>, o: Object, rv: seq<Object>)
    requires InMap(m, o.x, o.y) && !IsBlocked(o.x, o.y, m, objs)
    requires room.x1 < o.x < room.x2 && room.y1 < o.y < room.y2 && OfKind(kind, o)
    requires Extends(rv, objs + [o])
    requires PlacedWhereFree(m, rv, |objs| + 1) && InsideRoom(room, rv, |objs| + 1) && AllOfKind(kind, rv, |objs| + 1)
    ensures Extends(rv, objs) && PlacedWhereFree(m, rv, |objs|) && InsideRoom(room, rv, |objs|) && AllOfKind(kind, rv, |objs|)
  {
    var next := objs + [o];
    assert rv[..|next|] == next;
    assert rv[..|objs|] == next[..|objs|] == objs;
    assert rv[|objs|] == o;
  }

  /** One of the two attempt loops. Each attempt pushes at most one object
      of the loop's kind, strictly inside the room, and only where the cell
      was free at that moment. Fails only when the kind's table is empty at
      `level`. */
  function Attempts(spots: seq<Spot>, kind: Kind, room: Rect, m: Map, objs: seq<Object>, level: int): (r: Option<seq<Object>>)
    requires SpotsOk(room, m, kind, level, spots)
    ensures r.None? ==> Choices(kind, level) == 0
    ensures r.Some? ==> Extends(r.value, objs) && |r.value| <= |objs| + |spots|
    ensures r.Some? ==> PlacedWhereFree(m, r.value, |objs|) && InsideRoom(room, r.value, |objs|)
    ensures r.Some? ==> AllOfKind(kind, r.value, |objs|)
    decreases |spots|
  {
    if |spots| == 0 then Some(objs)
    else
      var s := spots[0];
      RestSpotsOk(room, m, kind, level, spots);
      if IsBlocked(s.x, s.y, m, objs) then Attempts(spots[1..], kind, room, m, objs, level)
      else
        var made := Make(kind, level, s.pick, s.x, s.y);
        if made.None? then None
        else
          var r := Attempts(spots[1..], kind, room, m, objs + [made.value], level);
          if r.None? then None
          else
            PushThenMore(m, room, kind, objs, made.value, r.value);
            r
  }

  /** Whether attempt `k` of a loop pushes, judged only from the objects
      `objs` present before the loop: its cell is neither a wall nor blocked
      by one of them, and, since every NPC blocks, no earlier attempt of an
      NPC loop chose the same cell. Items never block, so every item attempt
      on a free cell pushes. */
  predicate Takes(kind: Kind, m: Map, objs: seq<Object>, spots: seq<Spot>, k: nat)
    requires k < |spots| && InMap(m, spots[k].x, spots[k].y)
  {
    && !IsBlocked(spots[k].x, spots[k].y, m, objs)
    && (kind == NpcKind ==> forall j :: 0 <= j < k ==> spots[j].x != spots[k].x || spots[j].y != spots[k].y)
  }

  /** The objects the attempts from index `from` on push, in attempt order,
      by `Takes`. */
  function Taken(kind: Kind, level: int, room: Rect, m: Map, objs: seq<Object>, spots: seq<Spot>, from: nat): (r: seq<Object>)
    requires SpotsOk(room, m, kind, level, spots) && Choices(kind, level) > 0 && from <= |spots|
    ensures |r| <= |spots| - from
    ensures forall i :: 0 <= i < |r| ==> OfKind(kind, r[i])
    decreases |spots| - from
  {
    if from == |spots| then []
    else
      var s := spots[from];
      var rest := Taken(kind, level, room, m, objs, spots, from + 1);
      if Takes(kind, m, objs, spots, from) then [Make(kind, level, s.pick, s.x, s.y).value] + rest else rest
  }

  /** Pushing `o` blocks exactly the cells it blocks itself. */
  lemma BlockedAfterPush(x: int, y: int, m: Map, objs: seq<Object>, o: Object)
    requires InMap(m, x, y)
    ensures IsBlocked(x, y, m, objs + [o]) == (IsBlocked(x, y, m, objs) || BlocksAt(o, x, y))
  {
    var after := objs + [o];
    if AnyBlocksAt(objs, x, y) {
      var i :| 0 <= i < |objs| && BlocksAt(objs[i], x, y);
      assert after[i] == objs[i];
    }
    if BlocksAt(o, x, y) {
      assert after[|objs|] == o;
    }
    if AnyBlocksAt(after, x, y) {
      var i :| 0 <= i < |after| && BlocksAt(after[i], x, y);
      if i < |objs| { assert after[i] == objs[i]; }
    }
  }

  /** `Taken` of the attempts after the first, from objects `objs2`, is
      `Taken` of all attempts from the second on, from objects `objs`, when
      the two agree attempt by attempt. */
  lemma {:induction false} TakenShift(kind: Kind, level: int, room: Rect, m: Map, objs: seq<Object>, objs2: seq<Object>, spots: seq<Spot>, from: nat)
    requires SpotsOk(room, m, kind, level, spots) && Choices(kind, level) > 0
    requires |spots| > 0 && SpotsOk(room, m, kind, level, spots[1..]) && from <= |spots| - 1
    requires forall k :: from <= k < |spots| - 1 ==> Takes(kind, m, objs2, spots[1..], k) == Takes(kind, m, objs, spots, k + 1)
    ensures Taken(kind, level, room, m, objs2, spots[1..], from) == Taken(kind, level, room, m, objs, spots, from + 1)
    decreases |spots| - from
  {
    if from < |spots| - 1 {
      assert spots[1..][from] == spots[from + 1];
      TakenShift(kind, level, room, m, objs, objs2, spots, from + 1);
    }
  }

  /** The loop judged from `objs` after its first attempt is the loop judged
      from the objects at the second attempt, when the first attempt's cell
      was blocked. */
  lemma TakesAfterBlocked(kind: Kind, level: int, room: Rect, m: Map, objs: seq<Object>, spots: seq<Spot>, k: nat)
    requires SpotsOk(room, m, kind, level, spots) && k + 1 < |spots|
    requires IsBlocked(spots[0].x, spots[0].y, m, objs)
    ensures Takes(kind, m, objs, spots[1..], k) == Takes(kind, m, objs, spots, k + 1)
  {
    var rest := spots[1..];
    assert rest[k] == spots[k + 1];
    if kind == NpcKind && !IsBlocked(rest[k].x, rest[k].y, m, objs) {
      assert (forall j :: 0 <= j < k ==> rest[j].x != rest[k].x || rest[j].y != rest[k].y)
         <==> (forall j :: 0 <= j < k + 1 ==> spots[j].x != spots[k + 1].x || spots[j].y != spots[k + 1].y) by {
        forall j | 0 <= j < k ensures rest[j] == spots[j + 1] { }
        assert spots[0].x != spots[k + 1].x || spots[0].y != spots[k + 1].y;
        if forall j :: 0 <= j < k ==> rest[j].x != rest[k].x || rest[j].y != rest[k].y {
          forall j | 0 <= j < k + 1 ensures spots[j].x != spots[k + 1].x || spots[j].y != spots[k + 1].y {
            if j > 0 { assert spots[j] == rest[j - 1]; }
          }
        }
      }
    }
  }

  /** Likewise when the first attempt pushed `o` onto its cell. */
  lemma TakesAfterPush(kind: Kind, level: int, room: Rect, m: Map, objs: seq<Object>, o: Object, spots: seq<Spot>, k: nat)
    requires SpotsOk(room, m, kind, level, spots) && k + 1 < |spots|
    requires OfKind(kind, o) && o.x == spots[0].x && o.y == spots[0].y
    ensures Takes(kind, m, objs + [o], spots[1..], k) == Takes(kind, m, objs, spots, k + 1)
  {
    var rest := spots[1..];
    assert rest[k] == spots[k + 1];
    BlockedAfterPush(rest[k].x, rest[k].y, m, objs, o);
    if kind == NpcKind {
      assert (forall j :: 0 <= j < k ==> rest[j].x != rest[k].x || rest[j].y != rest[k].y)
         <==> (forall j :: 1 <= j < k + 1 ==> spots[j].x != spots[k + 1].x || spots[j].y != spots[k + 1].y) by {
        forall j | 0 <= j < k ensures rest[j] == spots[j + 1] { }
        if forall j :: 0 <= j < k ==> rest[j].x != rest[k].x || rest[j].y != rest[k].y {
          forall j | 1 <= j < k + 1 ensures spots[j].x != spots[k + 1].x || spots[j].y != spots[k + 1].y {
            assert spots[j] == rest[j - 1];
          }
        }
      }
    }
  }

  /** `AttemptsPushExactly` when the first attempt's cell is blocked: the
      attempt is skipped, and so it is by the reference. */
  lemma {:induction false} BlockedStep(spots: seq<Spot>, kind: Kind, room: Rect, m: Map, objs: seq<Object>, level: int)
    requires SpotsOk(room, m, kind, level, spots) && Choices(kind, level) > 0 && |spots| > 0
    requires IsBlocked(spots[0].x, spots[0].y, m, objs)
    ensures Attempts(spots, kind, room, m, objs, level) == Some(objs + Taken(kind, level, room, m, objs, spots, 0))
    decreases |spots|, 0
  {
    RestSpotsOk(room, m, kind, level, spots);
    AttemptsPushExactly(spots[1..], kind, room, m, objs, level);
    forall k | 0 <= k < |spots| - 1 ensures Takes(kind, m, objs, spots[1..], k) == Takes(kind, m, objs, spots, k + 1) {
      TakesAfterBlocked(kind, level, room, m, objs, spots, k);
    }
    TakenShift(kind, level, room, m, objs, objs, spots, 0);
  }

  /** One attempt on a free cell pushes its object and goes on. */
  lemma AttemptPushes(spots: seq<Spot>, kind: Kind, room: Rect, m: Map, objs: seq<Object>, level: int)
    requires SpotsOk(room, m, kind, level, spots) && Choices(kind, level) > 0 && |spots| > 0
    requires SpotsOk(room, m, kind, level, spots[1..])
    requires !IsBlocked(spots[0].x, spots[0].y, m, objs)
    ensures Attempts(spots, kind, room, m, objs, level)
         == Attempts(spots[1..], kind, room, m, objs + [Make(kind, level, spots[0].pick, spots[0].x, spots[0].y).value], level)
  {
  }

  /** The reference agrees: a free first cell is taken. */
  lemma TakenPushes(spots: seq<Spot>, kind: Kind, room: Rect, m: Map, objs: seq<Object>, level: int, o: Object)
    requires SpotsOk(room, m, kind, level, spots) && Choices(kind, level) > 0 && |spots| > 0
    requires SpotsOk(room, m, kind, level, spots[1..])
    requires !IsBlocked(spots[0].x, spots[0].y, m, objs)
    requires o == Make(kind, level, spots[0].pick, spots[0].x, spots[0].y).value
    ensures Taken(kind, level, room, m, objs, spots, 0) == [o] + Taken(kind, level, room, m, objs + [o], spots[1..], 0)
  {
    assert Taken(kind, level, room, m, objs + [o], spots[1..], 0) == Taken(kind, level, room, m, objs, spots, 1) by {
      AllTakesAfterPush(kind, level, room, m, objs, o, spots);
      TakenShift(kind, level, room, m, objs, objs + [o], spots, 0);
    }
    assert Taken(kind, level, room, m, objs, spots, 0) == [o] + Taken(kind, level, room, m, objs, spots, 1) by {
      assert Takes(kind, m, objs, spots, 0);
    }
  }

  lemma AllTakesAfterPush(kind: Kind, level: int, room: Rect, m: Map, objs: seq<Object>, o: Object, spots: seq<Spot>)
    requires SpotsOk(room, m, kind, level, spots) && |spots| > 0
    requires OfKind(kind, o) && o.x == spots[0].x && o.y == spots[0].y
    ensures forall k :: 0 <= k < |spots| - 1 ==> Takes(kind, m, objs + [o], spots[1..], k) == Takes(kind, m, objs, spots, k + 1)
  {
    forall k | 0 <= k < |spots| - 1 ensures Takes(kind, m, objs + [o], spots[1..], k) == Takes(kind, m, objs, spots, k + 1) {
      TakesAfterPush(kind, level, room, m, objs, o, spots, k);
    }
  }

  lemma AppendAssoc<T>(a: seq<T>, b: seq<T>, c: seq<T>)
    ensures a + b + c == a + (b + c)
  {
  }

  /** `AttemptsPushExactly` when the first attempt's cell is free: the
      attempt pushes its object, and so it does by the reference. */
  lemma {:induction false} PushStep(spots: seq<Spot>, kind: Kind, room: Rect, m: Map, objs: seq<Object>, level: int)
    requires SpotsOk(room, m, kind, level, spots) && Choices(kind, level) > 0 && |spots| > 0
    requires !IsBlocked(spots[0].x, spots[0].y, m, objs)
    ensures Attempts(spots, kind, room, m, objs, level) == Some(objs + Taken(kind, level, room, m, objs, spots, 0))
    decreases |spots|, 0
  {
    RestSpotsOk(room, m, kind, level, spots);
    var o := Make(kind, level, spots[0].pick, spots[0].x, spots[0].y).value;
    AttemptPushes(spots, kind, room, m, objs, level);
    AttemptsPushExactly(spots[1..], kind, room, m, objs + [o], level);
    TakenPushes(spots, kind, room, m, objs, level, o);
    AppendAssoc(objs, [o], Taken(kind, level, room, m, objs + [o], spots[1..], 0));
  }

  /** Every attempt loop is exactly its reference: it pushes, in attempt
      order, one object at the cell of each attempt that `Takes`, and
      nothing else. In particular no attempt on a free cell is lost. */
  lemma {:induction false} AttemptsPushExactly(spots: seq<Spot>, kind: Kind, room: Rect, m: Map, objs: seq<Object>, level: int)
    requires SpotsOk(room, m, kind, level, spots) && Choices(kind, level) > 0
    ensures Attempts(spots, kind, room, m, objs, level) == Some(objs + Taken(kind, level, room, m, objs, spots, 0))
    decreases |spots|, 1
  {
    if |spots| > 0 {
      if IsBlocked(spots[0].x, spots[0].y, m, objs) {
        BlockedStep(spots, kind, room, m, objs, level);
      } else {
        PushStep(spots, kind, room, m, objs, level);
      }
    } else {
      assert objs + [] == objs;
    }
  }

  /** From -99 to 99 both tables are populated, so no attempt loop fails. */
  lemma {:induction false} AttemptsSucceed(spots: seq<Spot>, kind: Kind, room: Rect, m: Map, objs: seq<Object>, level: int)
    requires SpotsOk(room, m, kind, level, spots)
    requires -99 <= level <= 99
    ensures Attempts(spots, kind, room, m, objs, level).Some?
    decreases |spots|
  {
    if |spots| > 0 {
      TablesAreNonEmpty(level);
      RestSpotsOk(room, m, kind, level, spots);
      var s := spots[0];
      if IsBlocked(s.x, s.y, m, objs) {
        AttemptsSucceed(spots[1..], kind, room, m, objs, level);
      } else {
        var made := Make(kind, level, s.pick, s.x, s.y);
        AttemptsSucceed(spots[1..], kind, room, m, objs + [made.value], level);
      }
    }
  }

  /** An attempt at a free cell is not lost: the first attempt whose cell is
      free pushes an object onto that cell. */
  lemma FreeFirstSpotIsTaken(spots: seq<Spot>, kind: Kind, room: Rect, m: Map, objs: seq<Object>, level: int)
    requires SpotsOk(room, m, kind, level, spots)
    requires |spots| > 0 && -99 <= level <= 99
    requires !IsBlocked(spots[0].x, spots[0].y, m, objs)
    ensures var r := Attempts(spots, kind, room, m, objs, level).value;
      |r| > |objs| && r[|objs|].x == spots[0].x && r[|objs|].y == spots[0].y
  {
    var s := spots[0];
    assert SpotsOk(room, m, kind, level, spots[1..]) by {
      forall k | 0 <= k < |spots[1..]| ensures SpotOk(room, m, kind, level, spots[1..][k]) {
        assert spots[1..][k] == spots[k + 1];
      }
    }
    var o := Make(kind, level, s.pick, s.x, s.y).value;
    var next := objs + [o];
    var r := Attempts(spots[1..], kind, room, m, next, level).value;
    assert r[..|next|] == next;
    assert r[|objs|] == next[|objs|];
  }

  /** Attempts whose cells are all walls push nothing. */
  lemma {:induction false} WalledSpotsPlaceNothing(spots: seq<Spot>, kind: Kind, room: Rect, m: Map, objs: seq<Object>, level: int)
    requires SpotsOk(room, m, kind, level, spots)
    requires forall k :: 0 <= k < |spots| ==> m[spots[k].x][spots[k].y].blocked
    ensures Attempts(spots, kind, room, m, objs, level) == Some(objs)
    decreases |spots|
  {
    if |spots| > 0 {
      assert SpotsOk(room, m, kind, level, spots[1..]) by {
        forall k | 0 <= k < |spots[1..]| ensures SpotOk(room, m, kind, level, spots[1..][k]) {
          assert spots[1..][k] == spots[k + 1];
        }
      }
      WalledSpotsPlaceNothing(spots[1..], kind, room, m, objs, level);
    }
  }

  /** The NPC pass followed by the item pass keeps every promise from the
      first pushed object on. */
  lemma BothPassesFacts(m: Map, room: Rect, objs: seq<Object>, mid: seq<Object>, r: seq<Object>)
    requires Extends(mid, objs) && PlacedWhereFree(m, mid, |objs|) && InsideRoom(room, mid, |objs|)
    requires Extends(r, mid) && PlacedWhereFree(m, r, |mid|) && InsideRoom(room, r, |mid|)
    ensures Extends(r, objs) && PlacedWhereFree(m, r, |objs|) && InsideRoom(room, r, |objs|)
    ensures PlacedOnFloor(m, r, |objs|)
    ensures Unstacked(objs) ==> Unstacked(r)
  {
    PlacementsCompose(m, objs, mid, r);
    FreePlacementFacts(m, r, |objs|);
    forall i | |objs| <= i < |mid| ensures r[i] == mid[i] {
      assert r[..|mid|] == mid;
    }
    if Unstacked(objs) {
      assert r[..|objs|] == objs;
      FreePlacementKeepsUnstacked(r, |objs|);
    }
  }

  /** `place_objects(room, map, objects, level)`: the NPC attempts, then the
      item attempts. The pushes number at most `max_npcs + max_items`, lie
      strictly inside the room on cells that were free when pushed, and never
      stack two blocking objects. It fails only when a table is empty at
      `level`, which never happens for levels up to 99. */
  function PlaceObjects(room: Rect, m: Map, objs: seq<Object>, level: nat, d: RoomDraws): (r: Option<seq<Object>>)
    requires DrawsOk(room, m, level, d)
    ensures level <= 99 ==> r.Some?
    ensures r.Some? ==> Extends(r.value, objs)
    ensures r.Some? ==> |r.value| <= |objs| + FromMapLevel(MAX_NPCS, level) + FromMapLevel(MAX_ITEMS, level)
    ensures r.Some? ==> PlacedWhereFree(m, r.value, |objs|) && InsideRoom(room, r.value, |objs|)
    ensures r.Some? ==> PlacedOnFloor(m, r.value, |objs|)
    ensures r.Some? && Unstacked(objs) ==> Unstacked(r.value)
  {
    var withNpcs := Attempts(d.npcs, NpcKind, room, m, objs, level);
    assert level <= 99 ==> withNpcs.Some? by {
      if level <= 99 { AttemptsSucceed(d.npcs, NpcKind, room, m, objs, level); }
    }
    if withNpcs.None? then None
    else
      var all := Attempts(d.items, ItemKind, room, m, withNpcs.value, level);
      assert level <= 99 ==> all.Some? by {
        if level <= 99 { AttemptsSucceed(d.items, ItemKind, room, m, withNpcs.value, level); }
      }
      if all.None? then None
      else
        BothPassesFacts(m, room, objs, withNpcs.value, all.value);
        all
  }

  /** `place_objects` pushes first the NPCs and then the items, each loop
      exactly its reference: at most `max_npcs` NPCs, judged from the objects
      before the call, then at most `max_items` items, judged from the
      objects after the NPC loop. */
  lemma PlaceObjectsExactly(room: Rect, m: Map, objs: seq<Object>, level: nat, d: RoomDraws)
    requires DrawsOk(room, m, level, d) && Choices(NpcKind, level) > 0 && Choices(ItemKind, level) > 0
    ensures var npcs := Taken(NpcKind, level, room, m, objs, d.npcs, 0);
            var items := Taken(ItemKind, level, room, m, objs + npcs, d.items, 0);
            && PlaceObjects(room, m, objs, level, d) == Some(objs + npcs + items)
            && |npcs| <= FromMapLevel(MAX_NPCS, level) && |items| <= FromMapLevel(MAX_ITEMS, level)
            && (forall i :: 0 <= i < |npcs| ==> OfKind(NpcKind, npcs[i]))
            && (forall i :: 0 <= i < |items| ==> OfKind(ItemKind, items[i]))
  {
    var npcs := Taken(NpcKind, level, room, m, objs, d.npcs, 0);
    AttemptsPushExactly(d.npcs, NpcKind, room, m, objs, level);
    AttemptsPushExactly(d.items, ItemKind, room, m, objs + npcs, level);
  }
}

=== FILE: simple_fast.dfy ===
/** The random-rooms generator, `make_map_simple_fast` of
    src/map_algos/simple_fast.rs: up to `MAX_ROOMS` random rooms are tried in
    turn, each kept only when it neither overlaps nor touches a room kept
    before it; kept rooms are carved, joined in order by tunnels, and every
    kept room after the first gets a few random NPC and item attempts. */
module SimpleFast {
  import opened Options
  import opened Constants
  import opened Rects
  import opened Objects
  import opened Levels
  import RoomPopulation

  const ROOM_MAX_SIZE: int := 12
  const ROOM_MIN_SIZE: int := 6
  const MAX_ROOMS: int := 32

  /** One try of the loop: the draws `w`, `h` in `[ROOM_MIN_SIZE, ROOM_MAX_SIZE]`,
      `x` in `[0, MAP_WIDTH - w)`, `y` in `[0, MAP_HEIGHT - h)`, and the
      draws the room would use if kept: the tunnel coin and its attempts. */
  datatype Candidate = Candidate(w: int, h: int, x: int, y: int, hFirst: bool, fill: RoomPopulation.RoomDraws)

  /** `Rect::new(x, y, w, h)`. */
  function CandidateRoom(c: Candidate): Rect {
    Sized(c.x, c.y, c.w, c.h)
  }

  ghost predicate CandidateOk(c: Candidate, level: nat) {
    && ROOM_MIN_SIZE <= c.w <= ROOM_MAX_SIZE && ROOM_MIN_SIZE <= c.h <= ROOM_MAX_SIZE
    && 0 <= c.x < MAP_WIDTH - c.w && 0 <= c.y < MAP_HEIGHT - c.h
    && FillOk(ByRoom(c.fill), CandidateRoom(c), level)
  }

  /** The candidate's room overlaps or touches some kept room. */
  predicate Clashes(kept: seq<Candidate>, c: Candidate) {
    exists k :: 0 <= k < |kept| && IntersectsWith(CandidateRoom(c), CandidateRoom(kept[k]))
  }

  /** The kept rooms, in order. A candidate is kept exactly when it clashes
      with no room kept before it (`AcceptIsGreedy`): so kept rooms never
      overlap or touch each other and the first candidate is always kept. */
  function Accept(cands: seq<Candidate>): (r: seq<Candidate>)
    ensures |r| <= |cands|
    ensures forall i, j :: 0 <= i < |r| && 0 <= j < |r| && i != j ==>
              !IntersectsWith(CandidateRoom(r[i]), CandidateRoom(r[j]))
    ensures |cands| > 0 ==> |r| > 0 && r[0] == cands[0]
    decreases |cands|
  {
    if |cands| == 0 then []
    else
      var front := cands[..|cands| - 1];
      var c := cands[|cands| - 1];
      var before := Accept(front);
      if Clashes(before, c) then before
      else
        AppendKeepsApart(before, c);
        before + [c]
  }

  /** Every kept room is a candidate, and every candidate left out clashes
      with a kept room. */
  lemma {:induction false} AcceptCovers(cands: seq<Candidate>)
    ensures forall k :: 0 <= k < |Accept(cands)| ==> Accept(cands)[k] in cands
    ensures forall i :: 0 <= i < |cands| ==> cands[i] in Accept(cands) || Clashes(Accept(cands), cands[i])
    decreases |cands|
  {
    if |cands| > 0 {
      var front := cands[..|cands| - 1];
      var c := cands[|cands| - 1];
      var before := Accept(front);
      AcceptCovers(front);
      assert cands == front + [c];
      assert forall i :: 0 <= i < |front| ==> front[i] == cands[i];
      if !Clashes(before, c) {
        AppendKeepsCovered(front, before, c);
        var r := before + [c];
        forall k | 0 <= k < |r| ensures r[k] in cands {
          if k < |before| {
            assert r[k] == before[k];
          }
        }
      }
    }
  }

  /** Kept rooms that are pairwise apart stay so when a room that clashes
      with none of them is added. */
  lemma AppendKeepsApart(before: seq<Candidate>, c: Candidate)
    requires forall i, j :: 0 <= i < |before| && 0 <= j < |before| && i != j ==>
               !IntersectsWith(CandidateRoom(before[i]), CandidateRoom(before[j]))
    requires !Clashes(before, c)
    ensures var r := before + [c];
            forall i, j :: 0 <= i < |r| && 0 <= j < |r| && i != j ==>
              !IntersectsWith(CandidateRoom(r[i]), CandidateRoom(r[j]))
  {
    var r := before + [c];
    forall i, j | 0 <= i < |r| && 0 <= j < |r| && i != j
      ensures !IntersectsWith(CandidateRoom(r[i]), CandidateRoom(r[j]))
    {
      if i == |before| {
        assert !IntersectsWith(CandidateRoom(c), CandidateRoom(before[j]));
      } else if j == |before| {
        assert !IntersectsWith(CandidateRoom(c), CandidateRoom(before[i]));
      } else {
        assert r[i] == before[i] && r[j] == before[j];
      }
    }
  }

  /** Adding a kept room keeps every earlier candidate kept or clashing. */
  lemma AppendKeepsCovered(front: seq<Candidate>, before: seq<Candidate>, c: Candidate)
    requires forall i :: 0 <= i < |front| ==> front[i] in before || Clashes(before, front[i])
    ensures var r := before + [c];
            forall i :: 0 <= i < |front + [c]| ==> (front + [c])[i] in r || Clashes(r, (front + [c])[i])
  {
    var r := before + [c];
    forall i | 0 <= i < |front + [c]| ensures (front + [c])[i] in r || Clashes(r, (front + [c])[i]) {
      if i < |front| {
        assert (front + [c])[i] == front[i];
        if Clashes(before, front[i]) {
          var k :| 0 <= k < |before| && IntersectsWith(CandidateRoom(front[i]), CandidateRoom(before[k]));
          assert r[k] == before[k];
        }
      }
    }
  }

  /** Later candidates never displace a kept room: the rooms kept from the
      first `i` candidates begin the rooms kept from all of them. */
  lemma {:induction false} AcceptPrefix(cands: seq<Candidate>, i: nat)
    requires i <= |cands|
    ensures Accept(cands[..i]) <= Accept(cands)
    decreases |cands|
  {
    if i < |cands| {
      var front := cands[..|cands| - 1];
      assert front[..i] == cands[..i];
      AcceptPrefix(front, i);
    } else {
      assert cands[..i] == cands;
    }
  }

  /** The greedy rule, candidate by candidate: candidate `i` is kept, right
      after the rooms kept from the candidates before it, exactly when it
      clashes with none of those rooms. Rooms it clashes with only among
      rejected candidates do not matter. With `AcceptPrefix` this fixes
      `Accept(cands)` as the in-order greedy selection. */
  lemma AcceptIsGreedy(cands: seq<Candidate>, i: nat)
    requires i < |cands|
    ensures var before := Accept(cands[..i]);
            Accept(cands[..i + 1]) == if Clashes(before, cands[i]) then before else before + [cands[i]]
  {
    assert cands[..i + 1][..i] == cands[..i];
  }

  /** The kept rooms, each furnished by its own attempts. */
  function Plan(kept: seq<Candidate>): (rooms: seq<PlannedRoom>)
    ensures |rooms| == |kept|
    ensures forall i :: 0 <= i < |kept| ==> rooms[i].room == CandidateRoom(kept[i])
  {
    seq(|kept|, i requires 0 <= i < |kept| => PlannedRoom(CandidateRoom(kept[i]), kept[i].hFirst, ByRoom(kept[i].fill)))
  }

  /** A candidate room lies off the map's edge and holds its centre. */
  lemma CandidateRoomOk(c: Candidate, level: nat)
    requires CandidateOk(c, level)
    ensures RoomOk(CandidateRoom(c))
  {
    var r := CandidateRoom(c);
    var ctr := Center(r);
    assert 2 * ctr.0 <= r.x1 + r.x2 <= 2 * ctr.0 + 1;
    assert 2 * ctr.1 <= r.y1 + r.y2 <= 2 * ctr.1 + 1;
  }

  /** The kept rooms meet the shared loop's needs, there are between 1 and
      `MAX_ROOMS` of them, and no two of them overlap or touch. */
  lemma PlanOk(cands: seq<Candidate>, level: nat)
    requires |cands| == MAX_ROOMS && forall i :: 0 <= i < |cands| ==> CandidateOk(cands[i], level)
    ensures SlotsOk(Plan(Accept(cands)), level)
    ensures 1 <= |Plan(Accept(cands))| <= MAX_ROOMS
    ensures forall i, j :: 0 <= i < |Accept(cands)| && 0 <= j < |Accept(cands)| && i != j ==>
              !IntersectsWith(Plan(Accept(cands))[i].room, Plan(Accept(cands))[j].room)
  {
    var kept := Accept(cands);
    var rooms := Plan(kept);
    AcceptCovers(cands);
    forall k | 0 <= k < |kept| ensures RoomOk(rooms[k].room) && FillOk(rooms[k].fill, rooms[k].room, level) {
      var i :| 0 <= i < |cands| && cands[i] == kept[k];
      CandidateRoomOk(kept[k], level);
    }
  }

  /** `make_map_simple_fast(all_objects, level)`. It fails only when level 0
      has no player to move or a table is empty at `level`. On success the
      map's floor is exactly the kept rooms and the tunnels between
      consecutive kept rooms, consecutive centres are joined by floor, the
      down and up positions are the first and last kept rooms' centres, and
      everything pushed after the anchor stands on floor with blockers
      unstacked. */
  method MakeMap(objs: seq<Object>, level: nat, cands: seq<Candidate>) returns (r: Option<Built>)
    requires |cands| == MAX_ROOMS && forall i :: 0 <= i < |cands| ==> CandidateOk(cands[i], level)
    ensures level <= 99 && (level > 0 || |objs| > PLAYER) ==> r.Some?
    ensures r.None? <==> Fails(Plan(Accept(cands)), objs, level)
    ensures r.Some? ==> var rooms := Plan(Accept(cands));
      && Anchor(objs, level, Center(rooms[0].room)).Some?
      && LevelOk(rooms, Anchor(objs, level, Center(rooms[0].room)).value, level, r.value)
  {
    PlanOk(cands, level);
    r := Build(Plan(Accept(cands)), objs, level);
  }
}

=== FILE: tables.dfy ===
/** What the loot and NPC tables share: rows valid for a span of levels, and
    the order-preserving filter that trims a table to one level. */
module Tables {

  /** A row is valid at `level` when `min <= level <= max`. */
  predicate InLevelRange(minLevel: int, maxLevel: int, level: int) {
    minLevel <= level <= maxLevel
  }

  /** One when `level` lies in the span, zero otherwise. */
  function InSpan(minLevel: int, maxLevel: int, level: int): nat {
    if InLevelRange(minLevel, maxLevel, level) then 1 else 0
  }

  /** How many rows pass the filter. */
  function CountKept<T>(rows: seq<T>, keep: T -> bool): nat {
    if |rows| == 0 then 0
    else (if keep(rows[0]) then 1 else 0) + CountKept(rows[1..], keep)
  }

  /** `iter().filter(keep).cloned().collect()`. */
  function Filter<T(!new)>(rows: seq<T>, keep: T -> bool): (r: seq<T>)
    ensures |r| <= |rows|
  {
    if |rows| == 0 then []
    else if keep(rows[0]) then [rows[0]] + Filter(rows[1..], keep)
    else Filter(rows[1..], keep)
  }

  /** The filtered table holds exactly the rows that pass the filter. */
  lemma {:induction false} FilterKeeps<T(!new)>(rows: seq<T>, keep: T -> bool)
    ensures forall x :: x in Filter(rows, keep) <==> x in rows && keep(x)
    decreases |rows|
  {
    if |rows| > 0 {
      FilterKeeps(rows[1..], keep);
      assert rows == [rows[0]] + rows[1..];
    }
  }

  /** The filtered table has one row for every row that passes. */
  lemma {:induction false} FilterLength<T(!new)>(rows: seq<T>, keep: T -> bool)
    ensures |Filter(rows, keep)| == CountKept(rows, keep)
    decreases |rows|
  {
    if |rows| > 0 {
      FilterLength(rows[1..], keep);
    }
  }

  /** Counting from row `i` on is row `i`'s share plus the count after it. */
  lemma CountKeptAt<T>(rows: seq<T>, keep: T -> bool, i: nat)
    requires i < |rows|
    ensures CountKept(rows[i..], keep) == (if keep(rows[i]) then 1 else 0) + CountKept(rows[i + 1..], keep)
  {
    assert rows[i..][1..] == rows[i + 1..];
  }

  /** Counting distributes over concatenation. */
  lemma {:induction false} CountKeptConcat<T>(a: seq<T>, b: seq<T>, keep: T -> bool)
    ensures CountKept(a + b, keep) == CountKept(a, keep) + CountKept(b, keep)
    decreases |a|
  {
    if |a| > 0 {
      assert (a + b)[1..] == a[1..] + b;
      CountKeptConcat(a[1..], b, keep);
    } else {
      assert a + b == b;
    }
  }

  /** Filtering distributes over concatenation: together with the one-row
      case this says the kept rows appear in their original order. */
  lemma {:induction false} FilterConcat<T(!new)>(a: seq<T>, b: seq<T>, keep: T -> bool)
    ensures Filter(a + b, keep) == Filter(a, keep) + Filter(b, keep)
    decreases |a|
  {
    if |a| > 0 {
      assert (a + b)[1..] == a[1..] + b;
      FilterConcat(a[1..], b, keep);
    } else {
      assert a + b == b;
    }
  }

  /** Filtering keeps a row exactly when the predicate holds of it. */
  lemma FilterSingle<T(!new)>(x: T, keep: T -> bool)
    ensures Filter([x], keep) == if keep(x) then [x] else []
  {
    assert [x][1..] == [];
  }
}

=== FILE: tiles.dfy ===
/** Map cells and the map itself (src/map.rs). */
module Tiles {
  import opened Constants

  /** One map cell. `explored` is only ever changed by rendering. */
  datatype Tile = Tile(blocked: bool, explored: bool, blockSight: bool)

  /** Floor: passable and see-through. */
  function Empty(): Tile {
    Tile(false, false, false)
  }

  /** Wall: blocks movement and sight. */
  function Wall(): Tile {
    Tile(true, false, true)
  }

  /** A floor cell blocks neither movement nor sight, a wall blocks both, and
      a freshly built cell of either kind is unexplored. */
  lemma TileKinds(t: Tile)
    requires t == Empty() || t == Wall()
    ensures t.blocked == t.blockSight
    ensures !t.explored
    ensures t.blocked <==> t == Wall()
  {
  }

  /** The map is column-major: `m[x][y]`. */
  type Map = seq<seq<Tile>>

  /** A map of the game's size. */
  predicate IsGrid(m: Map) {
    |m| == MAP_WIDTH && forall x :: 0 <= x < |m| ==> |m[x]| == MAP_HEIGHT
  }

  predicate InMap(m: Map, x: int, y: int) {
    0 <= x < |m| && 0 <= y < |m[x]|
  }

  /** The cell exists and does not block movement. */
  predicate IsFloor(m: Map, x: int, y: int) {
    InMap(m, x, y) && !m[x][y].blocked
  }

  /** Cells at least one step away from the map's edge. */
  predicate Interior(x: int, y: int) {
    1 <= x <= MAP_WIDTH - 2 && 1 <= y <= MAP_HEIGHT - 2
  }

  /** Every edge cell of the map is a wall. */
  ghost predicate BorderIsWall(m: Map) {
    forall x, y :: InMap(m, x, y) && !Interior(x, y) ==> m[x][y] == Wall()
  }

  /** Going from `m` to `m2` only turned cells into floor: the size is kept,
      and every floor cell of `m` is still floor. */
  ghost predicate OnlyDigs(m: Map, m2: Map) {
    && |m2| == |m|
    && (forall x :: 0 <= x < |m| ==> |m2[x]| == |m[x]|)
    && (forall x, y :: IsFloor(m, x, y) ==> IsFloor(m2, x, y))
  }

  lemma OnlyDigsTransitive(a: Map, b: Map, c: Map)
    requires OnlyDigs(a, b) && OnlyDigs(b, c)
    ensures OnlyDigs(a, c)
  {
  }

  /** `vec![vec![Tile::wall(); MAP_HEIGHT]; MAP_WIDTH]`. */
  function AllWalls(): (m: Map)
    ensures IsGrid(m) && BorderIsWall(m)
    ensures forall x, y :: InMap(m, x, y) ==> m[x][y] == Wall()
  {
    seq(MAP_WIDTH, _ => seq(MAP_HEIGHT, _ => Wall()))
  }
}

=== FILE: transition.dfy ===
/** Level-scaled step tables (src/transition.rs). */
module Transitions {

  /** One step of a table: from dungeon level `level` on, the value is `value`
      (both are `u32` in the game). */
  datatype Transition = Transition(level: nat, value: nat)

  /** The entry at index `i` applies to the query level. */
  predicate Applies(table: seq<Transition>, i: int, level: nat)
    requires 0 <= i < |table|
  {
    table[i].level <= level
  }

  /** Scans the table from its end and returns the value of the first entry
      whose threshold is at most `level`, or 0 when there is none. */
  function FromMapLevel(table: seq<Transition>, level: nat): (r: nat)
    ensures r == 0 || exists i :: 0 <= i < |table| && table[i].value == r
    decreases |table|
  {
    if |table| == 0 then 0
    else if table[|table| - 1].level <= level then table[|table| - 1].value
    else FromMapLevel(table[..|table| - 1], level)
  }

  /** When no entry applies, the result is the default 0. */
  lemma {:induction false} NoApplicableEntryGivesZero(table: seq<Transition>, level: nat)
    requires forall i :: 0 <= i < |table| ==> !Applies(table, i, level)
    ensures FromMapLevel(table, level) == 0
    decreases |table|
  {
    if |table| > 0 {
      var n := |table| - 1;
      assert !Applies(table, n, level);
      var front := table[..n];
      forall i | 0 <= i < n ensures !Applies(front, i, level) {
        assert !Applies(table, i, level);
      }
      NoApplicableEntryGivesZero(front, level);
    }
  }

  /** When entry `i` applies and no later entry does, the result is entry
      `i`'s value: the highest-index applicable entry wins. */
  lemma {:induction false} LastApplicableEntryWins(table: seq<Transition>, level: nat, i: int)
    requires 0 <= i < |table| && Applies(table, i, level)
    requires forall j :: i < j < |table| ==> !Applies(table, j, level)
    ensures FromMapLevel(table, level) == table[i].value
    decreases |table|
  {
    var n := |table| - 1;
    if i < n {
      assert !Applies(table, n, level);
      var front := table[..n];
      assert front[i] == table[i];
      forall j | i < j < n ensures !Applies(front, j, level) {
        assert !Applies(table, j, level);
      }
      LastApplicableEntryWins(front, level, i);
    }
  }

  lemma EmptyTableGivesZero(level: nat)
    ensures FromMapLevel([], level) == 0
  {
  }

  /** Thresholds strictly increase along the table. */
  predicate Ascending(table: seq<Transition>) {
    forall i, j :: 0 <= i < j < |table| ==> table[i].level < table[j].level
  }

  /** On an ascending table: below the first threshold the value is 0, at a
      threshold it is that entry's value, and it is constant from one threshold
      up to just below the next. */
  lemma AscendingTableIsStepFunction(table: seq<Transition>, k: int, a: nat, b: nat)
    requires Ascending(table)
    requires 0 <= k < |table|
    requires table[k].level <= a <= b
    requires k + 1 < |table| ==> b < table[k + 1].level
    ensures FromMapLevel(table, a) == table[k].value
    ensures FromMapLevel(table, b) == table[k].value
    ensures forall q: nat :: q < table[0].level ==> FromMapLevel(table, q) == 0
  {
    LastApplicableEntryWins(table, a, k);
    LastApplicableEntryWins(table, b, k);
    forall q: nat | q < table[0].level ensures FromMapLevel(table, q) == 0 {
      NoApplicableEntryGivesZero(table, q);
    }
  }

  /** The item-density table of the modified BSP generator is not monotone:
      the table is honoured as written. */
  lemma ItemChanceIsNotMonotone()
    ensures FromMapLevel([Transition(0, 12), Transition(10, 32), Transition(11, 12), Transition(20, 64)], 10) == 32
    ensures FromMapLevel([Transition(0, 12), Transition(10, 32), Transition(11, 12), Transition(20, 64)], 11) == 12
  {
  }
}
